=== FILE: README.md ===
# FindUnusedResources in Dafny

FindUnusedResources looks for resource strings that no code refers to in a C#
source tree. The repository holds three tools that share this job, and this
project models the logic at the core of each one.

- **The two WPF view models.** One is the desktop variant
  (`FindUnusedResources.Desktop/MainWindowViewModel.cs`). The other is the
  older variant (`FindUnusedResources/MainWindowViewModel.cs`). Both do the
  following:
  - list the files under a source folder, using `FileHelper.GetAllFiles`;
  - pull `Stem.Key` names out of every `.resx` file with regular expressions;
  - count, for every key, the lines of every code file that contain it;
  - turn their list settings into text and read them back;
  - report how an analysis run ended.
- **The console tool.** It reads the resource-string properties of a
  `*.Designer.cs` file through Roslyn (`ResourceConverter`). It collects
  the `Class.Member` accesses of every code file
  (`SematicModelExtensions`). It then prints the strings a code file does
  not use.
- **The console tool's value classes.** These are `Resource`, `Reference`
  and `ResxResource`, together with their `Equals`, `GetHashCode` and
  `ToString`.

Each concept is one module in one file:

| module | file | concept |
|---|---|---|
| `Common` | `common.dfy` | `Option` and `Result`; a failure carries the .NET exception class |
| `Sequences` | `sequences.dfy` | subsequences, duplicate-free lists, `Filter` (LINQ `Where`), and `Selects`: the entries for the elements a filter keeps, in order |
| `Text` | `text.dfy` | ordinal string operations and `StringExtensions.Split` |
| `Decimal` | `decimal.dfy` | the decimal text of an `int`, and its parser |
| `Patterns` | `patterns.dfy` | the fixed regular expressions, written out by hand |
| `Exceptions` | `exceptions.dfy` | exception trees, `IsTypeOf`, and the final status word |
| `FileHelper` | `file_helper.dfy` | `FileHelper.GetAllFiles`, with both overloads |
| `ResourceItem` | `resource_item.dfy` | the view models' `Resource` |
| `ResxKeys` | `resx_keys.dfy` | key extraction from `.resx` text, and the key catalog |
| `LineScan` | `line_scan.dfy` | reference counting over the lines of the code files |
| `SettingsText` | `settings_text.dfy` | list settings as shown text, and parsed back |
| `Analysis` | `analysis.dfy` | `PrepareEnvironment` with `SaveSettings`, the `Analyze` pipelines and the "unused only" filter |
| `Syntax` | `syntax.dfy` | the part of a Roslyn syntax tree the console tool reads |
| `ConsoleValues` | `console_values.dfy` | the console tool's `Resource`, `Reference` and `ResxResource` |
| `ResourceConverter` | `resource_converter.dfy` | `ResourceConverter.GetResourceStrings` |
| `SemanticModel` | `semantic_model.dfy` | `GetAllResxReferences` |
| `ConsoleProgram` | `console_program.dfy` | the console `Main` |

The model replaces side effects with inputs:

- **File system.** The file system becomes functions. Directory listings
  are `listing` (mask to entries), file text is `readText`, and file lines
  are `readLines`.
- **Roslyn.** The parser becomes the `parse`/`readTree` functions. They
  return a `Syntax.Tree`.
- **Dictionary order.** The order in which the concurrent dictionary
  yields its values is the input `order`.
- **Settings.** The view model's settings and the texts of its boxes are
  inputs (`DesktopScan`, `SettingsTexts`). `PrepareEnvironment` returns
  the normalised path and the settings `SaveSettings` stores.
  `Analysis.Analyze` runs the pipeline of either view model on exactly
  those, and stops early when the directory is missing.
- **Parallelism.** `Parallel.ForEach` is read as a sequential loop.
  `LineScan.CheckFilesOrderIrrelevant` then proves that the visiting order
  of the files does not change any count.
- **Equality and hashing.**
  - Virtual dispatch of `Equals(object)` is modelled on the runtime class
    of the receiver.
  - `Equals(object)` calls `Equals(reference)` without a cast.
  - Inside `ResxResource.Equals(ResxResource)`, the cast call
    `((Resource)other).Equals(this)` resolves to the non-virtual
    `Resource.Equals(Resource)` overload.
  - `List.Contains` calls `Equals` on the list elements.
  - The primitives of `System.HashCode` are a parameter (`Hashing`),
    because their values are seeded per process.

## Model

| member | source | states |
|---|---|---|
| `Text.Split` | FindUnusedResources/StringExtensions.cs:9-12 | splitting never yields an empty list; a text without the separator splits into itself alone |
| `Text.JoinSplit` | FindUnusedResources/StringExtensions.cs:9-12 | joining the pieces with the separator rebuilds the original text |
| `Text.SplitPiecesFree` | FindUnusedResources/StringExtensions.cs:11 | no piece contains the separator |
| `Text.SplitJoin` | FindUnusedResources/StringExtensions.cs:11 | pieces free of the separator, once joined, split back into the same pieces, empty pieces included |
| `Text.SplitCharCount` | FindUnusedResources/StringExtensions.cs:11 | with a one-character separator there is one piece more than there are separator characters |
| `Text.FirstPiece` | FindUnusedResources.Desktop/MainWindowViewModel.cs:297 | `Split(sep).First()` is the text before the first occurrence of the separator, with no occurrence starting inside it, even for separators that can overlap themselves; it is the whole text when there is none |
| `Text.LastPieceAfterSeparator` | FindUnusedResources.Desktop/MainWindowViewModel.cs:296 | `Split(sep).Last()` is the text after the last separator character |
| `Text.BlankContainsNoVisibleText` | FindUnusedResources.Desktop/MainWindowViewModel.cs:333 | a blank line cannot contain a text that has a non-white-space character |
| `Patterns.Run` | FindUnusedResources.Desktop/MainWindowViewModel.cs:273 | the greedy `\w+` run is a prefix of word characters that stops at the first non-word character |
| `Patterns.RunStopsAt` | FindUnusedResources.Desktop/MainWindowViewModel.cs:273 | a word run followed by a non-word character is matched exactly |
| `Patterns.StripComments` | FindUnusedResources.Desktop/MainWindowViewModel.cs:299 | removing comments never lengthens the text, and leaves a text without `<!--` unchanged |
| `Patterns.CommentBlockRemoved` | FindUnusedResources.Desktop/MainWindowViewModel.cs:299 | the lazy `<!--(.*?)-->` deletes a block from its first opener to the first closer after it, with its content, and keeps the text around it |
| `Patterns.NameAtSound` | FindUnusedResources.Desktop/MainWindowViewModel.cs:273 | a capture at a position means the text there reads `<data name="`, a non-empty word run, then `"` |
| `Patterns.NameAtComplete` | FindUnusedResources.Desktop/MainWindowViewModel.cs:273 | conversely, every such occurrence is a match whose capture is the word run |
| `Patterns.FirstNameFrom` | FindUnusedResources.Desktop/MainWindowViewModel.cs:309-310 | `Match` fails exactly when no position matches; otherwise it captures at the leftmost match |
| `Patterns.LeftmostMatch` | FindUnusedResources.Desktop/MainWindowViewModel.cs:388 | a reported match lies at or after the scan position, inside the text, and has positive length |
| `Patterns.LeftmostMatchFirst` | FindUnusedResources.Desktop/MainWindowViewModel.cs:388 | no match starts between the scan position and the reported one, and none anywhere after the scan position when nothing is reported |
| `SettingsText.LeftmostMatchIs` | FindUnusedResources.Desktop/MainWindowViewModel.cs:372 | a match with none before it is the one the split takes |
| `Patterns.WhereNotBlank` | FindUnusedResources.Desktop/MainWindowViewModel.cs:333 | exactly the non-blank items come out, every copy of each, in their original order (a subsequence with the same multiset of non-blank items), and a list without blank items is kept whole |
| `Exceptions.IsTypeOfLeaves` | FindUnusedResources.Desktop/ExceptionExtensions.cs:8-17 | an exception tree is "of type T" exactly when every non-aggregate leaf is a T; an empty aggregate is vacuously of every type |
| `Exceptions.PureCanceledIsTypeOf` | FindUnusedResources/MainWindowViewModel.cs:193-202 | the older hand-written test agrees with `IsTypeOf<OperationCanceledException>` on every tree |
| `Exceptions.StatusWordLegacy` | FindUnusedResources/MainWindowViewModel.cs:154-191 | "Completed" exactly after a normal return; "Error occurred" exactly for a non-cancellation exception; "Task is cancelled" exactly for a purely cancelled aggregate; the empty word exactly for a bare cancellation, whose catch sets `Status` and not the local word, or a mixed aggregate |
| `Exceptions.StatusWordDesktop` | FindUnusedResources.Desktop/MainWindowViewModel.cs:195-232 | the same four words for the same four cases, with the aggregate tested by `IsTypeOf` |
| `Exceptions.StatusWordsAgree` | FindUnusedResources.Desktop/MainWindowViewModel.cs:213-218 | both view models report the same word for every outcome |
| `Exceptions.CancelledWordMeansAllLeavesCancelled` | FindUnusedResources.Desktop/MainWindowViewModel.cs:213-218 | an aggregate is reported cancelled exactly when all its leaves are cancellations |
| `Exceptions.CancellationExamples` | FindUnusedResources/MainWindowViewModel.cs:193-202 | a `TaskCanceledException` counts as a cancellation; a mixed aggregate does not; a bare cancellation leaves the status word empty |
| `FileHelper.EffectiveMask` | FindUnusedResources.Net472/FileHelper.cs:12-13 | a missing or empty mask becomes `*.*`; any other mask is used as given |
| `FileHelper.MaskFor` | FindUnusedResources.Net472/FileHelper.cs:27 | the mask starts with `*` and ends with the extension; an extension already starting with `*` is kept |
| `FileHelper.MaskForIdempotent` | FindUnusedResources.Net472/FileHelper.cs:27 | making a mask of a mask changes nothing |
| `FileHelper.GetExtension` | FindUnusedResources.Net472/FileHelper.cs:29 | the extension is empty, or a dot and a dot-free tail with which the name ends |
| `FileHelper.GetExtensionOf` | FindUnusedResources.Net472/FileHelper.cs:29 | the extension of `stem.ext` is `.ext` |
| `FileHelper.TrailingDotHasNoExtension` | FindUnusedResources.Net472/FileHelper.cs:29 | a name ending in a dot has no extension |
| `FileHelper.FolderKey` | FindUnusedResources.Net472/FileHelper.cs:32 | the folder key ends with a backslash; a folder outside the root keeps its full name |
| `FileHelper.FolderKeyUnderRoot` | FindUnusedResources.Net472/FileHelper.cs:32 | a folder below the root becomes its relative path between backslashes |
| `FileHelper.ExcludedFolderRejected` | FindUnusedResources.Net472/FileHelper.cs:31-32 | a file whose relative folder contains an excluded folder name is not returned |
| `FileHelper.KeepFiles` | FindUnusedResources.Net472/FileHelper.cs:15-19 | a path is kept exactly when some listed entry has it and passes the check |
| `FileHelper.KeepFilesOrder` | FindUnusedResources.Net472/FileHelper.cs:15-19 | without a check every listed file is kept, in listing order; with one, there is one path per accepted entry, and it follows the paths of the accepted entries listed before it; this fixes the list (`Sequences.SelectsUnique`) |
| `FileHelper.GetAllFiles` | FindUnusedResources.Net472/FileHelper.cs:22-37 | a path is returned exactly when the listing of some extension's mask holds an entry for it that is writable, has an accepted extension and lies in no excluded folder |
| `FileHelper.MaskMember` | FindUnusedResources.Net472/FileHelper.cs:25-33 | one extension's mask contributes a path exactly when its listing holds an entry with that path that the check accepts |
| `FileHelper.ReturnedFilesAccepted` | FindUnusedResources.Net472/FileHelper.cs:28-33 | everything returned comes from a listed entry the filter accepts |
| `FileHelper.CollectAppends` | FindUnusedResources.Net472/FileHelper.cs:24-34 | each further extension appends its own files after those already found |
| `FileHelper.DuplicateWhenTwoMasksMatch` | FindUnusedResources.Net472/FileHelper.cs:24-36 | a file matched by two configured masks is returned twice |
| `ResourceItem.NewResource` | FindUnusedResources.Net472/Resource.cs:7-14 | a new resource has the key as its name and no references yet |
| `ResxKeys.FileStem` | FindUnusedResources.Desktop/MainWindowViewModel.cs:296-297 | the stem holds neither a backslash nor a dot |
| `ResxKeys.FileStemOf` | FindUnusedResources.Desktop/MainWindowViewModel.cs:296-297 | the stem of `dir\stem.ext` is `stem` |
| `ResxKeys.FragmentKeys` | FindUnusedResources.Desktop/MainWindowViewModel.cs:300-315 | a key is produced exactly for each `</data>` fragment whose leftmost entry match captures a name, as `stem.name` |
| `ResxKeys.KeyShape` | FindUnusedResources.Desktop/MainWindowViewModel.cs:309-313 | every key is the stem, a dot, and a non-empty run of word characters |
| `ResxKeys.AtMostOneKeyPerFragment` | FindUnusedResources.Desktop/MainWindowViewModel.cs:309-310 | a fragment yields at most one key, and none when the pattern does not match |
| `ResxKeys.SatelliteFilesShareKeys` | FindUnusedResources.Desktop/MainWindowViewModel.cs:296-297 | `X.resx` and `X.de.resx` with the same text give the same keys |
| `ResxKeys.VariantsAgreeWithoutComments` | FindUnusedResources/MainWindowViewModel.cs:246-259 | without a comment in the text, both view models extract the same keys |
| `ResxKeys.CommentedEntryIgnored` | FindUnusedResources.Desktop/MainWindowViewModel.cs:299 | in the desktop variant, an entry inside a comment contributes no key |
| `ResxKeys.CommentedEntryVariants` | FindUnusedResources/MainWindowViewModel.cs:248-258 | a commented-out entry is a key for the older variant and none for the desktop variant |
| `ResxKeys.Register` | FindUnusedResources.Desktop/MainWindowViewModel.cs:313-314 | the keys are added, each mapped to a fresh resource; other entries are left alone |
| `ResxKeys.BuildCatalog` | FindUnusedResources.Desktop/MainWindowViewModel.cs:275-278 | the catalog's keys are exactly the keys of the resource files, each with a fresh resource |
| `LineScan.CountContaining` | FindUnusedResources/MainWindowViewModel.cs:291-300 | the count equals the number of lines that contain the name |
| `LineScan.CountLines` | FindUnusedResources.Desktop/MainWindowViewModel.cs:345-351 | the loop counts exactly the lines that contain the name, the number `CountContaining` gives |
| `LineScan.FilteredCount` | FindUnusedResources.Desktop/MainWindowViewModel.cs:333 | counting after blank lines are dropped counts the non-blank lines that contain the name |
| `LineScan.VisibleNameIgnoresBlankLines` | FindUnusedResources.Desktop/MainWindowViewModel.cs:333 | for a name with a visible character, dropping blank lines changes no count |
| `LineScan.CheckLines` | FindUnusedResources.Desktop/MainWindowViewModel.cs:331-358 | each resource keeps its name and gains one reference per non-blank line containing it |
| `LineScan.CheckLinesLegacyCounts` | FindUnusedResources/MainWindowViewModel.cs:264-283 | line by line, each resource gains one reference per line containing it |
| `LineScan.VariantsCountAlike` | FindUnusedResources.Desktop/MainWindowViewModel.cs:333 | for names with a visible character, both view models count alike |
| `LineScan.BlankNameSeesBlankLine` | FindUnusedResources.Desktop/MainWindowViewModel.cs:333 | a blank name tells them apart: only the older variant counts a blank line |
| `LineScan.CheckFile` | FindUnusedResources.Desktop/MainWindowViewModel.cs:324 | checking one file adds that file's hits to every resource |
| `LineScan.CheckFiles` | FindUnusedResources.Desktop/MainWindowViewModel.cs:319-329 | every resource gains its hits summed over all files |
| `LineScan.CheckFilesOrderIrrelevant` | FindUnusedResources.Desktop/MainWindowViewModel.cs:322 | any visiting order of the same files gives the same counts |
| `SettingsText.QuotedList` | FindUnusedResources/MainWindowViewModel.cs:47 | the shown list is wrapped in double quotes |
| `SettingsText.ConvertArrayToString` | FindUnusedResources.Desktop/MainWindowViewModel.cs:51-58 | a missing or empty list shows as empty text, anything else as the quoted list |
| `SettingsText.Unquote` | FindUnusedResources.Desktop/MainWindowViewModel.cs:387-388 | a text shorter than two characters throws `ArgumentOutOfRangeException`; otherwise the parsed items are not blank |
| `SettingsText.ConvertToArray` | FindUnusedResources.Desktop/MainWindowViewModel.cs:381-389 | blank text gives the empty list; it throws exactly for a single visible character |
| `SettingsText.ParseExcludeFolders` | FindUnusedResources/MainWindowViewModel.cs:305-309 | blank text keeps the stored folders; it throws `ArgumentOutOfRangeException` exactly for a single visible character; otherwise every parsed folder is non-blank |
| `SettingsText.ParseExtensions` | FindUnusedResources.Desktop/MainWindowViewModel.cs:370-373 | blank text keeps the stored extensions; otherwise every item is made of `*`, `.` and word characters |
| `SettingsText.QuotedListRoundTrip` | FindUnusedResources.Desktop/MainWindowViewModel.cs:381-389 | quoting a list and reading it back gives the list, for items without quotes and not blank |
| `SettingsText.ConvertRoundTrip` | FindUnusedResources.Desktop/MainWindowViewModel.cs:51-58 | showing a list and saving the text gives the list back; a missing list comes back empty |
| `SettingsText.ExcludeFoldersRoundTrip` | FindUnusedResources/MainWindowViewModel.cs:305-309 | in the older variant, the quoted folder list is read back unchanged, even when it is empty |
| `SettingsText.OneCharacterThrows` | FindUnusedResources.Desktop/MainWindowViewModel.cs:387 | a lone visible character throws `ArgumentOutOfRangeException` in both parsers |
| `SettingsText.SplitQuotedJoin` | FindUnusedResources.Desktop/MainWindowViewModel.cs:388 | splitting items joined by `"; "` on the `";\s+"` pattern gives them back |
| `SettingsText.SplitExtensionJoin` | FindUnusedResources.Desktop/MainWindowViewModel.cs:372 | splitting extensions joined by `; ` on `[^\*\.\w]+` gives them back |
| `SettingsText.ExtensionsRoundTrip` | FindUnusedResources.Desktop/MainWindowViewModel.cs:46 | showing the extensions and saving the text gives the same list |
| `SettingsText.DefaultsRoundTrip` | FindUnusedResources.Desktop/Settings.cs:13-17 | the default extensions and excluded folders survive their round trips |
| `Analysis.NormalizePath` | FindUnusedResources.Desktop/MainWindowViewModel.cs:253-256 | the path ends with a backslash and starts with the input; it is unchanged exactly when it already ended with one |
| `Analysis.NormalizePathIdempotent` | FindUnusedResources/MainWindowViewModel.cs:223-226 | normalising twice is normalising once |
| `Analysis.PrepareEnvironment` | FindUnusedResources.Desktop/MainWindowViewModel.cs:239-259 | without the directory nothing is saved and there is no path; with it, it throws `ArgumentOutOfRangeException` exactly when an exclusion text is a lone visible character (the folders in both view models, the files in the desktop one); otherwise the path is the source path with one trailing backslash (unchanged when it already ends in one) and the settings are exactly those `SaveSettings` stored |
| `Analysis.SaveSettings` | FindUnusedResources.Desktop/MainWindowViewModel.cs:365-389 | it throws exactly for a lone visible character in an exclusion text the variant parses; a blank folder text gives the empty list in the desktop variant and keeps the stored list in the older one; the older variant leaves the excluded files alone |
| `Analysis.PrepareKeepsShownSettings` | FindUnusedResources.Desktop/MainWindowViewModel.cs:45-58 | with the texts `LoadSettings` shows, an existing directory gets through and the same lists are saved again |
| `Analysis.LoneFolderCharacterThrows` | FindUnusedResources/MainWindowViewModel.cs:305-308 | a lone visible character in the folder text makes both view models throw before any file is read, and `AnalyzeAsync` reports "Error occurred" |
| `Analysis.DropExcludedFiles` | FindUnusedResources.Desktop/MainWindowViewModel.cs:287-292 | a file stays exactly when it ends with no `\`-prefixed excluded name; every copy of a kept file stays and order is kept |
| `Analysis.DesignerPathOf` | FindUnusedResources.Desktop/MainWindowViewModel.cs:274 | `X.resx` maps to `X.Designer.cs` |
| `Analysis.Except` | FindUnusedResources.Desktop/MainWindowViewModel.cs:280 | the result holds exactly the elements of the first list missing from the second, without duplicates |
| `Analysis.ExceptFromOrder` | FindUnusedResources.Desktop/MainWindowViewModel.cs:280 | elements come out in the order of their first occurrence |
| `Analysis.ExceptFromUnchanged` | FindUnusedResources.Desktop/MainWindowViewModel.cs:280 | a duplicate-free list disjoint from the exclusions passes unchanged |
| `Analysis.ExceptIdempotent` | FindUnusedResources.Desktop/MainWindowViewModel.cs:280 | the second `Except` with the same designer files changes nothing |
| `Analysis.ValuesIn` | FindUnusedResources.Desktop/MainWindowViewModel.cs:281-282 | every listed value is the catalog entry of some key in the order |
| `Analysis.ValuesInFresh` | FindUnusedResources.Desktop/MainWindowViewModel.cs:281-282 | listing a fresh catalog gives one unreferenced resource per key, in the given order |
| `Analysis.DesktopScannedFiles` | FindUnusedResources.Desktop/MainWindowViewModel.cs:271-280 | the scanned files are the files found, without designer files and without duplicates |
| `Analysis.AnalyzeDesktopCounts` | FindUnusedResources.Desktop/MainWindowViewModel.cs:264-285 | after a desktop run each key has one result, counting its non-blank matching lines over all scanned files |
| `Analysis.AnalyzeLegacyCounts` | FindUnusedResources/MainWindowViewModel.cs:234-284 | after an older run each key has one result, counting its matching lines over all files |
| `Analysis.RunCounts` | FindUnusedResources.Desktop/MainWindowViewModel.cs:270-284 | for either view model, when the order enumerates the run's catalog, each key has one result, counting its hits over the run's files |
| `Analysis.Analyze` | FindUnusedResources.Desktop/MainWindowViewModel.cs:264-285 | without the directory there are no results; it throws exactly as `SaveSettings` does; otherwise, on the normalised path and the saved settings, each key of the run's catalog has one result, counting its hits over the scanned files (the older view model's run at FindUnusedResources/MainWindowViewModel.cs:234-284 likewise) |
| `Analysis.Unused` | FindUnusedResources.Desktop/MainWindowViewModel.cs:87 | exactly the results with no reference, every copy of each, in their order |
| `Analysis.SetShowUnusedOnly` | FindUnusedResources.Desktop/MainWindowViewModel.cs:78-95 | setting the same value changes nothing; switching it on shows the unused results; switching it off shows them all |
| `Analysis.ShowUnusedOnlyToggle` | FindUnusedResources.Desktop/MainWindowViewModel.cs:78-95 | switching the filter on and off again shows every result |
| `Analysis.ShowUnusedOnlyExact` | FindUnusedResources.Desktop/MainWindowViewModel.cs:84-88 | with the filter on, the shown results are exactly the unreferenced ones, every copy, in their order |
| `Decimal.NatText` | FindUnusedResources.Console/Reference.cs:50 | the text of a count is a run of digits without leading zeros |
| `Decimal.IntTextRoundTrip` | FindUnusedResources.Console/Reference.cs:50 | parsing the text of any integer gives it back |
| `Syntax.SoleClass` | FindUnusedResources.Console/ResourceConverter.cs:26-33 | the class name is found exactly when the file declares one class; zero or several throw `InvalidOperationException` |
| `ResourceConverter.CollectCount` | FindUnusedResources.Console/ResourceConverter.cs:35-53 | one resource per `internal static string` property |
| `ResourceConverter.CollectMembers` | FindUnusedResources.Console/ResourceConverter.cs:40-52 | every qualifying property yields a resource with the class and file names and no references, and nothing else is yielded |
| `ResourceConverter.CollectOrder` | FindUnusedResources.Console/ResourceConverter.cs:37-55 | one resource per qualifying declaration, and it follows the resources of the qualifying declarations before it |
| `ResourceConverter.GetResourceStrings` | FindUnusedResources.Console/ResourceConverter.cs:19-56 | it throws exactly when the file lacks a single class; otherwise it returns one resource per qualifying property, in declaration order, and nothing else |
| `ResourceConverter.GetResourceStringsUnnamed` | FindUnusedResources.Console/ResourceConverter.cs:19 | without a file name every resource records the empty file name |
| `ResourceConverter.GetResourceStringsFromFile` | FindUnusedResources.Console/ResourceConverter.cs:13-16 | reading from a path records that path as every resource's file name |
| `ResourceConverter.TypeCaseIgnored` | FindUnusedResources.Console/ResourceConverter.cs:42 | the type test ignores letter case, so `String` qualifies as `string` does |
| `SemanticModel.GetAllResxReferences` | FindUnusedResources.Console/SematicModelExtensions.cs:10-29 | never more resources than member accesses |
| `SemanticModel.ReferencesCounted` | FindUnusedResources.Console/SematicModelExtensions.cs:14-27 | one resource per member access whose receiver is a plain identifier |
| `SemanticModel.ReferencesExact` | FindUnusedResources.Console/SematicModelExtensions.cs:16-25 | the resources are exactly the (receiver, member) pairs of such accesses |
| `SemanticModel.ReferencesAppend` | FindUnusedResources.Console/SematicModelExtensions.cs:14-27 | scanning two stretches in turn gives the first stretch's matches followed by the second's |
| `SemanticModel.ChainedAccessYieldsInnermost` | FindUnusedResources.Console/SematicModelExtensions.cs:16-17 | in `A.B.C` only `A.B` is reported |
| `SemanticModel.DuplicatesKept` | FindUnusedResources.Console/SematicModelExtensions.cs:21-25 | a repeated access is reported each time |
| `ConsoleProgram.ResourceStringsExact` | FindUnusedResources.Console/Program.cs:34-41 | one key `Class.Name` per property symbol that is `internal static string`, in declaration order, and no other key |
| `ConsoleProgram.ResourceStringsOrder` | FindUnusedResources.Console/Program.cs:34-41 | the key of each qualifying declaration sits after the keys of the qualifying declarations before it, one key per such declaration |
| `ConsoleProgram.KeysAmongConverterOutput` | FindUnusedResources.Console/Program.cs:38-40 | every key of `Main` is the short text of a resource the converter reports |
| `ConsoleProgram.ResxStringsAreResourceTexts` | FindUnusedResources.Console/Program.cs:77-94 | the usages are the `Class.Member` texts of the references found |
| `ConsoleProgram.MissingFromCount` | FindUnusedResources.Console/Program.cs:51-57 | for one file, a string is listed as often as it was declared, unless the file uses it |
| `ConsoleProgram.UnusedCount` | FindUnusedResources.Console/Program.cs:43-58 | a string is listed once per scanned file lacking it, times its declarations; the strings file is skipped |
| `ConsoleProgram.UsedEverywhereNeverListed` | FindUnusedResources.Console/Program.cs:43-58 | a string every scanned file uses is never listed |
| `ConsoleProgram.UsedNowhereListedPerFile` | FindUnusedResources.Console/Program.cs:43-58 | a string declared once and used nowhere is listed once per scanned file |
| `ConsoleProgram.LackedIsListed` | FindUnusedResources.Console/Program.cs:51-56 | a string some scanned file lacks is listed |
| `ConsoleProgram.NothingUnusedIff` | FindUnusedResources.Console/Program.cs:43-58 | nothing is listed exactly when every scanned file uses every string |
| `ConsoleProgram.ReportRoundTrip` | FindUnusedResources.Console/Program.cs:60-71 | the success message appears exactly when nothing is listed; the listed lines are the list, in order |
| `ConsoleProgram.Main` | FindUnusedResources.Console/Program.cs:11-72 | it throws `InvalidOperationException` exactly when the strings file lacks a single class; otherwise it prints the success message exactly when every scanned file uses every string, and the lines after the header are the list the two loops build: each string once per scanned file lacking it, times its declarations |
| `ConsoleProgram.UsedElsewhereStillListed` | FindUnusedResources.Console/Program.cs:43-58 | a string used by one file but lacked by another is listed as unused |
| `ConsoleProgram.UnusedAnywhereExact` | FindUnusedResources.Console/Program.cs:43-58 | the corrected list holds exactly the strings no scanned file uses, each as often as it is declared, in declaration order |
| `ConsoleProgram.CorrectedListedAsWritten` | FindUnusedResources.Console/Program.cs:43-58 | once any file is scanned, the list as written holds every string of the corrected list |
| `ConsoleProgram.CorrectedMain` | FindUnusedResources.Console/Program.cs:11-72 | the corrected report lists exactly the resource strings that no scanned file uses, as many times as each is declared, in declaration order |
| `ConsoleValues.NullNeverEqual` | FindUnusedResources.Console/Resource.cs:12-15 | no object of any of the three classes equals null |
| `ConsoleValues.ResourceEqualsIff` | FindUnusedResources.Console/Resource.cs:10-39 | a resource equals another resource exactly when class name and name match |
| `ConsoleValues.ResourceRejectsOtherClasses` | FindUnusedResources.Console/Resource.cs:22-27 | a plain resource never equals a reference or an unrelated object |
| `ConsoleValues.ResourceEqualsEquivalence` | FindUnusedResources.Console/Resource.cs:30-39 | equality among plain resources is reflexive, symmetric and transitive |
| `ConsoleValues.MixedEqualsAsymmetric` | FindUnusedResources.Console/ResxResource.cs:25-30 | a plain resource equals a resx resource with the same base, but the resx resource does not equal it back |
| `ConsoleValues.ResourceHashConsistent` | FindUnusedResources.Console/Resource.cs:41-44 | equal plain resources have equal hash codes |
| `ConsoleValues.ResourceTextRoundTrip` | FindUnusedResources.Console/Resource.cs:46-49 | `Class.Name` reads back into the resource when the name has no dot |
| `ConsoleValues.ReferenceEqualsIff` | FindUnusedResources.Console/Reference.cs:11-41 | references are equal exactly when file name, class name and count match |
| `ConsoleValues.ReferenceRejectsOtherClasses` | FindUnusedResources.Console/Reference.cs:23-28 | a reference never equals a resource or an unrelated object |
| `ConsoleValues.ReferenceEqualsEquivalence` | FindUnusedResources.Console/Reference.cs:31-41 | reference equality is reflexive, symmetric and transitive |
| `ConsoleValues.ReferenceHashConsistent` | FindUnusedResources.Console/Reference.cs:43-46 | equal references have equal hash codes |
| `ConsoleValues.ReferenceTextRoundTrip` | FindUnusedResources.Console/Reference.cs:48-51 | `File: Class (Count)` reads back into the reference when the file name holds no `": "` |
| `ConsoleValues.ListContainsIff` | FindUnusedResources.Console/ResxResource.cs:43 | `List.Contains` holds exactly when the list has a reference equal to the item |
| `ConsoleValues.EqualsResxMembers` | FindUnusedResources.Console/ResxResource.cs:33-44 | equality as written means same file name and base, same number of references, and every reference of the other contained in this one |
| `ConsoleValues.ResxRejectsOtherClasses` | FindUnusedResources.Console/ResxResource.cs:13-31 | a resx resource never equals a plain resource, a reference, or an unrelated object |
| `ConsoleValues.ResxEqualsReflexive` | FindUnusedResources.Console/ResxResource.cs:20-23 | a resx resource equals itself |
| `ConsoleValues.ResxEqualsPermutation` | FindUnusedResources.Console/ResxResource.cs:42-43 | reordering the references keeps equality |
| `ConsoleValues.ResxEqualsAgreesWhenDistinct` | FindUnusedResources.Console/ResxResource.cs:40-43 | for duplicate-free reference lists, equality as written agrees with the corrected equality |
| `ConsoleValues.ResxEqualsSymmetricWhenDistinct` | FindUnusedResources.Console/ResxResource.cs:40-43 | for duplicate-free reference lists, equality as written is symmetric |
| `ConsoleValues.ResxEqualsAsymmetric` | FindUnusedResources.Console/ResxResource.cs:33-44 | with duplicate references, `x.Equals(y)` holds while `y.Equals(x)` does not |
| `ConsoleValues.CorrectedEqualsEquivalence` | FindUnusedResources.Console/ResxResource.cs:33-44 | equality on the multiset of references is reflexive, symmetric and transitive, and implies equality as written |
| `ConsoleValues.ResxHashOrderDependent` | FindUnusedResources.Console/ResxResource.cs:46-55 | two resx resources equal as written can hash differently, because the hash follows reference order |
| `ConsoleValues.CorrectedHashConsistent` | FindUnusedResources.Console/ResxResource.cs:46-55 | the order-free hash agrees on all resources equal under the corrected equality |
| `ConsoleValues.ResxTextForms` | FindUnusedResources.Console/ResxResource.cs:57-65 | the long form is the file name, `": "`, then the short form; the short form is the base resource's text |

## Left out

- **Concurrency.** Lock-free races in the view models are not modelled. An
  example is `r.Count++` running from several threads. So are the
  cancellation token, `Task.Run` and `RunAsyncTask`. The parallel loops
  are read as sequential ones, and `LineScan.CheckFilesOrderIrrelevant`
  covers any visiting order.
- **UI state.** Not modelled: the status text timing, the progress
  counters, the property-change notifications and the commands' enabling
  rules.
- **I/O.** JSON settings storage, including the `File.WriteAllText` that
  ends `SaveSettings` and whatever it may throw, `File.Exists`, `File.ReadAllText`,
  `File.ReadAllLines`, `Directory.GetFiles` and `FileInfo` are inputs, as
  described above.
- **Argument checks.** `Directory.GetFiles` rejects some arguments; this
  is not modelled. The functions that take the root path require it to be
  non-empty, which `PrepareEnvironment` guarantees.
- **Roslyn.** Parsing and the semantic model are outside the model. The
  console tool sees a `Syntax.Tree`. Whether a declared symbol is a
  property is a field of the declaration.
- **`\w` and letter case.**
  - `\w` is taken as ASCII letters, digits and `_`. .NET also admits other
    Unicode letters.
  - `StringComparison.OrdinalIgnoreCase` is modelled as ASCII case folding.
  - Ordinal comparison stands in for the culture-sensitive
    `EndsWith`/`StartsWith`.
- **Number formatting.** `int` formatting in `Reference.ToString` uses `-`
  as the negative sign, with no culture.
- **Overflow.** Not modelled: overflow of the 32-bit `Count` fields and
  counters.
- **Hash values.** Concrete hash values are not modelled. `HashCode.Combine`,
  `string.GetHashCode` and `HashCode.Add`/`ToHashCode` are the parameters
  of `ConsoleValues.Hashing`.
- **Nulls in the console.** Null strings and null reference lists in the
  console value classes are not modelled. Every field holds a value.
- **Nulls in the older view model.** A null `FileExtensions` or
  `ExcludeFolders` in the older view model's settings is not modelled.
  The default settings set both.
- **Hard-coded paths.** `Main` uses empty placeholder paths for the strings
  file and the code folder. Here both are inputs.
- **Console `Settings.cs`.** It is not part of this model; it is unused by
  the modelled code.
- **Two classes with one name.** The repository declares two
  `SematicModelExtensions` classes, with different methods.
  `GetAllResxStrings` (in `Program.cs`) returns strings and is
  `ConsoleProgram.GetAllResxStrings`. `GetAllResxReferences` (in
  `SematicModelExtensions.cs`) returns resources and is
  `SemanticModel.GetAllResxReferences`. Both are modelled.
- **Dictionary order.** The enumeration order of `ConcurrentDictionary`
  is the input `order`.
- `Analysis.Analyze`: it states the counts only when `order` enumerates
  the catalog of that run, which the dictionary's enumeration always
  does. Its UI effects are left out: `Progress`, `Status`, the reset of
  `ShowUnusedOnly` and the error message box.
- `Text.SplitCharCount`: states the piece count only for one-character
  separators, which are the only ones whose pieces cannot overlap a
  separator.
- `SemanticModel.GetAllResxReferences`: its own contract only bounds the
  length of the result. The full characterisation is in
  `SemanticModel.ReferencesCounted` and `SemanticModel.ReferencesExact`.
- `ConsoleValues.ResourceTextRoundTrip`: only for names without a dot,
  because `Class.Name` cannot be split back when the name holds one.
- `ConsoleValues.ReferenceTextRoundTrip`: only for file names without
  `": "`, for the same reason.

## Findings

| source | as written | input that shows it | evidently intended | confidence | as-written member | corrected member |
|---|---|---|---|---|---|---|
| FindUnusedResources.Console/ResxResource.cs:40-43 | `Equals` compares the reference counts, then checks that every reference of the other object is contained in this one | references `[a, b]` against `[a, a]`, where `a` and `b` are different references: the first equals the second, but not the reverse | equal exactly when both hold the same references with the same multiplicities, which is symmetric | not executed; high | `ConsoleValues.ResxEqualsAsymmetric` | `ConsoleValues.CorrectedEqualsEquivalence` |
| FindUnusedResources.Console/ResxResource.cs:46-55 | `GetHashCode` adds the references in list order, while `Equals` ignores their order | two equal resources whose references are `[a, b]` and `[b, a]`, with an order-sensitive `HashCode.Add` | equal objects hash alike, for example by combining the reference hashes with a commutative sum | not executed; high | `ConsoleValues.ResxHashOrderDependent` | `ConsoleValues.CorrectedHashConsistent` |
| FindUnusedResources.Console/Program.cs:43-58 | a resource string is added to the unused list once for every scanned file that does not use it | strings file `Strings.cs`, files `A.cs` (which uses `Strings.Title`) and `B.cs` (which does not): `Strings.Title` is reported unused | list each resource string that no scanned file uses, once | not executed; high | `ConsoleProgram.UsedElsewhereStillListed` | `ConsoleProgram.UnusedAnywhereExact` |

=== FILE: analysis.dfy ===
/** The `Analyze` pipelines of both view models, read as sequential
    folds: path normalisation, the resource files and the files to scan,
    the key catalog, the reference counts, and the `ShowUnusedOnly` view of
    the results. */
module Analysis {
  import opened Common
  import opened Text
  import opened Sequences
  import opened ResourceItem
  import opened ResxKeys
  import opened LineScan
  import opened FileHelper
  import opened Exceptions
  import SettingsText

  // ---------------------------------------------------------------------
  // PrepareEnvironment

  /** `if (!path.EndsWith("\\")) path += "\\";` */
  function NormalizePath(path: string): (r: string)
    ensures EndsWith(r, "\\")
    ensures StartsWith(r, path)
    ensures EndsWith(path, "\\") <==> r == path
    ensures |r| <= |path| + 1
  {
    if EndsWith(path, "\\") then path else path + "\\"
  }

  /** Normalising twice is normalising once. */
  lemma NormalizePathIdempotent(path: string)
    ensures NormalizePath(NormalizePath(path)) == NormalizePath(path)
  {
  }

  /** The list settings as the view model's text boxes hold them. */
  datatype SettingsTexts = SettingsTexts(excludeFolders: string, excludeFiles: string, fileExtensions: string)

  /** `SaveSettings`, apart from writing the settings file.  The desktop
      variant sends both exclusion lists through `ConvertToArray`; the older
      one parses only the folders, keeping the stored list for a blank text,
      and has no excluded files.  Both keep the stored extensions for a
      blank text and parse them otherwise. */
  function SaveSettings(stored: DesktopScan, texts: SettingsTexts, desktop: bool): (r: Result<DesktopScan>)
    ensures r.Throws? <==> SettingsText.LoneVisible(texts.excludeFolders)
                           || (desktop && SettingsText.LoneVisible(texts.excludeFiles))
    ensures r.Throws? ==> r.kind == ArgumentOutOfRange
    ensures r.Ok? ==> r.value.extensions == SettingsText.ParseExtensions(stored.extensions, texts.fileExtensions)
    ensures r.Ok? && IsBlank(texts.excludeFolders) ==> r.value.excludeFolders == (if desktop then [] else stored.excludeFolders)
    ensures r.Ok? && !desktop ==> r.value.excludeFiles == stored.excludeFiles
    ensures r.Ok? ==> forall i :: 0 <= i < |r.value.excludeFolders| ==>
      !IsBlank(r.value.excludeFolders[i]) || (!desktop && IsBlank(texts.excludeFolders))
  {
    var extensions := SettingsText.ParseExtensions(stored.extensions, texts.fileExtensions);
    if desktop then
      match SettingsText.ConvertToArray(texts.excludeFolders)
      case Throws(k) => Throws(k)
      case Ok(folders) =>
        match SettingsText.ConvertToArray(texts.excludeFiles)
        case Throws(k) => Throws(k)
        case Ok(files) => Ok(DesktopScan(extensions, folders, files))
    else
      match SettingsText.ParseExcludeFolders(stored.excludeFolders, texts.excludeFolders)
      case Throws(k) => Throws(k)
      case Ok(folders) => Ok(DesktopScan(extensions, folders, stored.excludeFiles))
  }

  /** The texts `LoadSettings` puts in the boxes: the desktop variant shows
      an empty list as blank text, the older one always quotes the folders
      and has no box for excluded files. */
  function ShownTexts(stored: DesktopScan, desktop: bool): SettingsTexts
  {
    if desktop then
      SettingsTexts(SettingsText.ConvertArrayToString(Some(stored.excludeFolders)),
                    SettingsText.ConvertArrayToString(Some(stored.excludeFiles)),
                    SettingsText.ShowExtensions(stored.extensions))
    else
      SettingsTexts(SettingsText.QuotedList(stored.excludeFolders), "",
                    SettingsText.ShowExtensions(stored.extensions))
  }

  /** Lists that survive being shown and parsed back. */
  predicate Showable(stored: DesktopScan)
  {
    && (forall i :: 0 <= i < |stored.extensions| ==> SettingsText.ExtensionText(stored.extensions[i]))
    && (forall i :: 0 <= i < |stored.excludeFolders| ==> SettingsText.QuotableItem(stored.excludeFolders[i]))
    && (forall i :: 0 <= i < |stored.excludeFiles| ==> SettingsText.QuotableItem(stored.excludeFiles[i]))
  }

  /** The outcome of `PrepareEnvironment`: the normalised path and the
      settings `SaveSettings` stored. */
  datatype Prepared = Prepared(path: string, settings: DesktopScan)

  /** `PrepareEnvironment`: no path when the directory does not exist
      (`Analyze` then returns early, and nothing is saved); otherwise
      `SaveSettings` runs, and may throw, before the path is normalised. */
  function PrepareEnvironment(sourcePath: string, directoryExists: bool, stored: DesktopScan,
                              texts: SettingsTexts, desktop: bool): (r: Result<Option<Prepared>>)
    ensures !directoryExists ==> r == Ok(None)
    ensures r.Throws? <==> directoryExists && (SettingsText.LoneVisible(texts.excludeFolders)
                                               || (desktop && SettingsText.LoneVisible(texts.excludeFiles)))
    ensures r.Throws? ==> r.kind == ArgumentOutOfRange
    ensures r.Ok? ==> (r.value.Some? <==> directoryExists)
    ensures r.Ok? && r.value.Some? ==>
      var p := r.value.value.path;
      |p| > 0 && EndsWith(p, "\\") && StartsWith(p, sourcePath) && |p| <= |sourcePath| + 1
    ensures r.Ok? && r.value.Some? ==>
      r.value.value.path == (if EndsWith(sourcePath, "\\") then sourcePath else sourcePath + "\\")
    ensures r.Ok? && r.value.Some? ==>
      SaveSettings(stored, texts, desktop).Ok? && r.value.value.settings == SaveSettings(stored, texts, desktop).value
  {
    if !directoryExists then Ok(None)
    else
      match SaveSettings(stored, texts, desktop)
      case Throws(k) => Throws(k)
      case Ok(saved) => Ok(Some(Prepared(NormalizePath(sourcePath), saved)))
  }

  /** Running the analysis with the texts as loaded saves the same lists
      again, so an existing directory always gets through. */
  lemma PrepareKeepsShownSettings(sourcePath: string, stored: DesktopScan, desktop: bool)
    requires Showable(stored)
    ensures PrepareEnvironment(sourcePath, true, stored, ShownTexts(stored, desktop), desktop)
         == Ok(Some(Prepared(NormalizePath(sourcePath), stored)))
  {
    SettingsText.ExtensionsRoundTrip(stored.extensions);
    if desktop {
      SettingsText.ConvertRoundTrip(Some(stored.excludeFolders));
      SettingsText.ConvertRoundTrip(Some(stored.excludeFiles));
    } else {
      SettingsText.ExcludeFoldersRoundTrip(stored.excludeFolders, stored.excludeFolders);
      assert IsBlank("");
    }
  }

  /** A lone visible character in the folder box makes the run fail before
      any file is read, in both view models, and `AnalyzeAsync` reports an
      error. */
  lemma LoneFolderCharacterThrows(sourcePath: string, stored: DesktopScan, c: char, files: string,
                                  extensions: string, desktop: bool)
    requires !IsWhiteSpace(c)
    ensures PrepareEnvironment(sourcePath, true, stored, SettingsTexts([c], files, extensions), desktop)
         == Throws(ArgumentOutOfRange)
    ensures StatusWordDesktop(Raised(Thrown(ArgumentOutOfRange))) == "Error occurred"
  {
    SettingsText.OneCharacterThrows(c);
  }

  // ---------------------------------------------------------------------
  // Which files are read

  /** A resource file named in the exclusion list: its path ends with
      `\` followed by the entry. */
  predicate ExcludedFile(file: string, excludeFiles: seq<string>)
  {
    exists i :: 0 <= i < |excludeFiles| && EndsWith(file, "\\" + excludeFiles[i])
  }

  /** `allFiles.Where(e => !excludeFiles.Any(e.EndsWith))` of
      `GetAllResourceFiles`. */
  function DropExcludedFiles(files: seq<string>, excludeFiles: seq<string>): (r: seq<string>)
    ensures forall f :: f in r <==> f in files && !ExcludedFile(f, excludeFiles)
    ensures SubsequenceOf(r, files)
    ensures forall f :: multiset(r)[f] == if ExcludedFile(f, excludeFiles) then 0 else multiset(files)[f]
  {
    if |files| == 0 then []
    else
      var rest := DropExcludedFiles(files[1..], excludeFiles);
      assert forall f :: f in files <==> f == files[0] || f in files[1..];
      if ExcludedFile(files[0], excludeFiles) then
        SubsequenceSkip(files[0], rest, files[1..]);
        assert files == [files[0]] + files[1..];
        rest
      else
        SubsequenceCons(files[0], rest, files[1..]);
        assert files == [files[0]] + files[1..];
        [files[0]] + rest
  }

  /** `e.Replace(".resx", ".Designer.cs")`. */
  function DesignerPath(file: string): string
  {
    Replace(file, ".resx", ".Designer.cs")
  }

  /** A path whose only `.resx` is its ending is mapped to the designer
      file next to it. */
  lemma DesignerPathOf(base: string)
    requires Separable(base, ".resx")
    ensures DesignerPath(base + ".resx") == base + ".Designer.cs"
  {
    assert Separable("", ".resx");
    assert Join(".resx", [base, ""]) == base + ".resx";
    SplitJoin([base, ""], ".resx");
    assert Join(".Designer.cs", [base, ""]) == base + ".Designer.cs";
  }

  function DesignerPaths(files: seq<string>): (r: seq<string>)
    ensures |r| == |files| && forall i :: 0 <= i < |r| ==> r[i] == DesignerPath(files[i])
  {
    seq(|files|, i requires 0 <= i < |files| => DesignerPath(files[i]))
  }

  /** `xs.Except(...)` with the set of values already produced or excluded:
      each element of `xs` not in `seen`, at its first occurrence. */
  function ExceptFrom(xs: seq<string>, seen: set<string>): (r: seq<string>)
    ensures forall x :: x in r <==> x in xs && x !in seen
    ensures Distinct(r)
  {
    if |xs| == 0 then []
    else
      assert forall x :: x in xs <==> x == xs[0] || x in xs[1..];
      if xs[0] in seen then ExceptFrom(xs[1..], seen)
      else [xs[0]] + ExceptFrom(xs[1..], seen + {xs[0]})
  }

  /** `Enumerable.Except(xs, ys)`. */
  function Except(xs: seq<string>, ys: seq<string>): (r: seq<string>)
    ensures forall x :: x in r <==> x in xs && x !in ys
    ensures Distinct(r)
  {
    ExceptFrom(xs, set y | y in ys)
  }

  /** An element of the result for the tail, when the head is already
      seen, sits one further along in the whole list. */
  lemma ExceptTailShift(xs: seq<string>, seen: set<string>, k: nat)
    requires |xs| > 0 && xs[0] in seen && k < |ExceptFrom(xs[1..], seen)|
    ensures ExceptFrom(xs[1..], seen)[k] in xs
    ensures FirstIndex(xs, ExceptFrom(xs[1..], seen)[k]) == 1 + FirstIndex(xs[1..], ExceptFrom(xs[1..], seen)[k])
  {
    var y := ExceptFrom(xs[1..], seen)[k];
    assert y in ExceptFrom(xs[1..], seen);
    assert y != xs[0];
  }

  /** The set of values seen once the head of `xs` has been considered. */
  function SeenAfterHead(xs: seq<string>, seen: set<string>): set<string>
    requires |xs| > 0
  {
    if xs[0] in seen then seen else seen + {xs[0]}
  }

  /** The tail's result keeps the order of first occurrences in the tail. */
  predicate TailOrdered(xs: seq<string>, seen: set<string>)
    requires |xs| > 0
  {
    var rest := ExceptFrom(xs[1..], SeenAfterHead(xs, seen));
    forall a, b :: 0 <= a < b < |rest| ==> FirstIndex(xs[1..], rest[a]) < FirstIndex(xs[1..], rest[b])
  }

  /** One pair of the result keeps its order when the head was already
      seen: the result is the tail's. */
  lemma ExceptPairSeen(xs: seq<string>, seen: set<string>, i: nat, j: nat)
    requires |xs| > 0 && xs[0] in seen && i < j < |ExceptFrom(xs, seen)|
    requires TailOrdered(xs, seen)
    ensures FirstIndex(xs, ExceptFrom(xs, seen)[i]) < FirstIndex(xs, ExceptFrom(xs, seen)[j])
  {
    var rest := ExceptFrom(xs[1..], seen);
    assert ExceptFrom(xs, seen) == rest;
    ExceptTailShift(xs, seen, i);
    ExceptTailShift(xs, seen, j);
    assert FirstIndex(xs[1..], rest[i]) < FirstIndex(xs[1..], rest[j]);
  }

  /** One pair of the result keeps its order when the head is new: it
      comes first, and the tail's result follows. */
  lemma ExceptPairUnseen(xs: seq<string>, seen: set<string>, i: nat, j: nat)
    requires |xs| > 0 && xs[0] !in seen && i < j < |ExceptFrom(xs, seen)|
    requires TailOrdered(xs, seen)
    ensures FirstIndex(xs, ExceptFrom(xs, seen)[i]) < FirstIndex(xs, ExceptFrom(xs, seen)[j])
  {
    var r := ExceptFrom(xs, seen);
    var seen' := seen + {xs[0]};
    var rest := ExceptFrom(xs[1..], seen');
    assert r == [xs[0]] + rest;
    assert r[j] == rest[j - 1];
    ExceptTailShift(xs, seen', j - 1);
    if i > 0 {
      assert r[i] == rest[i - 1];
      ExceptTailShift(xs, seen', i - 1);
      assert FirstIndex(xs[1..], rest[i - 1]) < FirstIndex(xs[1..], rest[j - 1]);
    } else {
      assert r[i] == xs[0] && FirstIndex(xs, xs[0]) == 0;
    }
  }

  /** The elements come out in the order of their first occurrence. */
  lemma {:induction false} ExceptFromOrder(xs: seq<string>, seen: set<string>)
    ensures forall i, j :: 0 <= i < j < |ExceptFrom(xs, seen)| ==>
      FirstIndex(xs, ExceptFrom(xs, seen)[i]) < FirstIndex(xs, ExceptFrom(xs, seen)[j])
  {
    if |xs| > 0 {
      ExceptFromOrder(xs[1..], SeenAfterHead(xs, seen));
      forall i: nat, j: nat | i < j < |ExceptFrom(xs, seen)|
        ensures FirstIndex(xs, ExceptFrom(xs, seen)[i]) < FirstIndex(xs, ExceptFrom(xs, seen)[j])
      {
        if xs[0] in seen {
          ExceptPairSeen(xs, seen, i, j);
        } else {
          ExceptPairUnseen(xs, seen, i, j);
        }
      }
    }
  }

  /** A list that is already duplicate-free and disjoint from `seen` is
      left as it is. */
  lemma {:induction false} ExceptFromUnchanged(xs: seq<string>, seen: set<string>)
    requires Distinct(xs) && forall x :: x in xs ==> x !in seen
    ensures ExceptFrom(xs, seen) == xs
  {
    if |xs| > 0 {
      assert forall x :: x in xs[1..] ==> x in xs && x != xs[0];
      ExceptFromUnchanged(xs[1..], seen + {xs[0]});
    }
  }

  /** The second `Except(resourceDesignerFiles)` of `Analyze` changes
      nothing. */
  lemma ExceptIdempotent(xs: seq<string>, ys: seq<string>)
    ensures Except(Except(xs, ys), ys) == Except(xs, ys)
  {
    ExceptFromUnchanged(Except(xs, ys), set y | y in ys);
  }

  // ---------------------------------------------------------------------
  // The catalog as a list

  /** `_allResources.Values` listed in the order `order` gives the keys
      (the dictionary's enumeration order is not specified). */
  function ValuesIn(cat: map<string, Resource>, order: seq<string>): (r: seq<Resource>)
    ensures |r| <= |order|
    ensures forall v :: v in r ==> exists k :: k in cat && k in order && v == cat[k]
  {
    if |order| == 0 then []
    else
      var rest := ValuesIn(cat, order[1..]);
      assert forall k :: k in order[1..] ==> k in order;
      if order[0] in cat then [cat[order[0]]] + rest else rest
  }

  /** An order that lists every key once. */
  predicate Enumerates(order: seq<string>, cat: map<string, Resource>)
  {
    Distinct(order) && (forall k :: k in order ==> k in cat) && (forall k :: k in cat ==> k in order)
  }

  /** Listing a catalog of fresh resources in a complete order gives one
      fresh resource per key, in that order. */
  lemma {:induction false} ValuesInFresh(cat: map<string, Resource>, order: seq<string>)
    requires Fresh(cat) && forall k :: k in order ==> k in cat
    ensures ValuesIn(cat, order) == seq(|order|, i requires 0 <= i < |order| => NewResource(order[i]))
  {
    if |order| > 0 {
      assert forall k :: k in order[1..] ==> k in order;
      ValuesInFresh(cat, order[1..]);
    }
  }

  // ---------------------------------------------------------------------
  // The two pipelines

  /** What the desktop settings contribute to a run. */
  datatype DesktopScan = DesktopScan(extensions: seq<string>, excludeFolders: seq<string>, excludeFiles: seq<string>)

  /** `GetAllResourceFiles(path)`. */
  function DesktopResourceFiles(path: string, scan: DesktopScan, listing: string -> seq<FileEntry>): seq<string>
    requires |path| > 0
  {
    DropExcludedFiles(GetAllFiles(path, [".resx"], scan.excludeFolders, listing), scan.excludeFiles)
  }

  /** `allFiles.Except(resourceDesignerFiles).Except(resourceDesignerFiles)`. */
  function DesktopScannedFiles(path: string, scan: DesktopScan, listing: string -> seq<FileEntry>): (files: seq<string>)
    requires |path| > 0
    ensures Distinct(files)
    ensures forall f :: f in files <==>
      f in GetAllFiles(path, scan.extensions, scan.excludeFolders, listing)
      && f !in DesignerPaths(DesktopResourceFiles(path, scan, listing))
  {
    var designer := DesignerPaths(DesktopResourceFiles(path, scan, listing));
    var allFiles := GetAllFiles(path, scan.extensions, scan.excludeFolders, listing);
    ExceptIdempotent(allFiles, designer);
    Except(Except(allFiles, designer), designer)
  }

  /** The desktop `Analyze` after `PrepareEnvironment` returned `path`:
      the catalog from the resource files, listed in `order`, then counted
      over the scanned files. */
  function AnalyzeDesktop(path: string, scan: DesktopScan, listing: string -> seq<FileEntry>,
                          readText: string -> string, readLines: string -> seq<string>,
                          order: seq<string>): seq<Resource>
    requires |path| > 0
  {
    var cat := BuildCatalog(DesktopResourceFiles(path, scan, listing), readText, true);
    CheckFiles(ValuesIn(cat, order), DesktopScannedFiles(path, scan, listing), readLines, true)
  }

  /** The older `Analyze`: every `.resx` file, every file, every line. */
  function AnalyzeLegacy(path: string, extensions: seq<string>, excludeFolders: seq<string>,
                         listing: string -> seq<FileEntry>, readText: string -> string,
                         readLines: string -> seq<string>, order: seq<string>): seq<Resource>
    requires |path| > 0
  {
    var cat := BuildCatalog(GetAllFiles(path, [".resx"], excludeFolders, listing), readText, false);
    CheckFiles(ValuesIn(cat, order), GetAllFiles(path, extensions, excludeFolders, listing), readLines, false)
  }

  /** After a desktop run each key of the catalog has one result whose
      count is the number of non-blank lines, over the scanned files, that
      contain the key. */
  lemma AnalyzeDesktopCounts(path: string, scan: DesktopScan, listing: string -> seq<FileEntry>,
                             readText: string -> string, readLines: string -> seq<string>,
                             order: seq<string>)
    requires |path| > 0
    requires Enumerates(order, BuildCatalog(DesktopResourceFiles(path, scan, listing), readText, true))
    ensures var r := AnalyzeDesktop(path, scan, listing, readText, readLines, order);
      && |r| == |order|
      && forall i :: 0 <= i < |r| ==> r[i] == Resource(order[i],
           TotalHits(DesktopScannedFiles(path, scan, listing), readLines, order[i], true))
  {
    var cat := BuildCatalog(DesktopResourceFiles(path, scan, listing), readText, true);
    ValuesInFresh(cat, order);
  }

  /** The same for the older run, counting every line of every file. */
  lemma AnalyzeLegacyCounts(path: string, extensions: seq<string>, excludeFolders: seq<string>,
                            listing: string -> seq<FileEntry>, readText: string -> string,
                            readLines: string -> seq<string>, order: seq<string>)
    requires |path| > 0
    requires Enumerates(order, BuildCatalog(GetAllFiles(path, [".resx"], excludeFolders, listing), readText, false))
    ensures var r := AnalyzeLegacy(path, extensions, excludeFolders, listing, readText, readLines, order);
      && |r| == |order|
      && forall i :: 0 <= i < |r| ==> r[i] == Resource(order[i],
           TotalHits(GetAllFiles(path, extensions, excludeFolders, listing), readLines, order[i], false))
  {
    var cat := BuildCatalog(GetAllFiles(path, [".resx"], excludeFolders, listing), readText, false);
    ValuesInFresh(cat, order);
  }

  /** The key catalog a run builds from the prepared path and settings:
      the desktop variant drops the excluded resource files and strips
      comments, the older one does neither. */
  function RunCatalog(p: Prepared, listing: string -> seq<FileEntry>, readText: string -> string,
                      desktop: bool): map<string, Resource>
    requires |p.path| > 0
  {
    if desktop then BuildCatalog(DesktopResourceFiles(p.path, p.settings, listing), readText, true)
    else BuildCatalog(GetAllFiles(p.path, [".resx"], p.settings.excludeFolders, listing), readText, false)
  }

  /** The files a run scans: the desktop variant leaves out the designer
      files of the resource files. */
  function RunFiles(p: Prepared, listing: string -> seq<FileEntry>, desktop: bool): seq<string>
    requires |p.path| > 0
  {
    if desktop then DesktopScannedFiles(p.path, p.settings, listing)
    else GetAllFiles(p.path, p.settings.extensions, p.settings.excludeFolders, listing)
  }

  /** The pipeline of either view model, run on what `PrepareEnvironment`
      returned. */
  function RunPipeline(p: Prepared, listing: string -> seq<FileEntry>, readText: string -> string,
                       readLines: string -> seq<string>, order: seq<string>, desktop: bool): seq<Resource>
    requires |p.path| > 0
  {
    if desktop then AnalyzeDesktop(p.path, p.settings, listing, readText, readLines, order)
    else AnalyzeLegacy(p.path, p.settings.extensions, p.settings.excludeFolders, listing, readText, readLines, order)
  }

  /** `AnalyzeDesktopCounts` and `AnalyzeLegacyCounts` for either variant:
      when `order` enumerates the run's catalog, each key has one result
      counting its hits over the run's files. */
  lemma RunCounts(p: Prepared, listing: string -> seq<FileEntry>, readText: string -> string,
                  readLines: string -> seq<string>, order: seq<string>, desktop: bool)
    requires |p.path| > 0
    ensures Enumerates(order, RunCatalog(p, listing, readText, desktop)) ==>
      var r := RunPipeline(p, listing, readText, readLines, order, desktop);
      && |r| == |order|
      && forall i :: 0 <= i < |r| ==>
           r[i] == Resource(order[i], TotalHits(RunFiles(p, listing, desktop), readLines, order[i], desktop))
  {
    if Enumerates(order, RunCatalog(p, listing, readText, desktop)) {
      if desktop {
        AnalyzeDesktopCounts(p.path, p.settings, listing, readText, readLines, order);
      } else {
        AnalyzeLegacyCounts(p.path, p.settings.extensions, p.settings.excludeFolders,
                            listing, readText, readLines, order);
      }
    }
  }

  /** `Analyze` of either view model: `PrepareEnvironment`, an early
      return without a directory, then the pipeline on the normalised path
      and the settings `SaveSettings` stored.  `order` is the order in which
      the run's dictionary yields its keys. */
  function Analyze(sourcePath: string, directoryExists: bool, stored: DesktopScan, texts: SettingsTexts,
                   desktop: bool, listing: string -> seq<FileEntry>, readText: string -> string,
                   readLines: string -> seq<string>, order: seq<string>): (r: Result<Option<seq<Resource>>>)
    ensures !directoryExists ==> r == Ok(None)
    ensures r.Throws? <==> directoryExists && (SettingsText.LoneVisible(texts.excludeFolders)
                                               || (desktop && SettingsText.LoneVisible(texts.excludeFiles)))
    ensures r.Throws? ==> r.kind == ArgumentOutOfRange
    ensures r.Ok? ==> (r.value.Some? <==> directoryExists)
    ensures r.Ok? && r.value.Some? ==> SaveSettings(stored, texts, desktop).Ok?
    ensures r.Ok? && r.value.Some? ==>
      var p := Prepared(NormalizePath(sourcePath), SaveSettings(stored, texts, desktop).value);
      Enumerates(order, RunCatalog(p, listing, readText, desktop)) ==>
        && |r.value.value| == |order|
        && forall i :: 0 <= i < |order| ==>
             r.value.value[i] == Resource(order[i], TotalHits(RunFiles(p, listing, desktop), readLines, order[i], desktop))
  {
    match PrepareEnvironment(sourcePath, directoryExists, stored, texts, desktop)
    case Throws(k) => Throws(k)
    case Ok(None) => Ok(None)
    case Ok(Some(p)) =>
      RunCounts(p, listing, readText, readLines, order, desktop);
      Ok(Some(RunPipeline(p, listing, readText, readLines, order, desktop)))
  }

  // ---------------------------------------------------------------------
  // ShowUnusedOnly

  /** A resource nobody references. */
  predicate Unreferenced(x: Resource)
  {
    x.count == 0
  }

  /** The resources nobody references, in their order. */
  function Unused(results: seq<Resource>): (r: seq<Resource>)
    ensures forall x :: x in r <==> x in results && x.count == 0
    ensures SubsequenceOf(r, results)
    ensures forall x :: multiset(r)[x] == if x.count == 0 then multiset(results)[x] else 0
  {
    FilterExact(results, Unreferenced);
    Filter(results, Unreferenced)
  }

  /** The part of the desktop view model the filter touches. */
  datatype ResultsView = ResultsView(showUnusedOnly: bool, allResults: seq<Resource>, results: seq<Resource>)

  /** The `ShowUnusedOnly` setter: nothing happens when the value does not
      change (`SetProperty` returns false); otherwise `Results` becomes the
      unused resources or all of them. */
  function SetShowUnusedOnly(view: ResultsView, value: bool): (v: ResultsView)
    ensures v.showUnusedOnly == value && v.allResults == view.allResults
    ensures value == view.showUnusedOnly ==> v == view
    ensures value != view.showUnusedOnly && value ==> v.results == Unused(view.allResults)
    ensures value != view.showUnusedOnly && !value ==> v.results == view.allResults
  {
    if value == view.showUnusedOnly then view
    else view.(showUnusedOnly := value, results := if value then Unused(view.allResults) else view.allResults)
  }

  /** Switching the filter on and off again shows every result. */
  lemma ShowUnusedOnlyToggle(view: ResultsView)
    requires !view.showUnusedOnly
    ensures SetShowUnusedOnly(SetShowUnusedOnly(view, true), false).results == view.allResults
  {
  }

  /** With the filter on, the results are exactly the unused resources. */
  lemma ShowUnusedOnlyExact(view: ResultsView)
    requires !view.showUnusedOnly
    ensures var v := SetShowUnusedOnly(view, true);
      && (forall x :: x in v.results <==> x in view.allResults && x.count == 0)
      && (forall x :: multiset(v.results)[x] == if x.count == 0 then multiset(view.allResults)[x] else 0)
      && SubsequenceOf(v.results, view.allResults)
  {
  }
}

=== FILE: common.dfy ===
/** Small wrappers shared by every module: an optional value (the .NET
    `null`) and the outcome of an operation that may throw. */
module Common {
  import opened Exceptions

  datatype Option<+T> = None | Some(value: T)

  /** A value, or the class of the exception the source code throws. */
  datatype Result<+T> = Ok(value: T) | Throws(kind: ExceptionType)
}

=== FILE: console_program.dfy ===
/** The first console prototype, `Program.Main`: the resource strings of one
    designer file, each reported once for every code file that does not
    mention it, and the `GetAllResxStrings` extension declared beside it. */
module ConsoleProgram {
  import opened Common
  import opened Exceptions
  import opened Text
  import opened Sequences
  import opened Syntax
  import opened ConsoleValues
  import opened SemanticModel
  import ResourceConverter

  /** A declaration whose symbol is a property, `internal static`, with the
      type written exactly `string`. */
  predicate IsResourceProperty(p: PropertyDecl)
  {
    p.symbolIsProperty && InternalStatic(p) && p.typeText == "string"
  }

  /** The resource string of a property: `className.Identifier`. */
  function KeyOf(className: string, p: PropertyDecl): string
  {
    className + "." + p.ident
  }

  /** The loop over the property declarations of the strings file. */
  function ResourceStrings(props: seq<PropertyDecl>, className: string): (r: seq<string>)
    ensures |r| <= |props|
    decreases |props|
  {
    if |props| == 0 then []
    else
      var p := props[|props| - 1];
      ResourceStrings(props[..|props| - 1], className)
        + if IsResourceProperty(p) then [KeyOf(className, p)] else []
  }

  /** `KeyOf` for one class, as a value. */
  function KeyFor(className: string): PropertyDecl -> string
  {
    (p: PropertyDecl) => KeyOf(className, p)
  }

  /** The resource strings are exactly the keys of the qualifying
      declarations, one per declaration, in declaration order. */
  lemma ResourceStringsExact(props: seq<PropertyDecl>, className: string)
    ensures Selects(ResourceStrings(props, className), props, IsResourceProperty, KeyFor(className))
    ensures forall i :: 0 <= i < |props| && IsResourceProperty(props[i]) ==>
              KeyOf(className, props[i]) in ResourceStrings(props, className)
    ensures forall s :: s in ResourceStrings(props, className) ==>
              exists i :: 0 <= i < |props| && IsResourceProperty(props[i]) && KeyOf(className, props[i]) == s
  {
    ResourceStringsOrder(props, className);
    ResourceStringsMembers(props, className);
  }

  /** Each qualifying declaration's key sits after the keys of the
      qualifying declarations before it. */
  lemma {:induction false} ResourceStringsOrder(props: seq<PropertyDecl>, className: string)
    ensures Selects(ResourceStrings(props, className), props, IsResourceProperty, KeyFor(className))
    decreases |props|
  {
    if |props| == 0 {
      SelectsEmpty(IsResourceProperty, KeyFor(className));
    } else {
      var init := props[..|props| - 1];
      var p := props[|props| - 1];
      ResourceStringsOrder(init, className);
      SelectsSnoc(ResourceStrings(init, className), init, p, IsResourceProperty, KeyFor(className));
      assert init + [p] == props;
    }
  }

  /** Membership both ways. */
  lemma {:induction false} ResourceStringsMembers(props: seq<PropertyDecl>, className: string)
    ensures forall i :: 0 <= i < |props| && IsResourceProperty(props[i]) ==>
              KeyOf(className, props[i]) in ResourceStrings(props, className)
    ensures forall s :: s in ResourceStrings(props, className) ==>
              exists i :: 0 <= i < |props| && IsResourceProperty(props[i]) && KeyOf(className, props[i]) == s
    decreases |props|
  {
    if |props| > 0 {
      var init := props[..|props| - 1];
      var p := props[|props| - 1];
      var before := ResourceStrings(init, className);
      var tail: seq<string> := if IsResourceProperty(p) then [KeyOf(className, p)] else [];
      assert ResourceStrings(props, className) == before + tail;
      ResourceStringsMembers(init, className);
      assert forall i :: 0 <= i < |init| ==> init[i] == props[i];
      forall s: string | s in before + tail
        ensures exists i :: 0 <= i < |props| && IsResourceProperty(props[i]) && KeyOf(className, props[i]) == s
      {
        if s in before {
          var i :| 0 <= i < |init| && IsResourceProperty(init[i]) && KeyOf(className, init[i]) == s;
          assert props[i] == init[i];
        } else {
          assert props[|props| - 1] == p;
        }
      }
    }
  }

  /** The prototype's filter is stricter than the converter's: every
      resource string it finds is the short text of a resource the
      converter returns for the same declarations. */
  lemma KeysAmongConverterOutput(props: seq<PropertyDecl>, className: string, fileName: string)
    ensures forall s :: s in ResourceStrings(props, className) ==>
              exists x :: x in ResourceConverter.Collect(props, className, fileName) && ShortText(x) == s
  {
    ResourceStringsExact(props, className);
    ResourceConverter.CollectMembers(props, className, fileName);
    forall s | s in ResourceStrings(props, className)
      ensures exists x :: x in ResourceConverter.Collect(props, className, fileName) && ShortText(x) == s
    {
      var i :| 0 <= i < |props| && IsResourceProperty(props[i]) && KeyOf(className, props[i]) == s;
      assert EqualsIgnoreCase(props[i].typeText, "string");
      assert ResourceConverter.IsResourceString(props[i]);
      var x := ResxResource(fileName, className, props[i].ident, []);
      assert ShortText(x) == s;
    }
  }

  /** `GetAllResxStrings`, declared in `Program.cs`: `Receiver.Member` for every
      access with an identifier receiver, in document order. */
  function GetAllResxStrings(nodes: seq<MemberAccess>): (r: seq<string>)
    ensures |r| <= |nodes|
    decreases |nodes|
  {
    if |nodes| == 0 then []
    else
      var n := nodes[|nodes| - 1];
      GetAllResxStrings(nodes[..|nodes| - 1])
        + if n.receiver.Ident? then [n.receiver.text + "." + n.name] else []
  }

  function Texts(rs: seq<Resource>): (r: seq<string>)
    ensures |r| == |rs| && forall i :: 0 <= i < |rs| ==> r[i] == ResourceText(rs[i])
  {
    seq(|rs|, i requires 0 <= i < |rs| => ResourceText(rs[i]))
  }

  /** The string version is the text of the resource version, element by
      element. */
  lemma {:induction false} ResxStringsAreResourceTexts(nodes: seq<MemberAccess>)
    ensures GetAllResxStrings(nodes) == Texts(GetAllResxReferences(nodes))
    decreases |nodes|
  {
    if |nodes| > 0 {
      var init := nodes[..|nodes| - 1];
      var n := nodes[|nodes| - 1];
      ResxStringsAreResourceTexts(init);
      var before := GetAllResxReferences(init);
      if HasIdentReceiver(n) {
        assert GetAllResxReferences(nodes) == before + [ReferenceOf(n)];
        assert Texts(before + [ReferenceOf(n)]) == Texts(before) + [ResourceText(ReferenceOf(n))];
      } else {
        assert GetAllResxReferences(nodes) == before + [];
        assert before + [] == before;
      }
    }
  }

  /** The inner loop for one file: each resource string its usages lack,
      in order. */
  function MissingFrom(keys: seq<string>, usages: seq<string>): (r: seq<string>)
    ensures |r| <= |keys|
    decreases |keys|
  {
    if |keys| == 0 then []
    else
      var s := keys[|keys| - 1];
      MissingFrom(keys[..|keys| - 1], usages) + if s !in usages then [s] else []
  }

  /** A string is listed for a file as often as it is a resource string,
      unless the file uses it. */
  lemma {:induction false} MissingFromCount(keys: seq<string>, usages: seq<string>, s: string)
    ensures multiset(MissingFrom(keys, usages))[s] == if s in usages then 0 else multiset(keys)[s]
    decreases |keys|
  {
    if |keys| > 0 {
      var init := keys[..|keys| - 1];
      assert keys == init + [keys[|keys| - 1]];
      MissingFromCount(init, usages, s);
    }
  }

  /** The scanned files (the strings file excepted) that do not use `s`. */
  ghost function FilesLacking(files: seq<string>, stringsPath: string,
                              usagesOf: string -> seq<string>, s: string): set<nat>
  {
    set i: nat | i < |files| && files[i] != stringsPath && s !in usagesOf(files[i])
  }

  /** The outer loop: the strings file is skipped, every other file adds
      the resource strings it lacks. */
  function UnusedAcross(keys: seq<string>, files: seq<string>, stringsPath: string,
                        usagesOf: string -> seq<string>): seq<string>
    decreases |files|
  {
    if |files| == 0 then []
    else
      var f := files[|files| - 1];
      UnusedAcross(keys, files[..|files| - 1], stringsPath, usagesOf)
        + if f == stringsPath then [] else MissingFrom(keys, usagesOf(f))
  }

  lemma MultiplySuccessor(m: nat, c: nat)
    ensures m * (c + 1) == m * c + m
  {
  }

  /** The last file adds one to the files lacking `s` iff it is scanned
      and lacks `s`. */
  lemma FilesLackingSnoc(files: seq<string>, stringsPath: string, usagesOf: string -> seq<string>, s: string)
    requires |files| > 0
    ensures |FilesLacking(files, stringsPath, usagesOf, s)|
         == |FilesLacking(files[..|files| - 1], stringsPath, usagesOf, s)|
          + if files[|files| - 1] != stringsPath && s !in usagesOf(files[|files| - 1]) then 1 else 0
  {
    var n := |files|;
    var init := files[..n - 1];
    var whole := FilesLacking(files, stringsPath, usagesOf, s);
    var part := FilesLacking(init, stringsPath, usagesOf, s);
    var extra: set<nat> := if files[n - 1] != stringsPath && s !in usagesOf(files[n - 1]) then {n - 1} else {};
    forall i: nat ensures i in whole <==> i in part + extra {
      if i < n - 1 {
        assert init[i] == files[i];
      }
    }
    assert whole == part + extra;
  }

  /** The last file adds its missing strings to the list. */
  lemma UnusedSnoc(keys: seq<string>, files: seq<string>, stringsPath: string,
                   usagesOf: string -> seq<string>, s: string)
    requires |files| > 0
    ensures multiset(UnusedAcross(keys, files, stringsPath, usagesOf))[s]
         == multiset(UnusedAcross(keys, files[..|files| - 1], stringsPath, usagesOf))[s]
          + if files[|files| - 1] != stringsPath && s !in usagesOf(files[|files| - 1]) then multiset(keys)[s] else 0
  {
    var f := files[|files| - 1];
    var before := UnusedAcross(keys, files[..|files| - 1], stringsPath, usagesOf);
    var tail := if f == stringsPath then [] else MissingFrom(keys, usagesOf(f));
    assert UnusedAcross(keys, files, stringsPath, usagesOf) == before + tail;
    assert multiset(before + tail)[s] == multiset(before)[s] + multiset(tail)[s];
    if f != stringsPath {
      MissingFromCount(keys, usagesOf(f), s);
    }
  }

  /** Each resource string is listed once per scanned file that lacks it,
      times the number of times it was declared. */
  lemma {:induction false} UnusedCount(keys: seq<string>, files: seq<string>, stringsPath: string,
                                       usagesOf: string -> seq<string>, s: string)
    ensures multiset(UnusedAcross(keys, files, stringsPath, usagesOf))[s]
         == multiset(keys)[s] * |FilesLacking(files, stringsPath, usagesOf, s)|
    decreases |files|
  {
    if |files| > 0 {
      var init := files[..|files| - 1];
      UnusedCount(keys, init, stringsPath, usagesOf, s);
      UnusedSnoc(keys, files, stringsPath, usagesOf, s);
      FilesLackingSnoc(files, stringsPath, usagesOf, s);
      MultiplySuccessor(multiset(keys)[s], |FilesLacking(init, stringsPath, usagesOf, s)|);
    } else {
      assert FilesLacking(files, stringsPath, usagesOf, s) == {};
    }
  }

  /** `UnusedCount` for every string at once. */
  lemma UnusedCounts(keys: seq<string>, files: seq<string>, stringsPath: string,
                     usagesOf: string -> seq<string>)
    ensures forall s :: multiset(UnusedAcross(keys, files, stringsPath, usagesOf))[s]
              == multiset(keys)[s] * |FilesLacking(files, stringsPath, usagesOf, s)|
  {
    forall s
      ensures multiset(UnusedAcross(keys, files, stringsPath, usagesOf))[s]
           == multiset(keys)[s] * |FilesLacking(files, stringsPath, usagesOf, s)|
    {
      UnusedCount(keys, files, stringsPath, usagesOf, s);
    }
  }

  /** Every scanned file uses every resource string. */
  ghost predicate AllUsed(keys: seq<string>, files: seq<string>, stringsPath: string,
                          usagesOf: string -> seq<string>)
  {
    forall i, s :: 0 <= i < |files| && files[i] != stringsPath && s in keys ==> s in usagesOf(files[i])
  }

  /** A resource string every scanned file uses is never listed. */
  lemma UsedEverywhereNeverListed(keys: seq<string>, files: seq<string>, stringsPath: string,
                                  usagesOf: string -> seq<string>, s: string)
    requires forall i :: 0 <= i < |files| && files[i] != stringsPath ==> s in usagesOf(files[i])
    ensures s !in UnusedAcross(keys, files, stringsPath, usagesOf)
  {
    UnusedCount(keys, files, stringsPath, usagesOf, s);
    assert FilesLacking(files, stringsPath, usagesOf, s) == {};
  }

  /** A resource string declared once and used nowhere is listed once per
      scanned file. */
  lemma UsedNowhereListedPerFile(keys: seq<string>, files: seq<string>, stringsPath: string,
                                 usagesOf: string -> seq<string>, s: string)
    requires multiset(keys)[s] == 1
    requires forall i :: 0 <= i < |files| ==> s !in usagesOf(files[i])
    ensures multiset(UnusedAcross(keys, files, stringsPath, usagesOf))[s]
         == |set i: nat | i < |files| && files[i] != stringsPath|
  {
    UnusedCount(keys, files, stringsPath, usagesOf, s);
    assert FilesLacking(files, stringsPath, usagesOf, s) == set i: nat | i < |files| && files[i] != stringsPath;
  }

  /** A resource string some scanned file lacks is listed. */
  lemma LackedIsListed(keys: seq<string>, files: seq<string>, stringsPath: string,
                       usagesOf: string -> seq<string>, i: nat, s: string)
    requires i < |files| && files[i] != stringsPath && s in keys && s !in usagesOf(files[i])
    ensures s in UnusedAcross(keys, files, stringsPath, usagesOf)
  {
    UnusedCount(keys, files, stringsPath, usagesOf, s);
    var m := multiset(keys)[s];
    var c := |FilesLacking(files, stringsPath, usagesOf, s)|;
    assert i in FilesLacking(files, stringsPath, usagesOf, s);
    assert m >= 1 && c >= 1;
    MultiplyPositive(m, c);
  }

  lemma MultiplyPositive(m: nat, c: nat)
    requires m >= 1 && c >= 1
    ensures m * c >= 1
  {
  }

  /** When every scanned file uses every resource string nothing is
      listed. */
  lemma AllUsedNothingListed(keys: seq<string>, files: seq<string>, stringsPath: string,
                             usagesOf: string -> seq<string>)
    requires AllUsed(keys, files, stringsPath, usagesOf)
    ensures UnusedAcross(keys, files, stringsPath, usagesOf) == []
  {
    var u := UnusedAcross(keys, files, stringsPath, usagesOf);
    forall s ensures multiset(u)[s] == 0 {
      UnusedCount(keys, files, stringsPath, usagesOf, s);
      if s in keys {
        assert FilesLacking(files, stringsPath, usagesOf, s) == {};
      } else {
        assert multiset(keys)[s] == 0;
      }
    }
    assert multiset(u) == multiset{};
    assert |u| == |multiset(u)| == 0;
  }

  /** Nothing is listed exactly when every scanned file uses every
      resource string. */
  lemma NothingUnusedIff(keys: seq<string>, files: seq<string>, stringsPath: string,
                         usagesOf: string -> seq<string>)
    ensures UnusedAcross(keys, files, stringsPath, usagesOf) == [] <==> AllUsed(keys, files, stringsPath, usagesOf)
  {
    if AllUsed(keys, files, stringsPath, usagesOf) {
      AllUsedNothingListed(keys, files, stringsPath, usagesOf);
    } else {
      var i, s :| 0 <= i < |files| && files[i] != stringsPath && s in keys && s !in usagesOf(files[i]);
      LackedIsListed(keys, files, stringsPath, usagesOf, i, s);
    }
  }

  /** No scanned file (the strings file excepted) uses `s`. */
  predicate UsedNowhere(files: seq<string>, stringsPath: string, usagesOf: string -> seq<string>, s: string)
  {
    forall i :: 0 <= i < |files| && files[i] != stringsPath ==> s !in usagesOf(files[i])
  }

  /** A string used by one scanned file is still listed when another
      scanned file lacks it. */
  lemma UsedElsewhereStillListed()
    ensures var usages := (f: string) => if f == "A.cs" then ["Strings.Title"] else [];
            && !UsedNowhere(["A.cs", "B.cs"], "Strings.cs", usages, "Strings.Title")
            && UnusedAcross(["Strings.Title"], ["A.cs", "B.cs"], "Strings.cs", usages) == ["Strings.Title"]
  {
    var usages := (f: string) => if f == "A.cs" then ["Strings.Title"] else [];
    var files := ["A.cs", "B.cs"];
    assert files[..1] == ["A.cs"];
    assert files[..1][..0] == [];
    assert "Strings.Title" in usages(files[0]);
    assert MissingFrom(["Strings.Title"], usages("A.cs")) == [];
    assert MissingFrom(["Strings.Title"], usages("B.cs")) == ["Strings.Title"];
  }

  /** The resource strings no scanned file uses, each declaration once, in
      declaration order. */
  function UnusedAnywhere(keys: seq<string>, files: seq<string>, stringsPath: string,
                          usagesOf: string -> seq<string>): (r: seq<string>)
    ensures |r| <= |keys|
    decreases |keys|
  {
    if |keys| == 0 then []
    else
      var s := keys[|keys| - 1];
      UnusedAnywhere(keys[..|keys| - 1], files, stringsPath, usagesOf)
        + if UsedNowhere(files, stringsPath, usagesOf, s) then [s] else []
  }

  /** The corrected list holds exactly the resource strings no scanned
      file uses, in declaration order. */
  lemma {:induction false} UnusedAnywhereExact(keys: seq<string>, files: seq<string>, stringsPath: string,
                                               usagesOf: string -> seq<string>)
    ensures forall s :: s in UnusedAnywhere(keys, files, stringsPath, usagesOf) <==>
              s in keys && UsedNowhere(files, stringsPath, usagesOf, s)
    ensures SubsequenceOf(UnusedAnywhere(keys, files, stringsPath, usagesOf), keys)
    ensures forall s :: multiset(UnusedAnywhere(keys, files, stringsPath, usagesOf))[s] ==
              if UsedNowhere(files, stringsPath, usagesOf, s) then multiset(keys)[s] else 0
    decreases |keys|
  {
    if |keys| > 0 {
      var init := keys[..|keys| - 1];
      var s := keys[|keys| - 1];
      var before := UnusedAnywhere(init, files, stringsPath, usagesOf);
      UnusedAnywhereExact(init, files, stringsPath, usagesOf);
      assert keys == init + [s];
      if UsedNowhere(files, stringsPath, usagesOf, s) {
        assert UnusedAnywhere(keys, files, stringsPath, usagesOf) == before + [s];
        SubsequenceSnoc(before, init, s);
      } else {
        assert UnusedAnywhere(keys, files, stringsPath, usagesOf) == before + [];
        assert before + [] == before;
        SubsequenceSnocRight(before, init, s);
      }
    }
  }

  /** Whatever the corrected list holds the list as written holds too, as
      soon as one file is scanned; the converse fails
      (`UsedElsewhereStillListed`). */
  lemma CorrectedListedAsWritten(keys: seq<string>, files: seq<string>, stringsPath: string,
                                 usagesOf: string -> seq<string>, i: nat, s: string)
    requires i < |files| && files[i] != stringsPath
    requires s in UnusedAnywhere(keys, files, stringsPath, usagesOf)
    ensures s in UnusedAcross(keys, files, stringsPath, usagesOf)
  {
    UnusedAnywhereExact(keys, files, stringsPath, usagesOf);
    LackedIsListed(keys, files, stringsPath, usagesOf, i, s);
  }

  const UnusedHeader := "The following variables are unused:"
  const AllUsedMessage := "No unused variables found."

  /** The lines written to the console. */
  function Report(unused: seq<string>): (lines: seq<string>)
    ensures |lines| >= 1
  {
    if |unused| > 0 then [UnusedHeader] + unused else [AllUsedMessage]
  }

  /** Reads the list back from the console lines. */
  function ReadReport(lines: seq<string>): seq<string>
  {
    if |lines| == 0 || lines == [AllUsedMessage] then [] else lines[1..]
  }

  /** The report shows the success message iff nothing is unused, and the
      listed lines are exactly the list, in order. */
  lemma ReportRoundTrip(unused: seq<string>)
    ensures ReadReport(Report(unused)) == unused
    ensures Report(unused) == [AllUsedMessage] <==> |unused| == 0
  {
    if |unused| > 0 {
      assert Report(unused)[0] == UnusedHeader != AllUsedMessage;
      assert Report(unused)[1..] == unused;
    }
  }

  /** How a code file's usages are found: parse it and list its
      `Receiver.Member` strings. */
  function UsagesOf(parse: string -> Tree): string -> seq<string>
  {
    f => GetAllResxStrings(parse(f).memberAccesses)
  }

  /** `Main` with the strings file path, the list of code files and the
      parser as inputs: the class check, the resource strings, the
      accumulation, and the report lines.  The lines after the header are
      the list the loops build, so each resource string appears once per
      scanned file lacking it, times its declarations. */
  function Main(parse: string -> Tree, stringsPath: string, codeFiles: seq<string>): (r: Result<seq<string>>)
    ensures r.Throws? <==> |parse(stringsPath).classes| != 1
    ensures r.Throws? ==> r.kind == InvalidOperation
    ensures r.Ok? ==>
      (r.value == [AllUsedMessage] <==>
        AllUsed(ResourceStrings(parse(stringsPath).properties, parse(stringsPath).classes[0]),
                codeFiles, stringsPath, UsagesOf(parse)))
    ensures r.Ok? ==>
      ReadReport(r.value) == UnusedAcross(ResourceStrings(parse(stringsPath).properties, parse(stringsPath).classes[0]),
                                          codeFiles, stringsPath, UsagesOf(parse))
    ensures r.Ok? ==>
      forall s :: multiset(ReadReport(r.value))[s] ==
        multiset(ResourceStrings(parse(stringsPath).properties, parse(stringsPath).classes[0]))[s]
        * |FilesLacking(codeFiles, stringsPath, UsagesOf(parse), s)|
  {
    var tree := parse(stringsPath);
    match SoleClass(tree.classes)
    case Throws(k) => Throws(k)
    case Ok(className) =>
      var keys := ResourceStrings(tree.properties, className);
      var unused := UnusedAcross(keys, codeFiles, stringsPath, UsagesOf(parse));
      NothingUnusedIff(keys, codeFiles, stringsPath, UsagesOf(parse));
      UnusedCounts(keys, codeFiles, stringsPath, UsagesOf(parse));
      ReportRoundTrip(unused);
      Ok(Report(unused))
  }

  /** `Main` with the corrected accumulation: the report lists each
      resource string that no scanned file uses, and nothing else. */
  function CorrectedMain(parse: string -> Tree, stringsPath: string, codeFiles: seq<string>): (r: Result<seq<string>>)
    ensures r.Throws? <==> |parse(stringsPath).classes| != 1
    ensures r.Ok? ==> forall s :: s in ReadReport(r.value) <==>
      s in ResourceStrings(parse(stringsPath).properties, parse(stringsPath).classes[0])
      && UsedNowhere(codeFiles, stringsPath, UsagesOf(parse), s)
    ensures r.Ok? ==>
      forall s :: multiset(ReadReport(r.value))[s] ==
        if UsedNowhere(codeFiles, stringsPath, UsagesOf(parse), s)
        then multiset(ResourceStrings(parse(stringsPath).properties, parse(stringsPath).classes[0]))[s]
        else 0
    ensures r.Ok? ==>
      SubsequenceOf(ReadReport(r.value), ResourceStrings(parse(stringsPath).properties, parse(stringsPath).classes[0]))
  {
    var tree := parse(stringsPath);
    match SoleClass(tree.classes)
    case Throws(k) => Throws(k)
    case Ok(className) =>
      var keys := ResourceStrings(tree.properties, className);
      var unused := UnusedAnywhere(keys, codeFiles, stringsPath, UsagesOf(parse));
      UnusedAnywhereExact(keys, codeFiles, stringsPath, UsagesOf(parse));
      ReportRoundTrip(unused);
      Ok(Report(unused))
  }
}

=== FILE: console_values.dfy ===
/** The console tool's value objects `Resource`, `Reference` and
    `ResxResource`: equality as `Equals(object)` dispatches it, hash codes
    over unspecified primitives, and the text each `ToString` writes. */
module ConsoleValues {
  import opened Common
  import opened Text
  import opened Decimal
  import opened Sequences

  /** A resource string `ClassName.Name`. */
  datatype Resource = Resource(className: string, name: string)

  /** How often a class is mentioned in one file. */
  datatype Reference = Reference(fileName: string, className: string, count: int)

  /** A resource string declared in a designer file, with the references
      found to it. */
  datatype ResxResource = ResxResource(
    fileName: string,
    className: string,
    name: string,
    references: seq<Reference>)

  /** The inherited `Resource` part of a `ResxResource`. */
  function BasePart(x: ResxResource): Resource
  {
    Resource(x.className, x.name)
  }

  // ---------------------------------------------------------------------
  // Objects and `Equals(object)`
  // ---------------------------------------------------------------------

  /** The runtime contents of an object. */
  datatype Value =
    | ResourceValue(resource: Resource)
    | ResxValue(resx: ResxResource)
    | ReferenceValue(reference: Reference)
    | OtherValue

  /** A reference: `null`, or an object given by its identity and its
      contents.  Two instances are the same object exactly when they are
      equal as values here. */
  datatype Obj = Null | Instance(id: nat, value: Value)

  /** `ReferenceEquals(a, b)` between non-null references. */
  predicate SameObject(a: Obj, b: Obj)
  {
    a == b
  }

  /** `obj is Resource r`: a `ResxResource` is a `Resource` too. */
  function AsResource(o: Obj): (r: Option<Resource>)
    ensures r.Some? <==> o.Instance? && (o.value.ResourceValue? || o.value.ResxValue?)
  {
    if o.Null? then None
    else match o.value
      case ResourceValue(res) => Some(res)
      case ResxValue(x) => Some(BasePart(x))
      case _ => None
  }

  /** `obj is ResxResource r`. */
  function AsResx(o: Obj): (r: Option<ResxResource>)
    ensures r.Some? <==> o.Instance? && o.value.ResxValue?
  {
    if o.Instance? && o.value.ResxValue? then Some(o.value.resx) else None
  }

  /** `obj is Reference r`. */
  function AsReference(o: Obj): (r: Option<Reference>)
    ensures r.Some? <==> o.Instance? && o.value.ReferenceValue?
  {
    if o.Instance? && o.value.ReferenceValue? then Some(o.value.reference) else None
  }

  /** `Resource.Equals(Resource other)`; `None` is `null`. */
  predicate EqualsResource(self: Resource, other: Option<Resource>)
  {
    other.Some? && other.value.className == self.className && other.value.name == self.name
  }

  /** `Reference.Equals(Reference other)`. */
  predicate EqualsReference(self: Reference, other: Option<Reference>)
  {
    other.Some?
    && self.fileName == other.value.fileName
    && self.className == other.value.className
    && self.count == other.value.count
  }

  /** `List<Reference>.Contains(x)`: some element equals `x`. */
  predicate ListContains(refs: seq<Reference>, x: Reference)
  {
    exists k :: 0 <= k < |refs| && EqualsReference(refs[k], Some(x))
  }

  /** `ResxResource.Equals(ResxResource other)` as written: same file,
      the base comparison, the same number of references, and every
      reference of `other` contained in this one's. */
  predicate EqualsResx(self: ResxResource, other: Option<ResxResource>)
  {
    other.Some?
    && other.value.fileName == self.fileName
    && EqualsResource(BasePart(other.value), Some(BasePart(self)))
    && |other.value.references| == |self.references|
    && forall k :: 0 <= k < |other.value.references| ==>
         ListContains(self.references, other.value.references[k])
  }

  /** `self.Equals(obj)` with the override chosen by the runtime class of
      `self`; a class without an override compares identities. */
  predicate ObjectEquals(self: Obj, obj: Obj)
    requires self.Instance?
  {
    if obj.Null? then false
    else if SameObject(obj, self) then true
    else match self.value
      case ResourceValue(r) => AsResource(obj).Some? && EqualsResource(r, AsResource(obj))
      case ResxValue(x) => AsResx(obj).Some? && EqualsResx(x, AsResx(obj))
      case ReferenceValue(x) => AsReference(obj).Some? && EqualsReference(x, AsReference(obj))
      case OtherValue => false
  }

  predicate IsPlainResource(o: Obj)
  {
    o.Instance? && o.value.ResourceValue?
  }

  predicate IsReference(o: Obj)
  {
    o.Instance? && o.value.ReferenceValue?
  }

  /** No object equals `null`. */
  lemma NullNeverEqual(self: Obj)
    requires self.Instance?
    ensures !ObjectEquals(self, Null)
  {
  }

  /** Two resources are equal iff their class names and names are. */
  lemma ResourceEqualsIff(a: Obj, b: Obj)
    requires IsPlainResource(a) && IsPlainResource(b)
    ensures ObjectEquals(a, b) <==> a.value.resource == b.value.resource
  {
  }

  /** A resource never equals an object that is not a resource. */
  lemma ResourceRejectsOtherClasses(a: Obj, b: Obj)
    requires IsPlainResource(a) && b.Instance? && AsResource(b).None?
    ensures !ObjectEquals(a, b)
  {
  }

  /** Among plain resources `Equals` is an equivalence. */
  lemma ResourceEqualsEquivalence(a: Obj, b: Obj, c: Obj)
    requires IsPlainResource(a) && IsPlainResource(b) && IsPlainResource(c)
    ensures ObjectEquals(a, a)
    ensures ObjectEquals(a, b) ==> ObjectEquals(b, a)
    ensures ObjectEquals(a, b) && ObjectEquals(b, c) ==> ObjectEquals(a, c)
  {
    ResourceEqualsIff(a, b);
    ResourceEqualsIff(b, a);
    ResourceEqualsIff(b, c);
    ResourceEqualsIff(a, c);
  }

  /** A resource does equal a resx resource with the same class name and
      name, but the resx resource's override refuses the plain resource. */
  lemma MixedEqualsAsymmetric(a: Obj, b: Obj)
    requires IsPlainResource(a) && b.Instance? && b.value.ResxValue?
    requires BasePart(b.value.resx) == a.value.resource
    ensures ObjectEquals(a, b) && !ObjectEquals(b, a)
  {
  }

  /** Two references are equal iff file name, class name and count are. */
  lemma ReferenceEqualsIff(a: Obj, b: Obj)
    requires IsReference(a) && IsReference(b)
    ensures ObjectEquals(a, b) <==> a.value.reference == b.value.reference
  {
  }

  /** A reference never equals an object of another class. */
  lemma ReferenceRejectsOtherClasses(a: Obj, b: Obj)
    requires IsReference(a) && b.Instance? && !b.value.ReferenceValue?
    ensures !ObjectEquals(a, b)
  {
  }

  /** Among references `Equals` is an equivalence. */
  lemma ReferenceEqualsEquivalence(a: Obj, b: Obj, c: Obj)
    requires IsReference(a) && IsReference(b) && IsReference(c)
    ensures ObjectEquals(a, a)
    ensures ObjectEquals(a, b) ==> ObjectEquals(b, a)
    ensures ObjectEquals(a, b) && ObjectEquals(b, c) ==> ObjectEquals(a, c)
  {
    ReferenceEqualsIff(a, b);
    ReferenceEqualsIff(b, a);
    ReferenceEqualsIff(b, c);
    ReferenceEqualsIff(a, c);
  }

  /** `List<Reference>.Contains` is membership. */
  lemma ListContainsIff(refs: seq<Reference>, x: Reference)
    ensures ListContains(refs, x) <==> x in refs
  {
    if x in refs {
      var k :| 0 <= k < |refs| && refs[k] == x;
      assert EqualsReference(refs[k], Some(x));
    }
  }

  /** `EqualsResx` with containment read as membership. */
  lemma EqualsResxMembers(x: ResxResource, y: ResxResource)
    ensures EqualsResx(x, Some(y)) <==>
      (y.fileName == x.fileName && BasePart(y) == BasePart(x)
       && |y.references| == |x.references|
       && forall r :: r in y.references ==> r in x.references)
  {
    forall k | 0 <= k < |y.references|
      ensures ListContains(x.references, y.references[k]) <==> y.references[k] in x.references
    {
      ListContainsIff(x.references, y.references[k]);
    }
  }

  /** A resx resource never equals `null`, a plain resource or a reference. */
  lemma ResxRejectsOtherClasses(a: Obj, b: Obj)
    requires a.Instance? && a.value.ResxValue? && (b.Null? || !b.value.ResxValue?)
    ensures !ObjectEquals(a, b)
  {
  }

  /** Every resx resource equals itself, and equals a copy of itself. */
  lemma ResxEqualsReflexive(a: Obj, b: Obj)
    requires a.Instance? && a.value.ResxValue? && b.Instance? && b.value == a.value
    ensures ObjectEquals(a, a) && ObjectEquals(a, b)
  {
    EqualsResxMembers(a.value.resx, b.value.resx);
  }

  /** The order of the references does not matter. */
  lemma ResxEqualsPermutation(x: ResxResource, y: ResxResource)
    requires x.fileName == y.fileName && BasePart(x) == BasePart(y)
    requires multiset(x.references) == multiset(y.references)
    ensures EqualsResx(x, Some(y)) && EqualsResx(y, Some(x))
  {
    assert |x.references| == |multiset(x.references)| == |y.references|;
    assert forall r :: r in y.references ==> r in multiset(x.references);
    assert forall r :: r in x.references ==> r in multiset(y.references);
    EqualsResxMembers(x, y);
    EqualsResxMembers(y, x);
  }

  /** As written, `Equals` is not symmetric once a list repeats a
      reference: `[a, b]` equals `[a, a]`, but not the other way round. */
  lemma ResxEqualsAsymmetric()
    ensures var a := Reference("A.cs", "Strings", 1);
            var b := Reference("B.cs", "Strings", 2);
            var twice := ResxResource("R.Designer.cs", "Strings", "Greeting", [a, a]);
            var mixed := ResxResource("R.Designer.cs", "Strings", "Greeting", [a, b]);
            EqualsResx(mixed, Some(twice)) && !EqualsResx(twice, Some(mixed))
  {
    var a := Reference("A.cs", "Strings", 1);
    var b := Reference("B.cs", "Strings", 2);
    var twice := ResxResource("R.Designer.cs", "Strings", "Greeting", [a, a]);
    var mixed := ResxResource("R.Designer.cs", "Strings", "Greeting", [a, b]);
    EqualsResxMembers(mixed, twice);
    EqualsResxMembers(twice, mixed);
    assert b in mixed.references && b !in twice.references;
  }

  /** The intended equality: same file, class name and name, and the same
      references counted with their multiplicity, in any order. */
  predicate CorrectedEqualsResx(self: ResxResource, other: Option<ResxResource>)
  {
    other.Some?
    && other.value.fileName == self.fileName
    && BasePart(other.value) == BasePart(self)
    && multiset(other.value.references) == multiset(self.references)
  }

  /** The corrected equality is an equivalence and implies the one as
      written. */
  lemma CorrectedEqualsEquivalence(x: ResxResource, y: ResxResource, z: ResxResource)
    ensures CorrectedEqualsResx(x, Some(x))
    ensures CorrectedEqualsResx(x, Some(y)) ==> CorrectedEqualsResx(y, Some(x))
    ensures CorrectedEqualsResx(x, Some(y)) && CorrectedEqualsResx(y, Some(z)) ==> CorrectedEqualsResx(x, Some(z))
    ensures CorrectedEqualsResx(x, Some(y)) ==> EqualsResx(x, Some(y))
  {
    if CorrectedEqualsResx(x, Some(y)) {
      ResxEqualsPermutation(x, y);
    }
  }

  /** A list of `n` distinct elements, all inside another list of `n`
      distinct elements, has the same elements. */
  lemma DistinctInclusion(xs: seq<Reference>, ys: seq<Reference>)
    requires Distinct(xs) && Distinct(ys) && |xs| == |ys|
    requires forall r :: r in ys ==> r in xs
    ensures multiset(xs) == multiset(ys)
  {
    var sx := set r | r in xs;
    var sy := set r | r in ys;
    DistinctSetSize(xs);
    DistinctSetSize(ys);
    assert sy <= sx;
    assert |sx - sy| == |sx| - |sy| == 0;
    assert sx == sy;
    forall r ensures multiset(xs)[r] == multiset(ys)[r] {
      DistinctMultiplicity(xs, r);
      DistinctMultiplicity(ys, r);
      assert r in xs <==> r in sx;
      assert r in ys <==> r in sy;
    }
  }

  /** A list without repeats has as many elements as its set. */
  lemma {:induction false} DistinctSetSize(xs: seq<Reference>)
    requires Distinct(xs)
    ensures |set r | r in xs| == |xs|
    decreases |xs|
  {
    if |xs| > 0 {
      var init := xs[..|xs| - 1];
      var last := xs[|xs| - 1];
      assert xs == init + [last];
      DistinctSetSize(init);
      assert (set r | r in xs) == (set r | r in init) + {last};
      assert last !in (set r | r in init);
    }
  }

  /** Without repeated references the equality as written coincides with
      the intended one. */
  lemma ResxEqualsAgreesWhenDistinct(x: ResxResource, y: ResxResource)
    requires Distinct(x.references) && Distinct(y.references)
    ensures EqualsResx(x, Some(y)) <==> CorrectedEqualsResx(x, Some(y))
  {
    EqualsResxMembers(x, y);
    if EqualsResx(x, Some(y)) {
      DistinctInclusion(x.references, y.references);
    }
    CorrectedEqualsEquivalence(x, y, y);
  }

  /** Hence, without repeated references, the equality as written is
      symmetric. */
  lemma ResxEqualsSymmetricWhenDistinct(x: ResxResource, y: ResxResource)
    requires Distinct(x.references) && Distinct(y.references)
    ensures EqualsResx(x, Some(y)) <==> EqualsResx(y, Some(x))
  {
    ResxEqualsAgreesWhenDistinct(x, y);
    ResxEqualsAgreesWhenDistinct(y, x);
    CorrectedEqualsEquivalence(x, y, y);
    CorrectedEqualsEquivalence(y, x, x);
  }

  // ---------------------------------------------------------------------
  // Hash codes
  // ---------------------------------------------------------------------

  /** The primitives of `System.HashCode`, seeded per process and so left
      unspecified: the hash of a string, `Combine` of two strings and of
      two strings and an int, the initial state, `Add` and `ToHashCode`. */
  datatype Hashing = Hashing(
    ofString: string -> int,
    combine2: (string, string) -> int,
    combine3: (string, string, int) -> int,
    seed: int,
    add: (int, int) -> int,
    finish: int -> int)

  /** `Resource.GetHashCode`: `HashCode.Combine(ClassName, Name)`. */
  function ResourceHash(r: Resource, h: Hashing): int
  {
    h.combine2(r.className, r.name)
  }

  /** `Reference.GetHashCode`: `HashCode.Combine(FileName, ClassName, Count)`. */
  function ReferenceHash(x: Reference, h: Hashing): int
  {
    h.combine3(x.fileName, x.className, x.count)
  }

  /** Adding the references' hashes to the state, in list order. */
  function AddReferences(state: int, refs: seq<Reference>, h: Hashing): int
    decreases |refs|
  {
    if |refs| == 0 then state
    else h.add(AddReferences(state, refs[..|refs| - 1], h), ReferenceHash(refs[|refs| - 1], h))
  }

  /** `ResxResource.GetHashCode` as written: the file name, then each
      reference in order; class name and name are not used. */
  function ResxHash(x: ResxResource, h: Hashing): int
  {
    h.finish(AddReferences(h.add(h.seed, h.ofString(x.fileName)), x.references, h))
  }

  /** `GetHashCode` with the override chosen by the runtime class. */
  function ObjectHash(o: Obj, h: Hashing): int
    requires o.Instance?
  {
    match o.value
    case ResourceValue(r) => ResourceHash(r, h)
    case ResxValue(x) => ResxHash(x, h)
    case ReferenceValue(x) => ReferenceHash(x, h)
    case OtherValue => o.id
  }

  /** Equal resources have equal hash codes, whatever the primitives. */
  lemma ResourceHashConsistent(a: Obj, b: Obj, h: Hashing)
    requires IsPlainResource(a) && IsPlainResource(b) && ObjectEquals(a, b)
    ensures ObjectHash(a, h) == ObjectHash(b, h)
  {
    ResourceEqualsIff(a, b);
  }

  /** Equal references have equal hash codes, whatever the primitives. */
  lemma ReferenceHashConsistent(a: Obj, b: Obj, h: Hashing)
    requires IsReference(a) && IsReference(b) && ObjectEquals(a, b)
    ensures ObjectHash(a, h) == ObjectHash(b, h)
  {
    ReferenceEqualsIff(a, b);
  }

  /** As written, two equal resx resources can hash differently: `Equals`
      ignores the order of the references and the hash does not. */
  lemma ResxHashOrderDependent()
    ensures var h := Hashing(s => 0, (a, b) => 0, (f, c, n) => n, 0, (s, v) => 2 * s + v, s => s);
            var a := Reference("A.cs", "Strings", 0);
            var b := Reference("B.cs", "Strings", 1);
            var x := ResxResource("R.Designer.cs", "Strings", "Greeting", [a, b]);
            var y := ResxResource("R.Designer.cs", "Strings", "Greeting", [b, a]);
            EqualsResx(x, Some(y)) && ResxHash(x, h) != ResxHash(y, h)
  {
    var h := Hashing(s => 0, (a, b) => 0, (f, c, n) => n, 0, (s, v) => 2 * s + v, s => s);
    var a := Reference("A.cs", "Strings", 0);
    var b := Reference("B.cs", "Strings", 1);
    var x := ResxResource("R.Designer.cs", "Strings", "Greeting", [a, b]);
    var y := ResxResource("R.Designer.cs", "Strings", "Greeting", [b, a]);
    assert multiset(x.references) == multiset(y.references);
    ResxEqualsPermutation(x, y);
    var start := h.add(h.seed, h.ofString(x.fileName));
    assert start == 0;
    assert [a, b][..1] == [a] && [b, a][..1] == [b] && [a][..0] == [] && [b][..0] == [];
    assert AddReferences(start, [a], h) == 0;
    assert AddReferences(start, [b], h) == 1;
    assert AddReferences(start, [a, b], h) == 1;
    assert AddReferences(start, [b, a], h) == 2;
  }

  /** The sum of the references' hashes: it does not depend on their order. */
  function HashSum(refs: seq<Reference>, h: Hashing): int
    decreases |refs|
  {
    if |refs| == 0 then 0 else ReferenceHash(refs[0], h) + HashSum(refs[1..], h)
  }

  /** The intended hash: the file name and an order-free combination of the
      references. */
  function CorrectedResxHash(x: ResxResource, h: Hashing): int
  {
    h.finish(h.add(h.add(h.seed, h.ofString(x.fileName)), HashSum(x.references, h)))
  }

  /** Taking one reference out of the sum. */
  lemma {:induction false} HashSumRemove(refs: seq<Reference>, j: nat, h: Hashing)
    requires j < |refs|
    ensures HashSum(refs, h) == ReferenceHash(refs[j], h) + HashSum(refs[..j] + refs[j + 1..], h)
    decreases j
  {
    if j > 0 {
      var rest := refs[..j] + refs[j + 1..];
      assert rest[1..] == refs[1..][..j - 1] + refs[1..][j..];
      assert rest[0] == refs[0];
      HashSumRemove(refs[1..], j - 1, h);
    } else {
      assert refs[..0] + refs[1..] == refs[1..];
    }
  }

  /** Lists with the same elements have the same hash sum. */
  lemma {:induction false} HashSumPermutation(refs: seq<Reference>, others: seq<Reference>, h: Hashing)
    requires multiset(refs) == multiset(others)
    ensures HashSum(refs, h) == HashSum(others, h)
    decreases |refs|
  {
    if |refs| > 0 {
      var r := refs[0];
      assert r in multiset(others);
      var j :| 0 <= j < |others| && others[j] == r;
      var rest := others[..j] + others[j + 1..];
      MultisetRemove(others, j);
      MultisetTail(refs);
      HashSumPermutation(refs[1..], rest, h);
      HashSumRemove(others, j, h);
    } else {
      assert |others| == |multiset(others)| == 0;
    }
  }

  /** Resx resources equal under the intended equality hash alike. */
  lemma CorrectedHashConsistent(x: ResxResource, y: ResxResource, h: Hashing)
    requires CorrectedEqualsResx(x, Some(y))
    ensures CorrectedResxHash(x, h) == CorrectedResxHash(y, h)
  {
    HashSumPermutation(x.references, y.references, h);
  }

  // ---------------------------------------------------------------------
  // Text forms
  // ---------------------------------------------------------------------

  /** `Resource.ToString`: `ClassName.Name`. */
  function ResourceText(r: Resource): string
  {
    r.className + "." + r.name
  }

  /** Reads a resource back from its text: the name follows the last dot. */
  function ParseResourceText(s: string): Option<Resource>
  {
    match LastIndexOf(s, '.')
    case None => None
    case Some(k) => Some(Resource(s[..k], s[k + 1..]))
  }

  /** The text of a resource determines it, as long as the name (an
      identifier) has no dot. */
  lemma ResourceTextRoundTrip(r: Resource)
    requires '.' !in r.name
    ensures ParseResourceText(ResourceText(r)) == Some(r)
  {
    var s := ResourceText(r);
    var k := |r.className|;
    assert s[k] == '.';
    forall j | k < j < |s| ensures s[j] != '.' {
      assert s[j] == r.name[j - k - 1];
    }
    LastIndexOfIs(s, '.', k);
    assert s[..k] == r.className && s[k + 1..] == r.name;
  }

  /** The last occurrence of a character is the one `LastIndexOf` finds. */
  lemma LastIndexOfIs(s: string, c: char, k: nat)
    requires k < |s| && s[k] == c
    requires forall j :: k < j < |s| ==> s[j] != c
    ensures LastIndexOf(s, c) == Some(k)
  {
    assert s[k] in s;
  }

  const FileSeparator := ": "

  /** `Reference.ToString`: `FileName: ClassName (Count)`. */
  function ReferenceText(x: Reference): string
  {
    x.fileName + FileSeparator + CountedText(x.className, x.count)
  }

  /** The part after the file name: `ClassName (Count)`. */
  function CountedText(className: string, count: int): string
  {
    className + " (" + IntText(count) + ")"
  }

  /** Reads `ClassName (Count)` back: the count sits between the last `(`
      and the closing `)`. */
  function ParseCountedText(t: string): Option<(string, int)>
  {
    if |t| == 0 || t[|t| - 1] != ')' then None
    else match LastIndexOf(t, '(')
      case None => None
      case Some(k) =>
        if k == 0 || t[k - 1] != ' ' || k + 1 > |t| - 1 then None
        else match ParseInt(t[k + 1..|t| - 1])
          case None => None
          case Some(n) => Some((t[..k - 1], n))
  }

  /** Reads a reference back from its text: the file name ends at the
      first `": "`. */
  function ParseReferenceText(s: string): Option<Reference>
  {
    match IndexOf(s, FileSeparator)
    case None => None
    case Some(i) =>
      match ParseCountedText(s[i + |FileSeparator|..])
      case None => None
      case Some(p) => Some(Reference(s[..i], p.0, p.1))
  }

  /** Whatever the class name holds, the count reads back. */
  lemma CountedTextRoundTrip(className: string, count: int)
    ensures ParseCountedText(CountedText(className, count)) == Some((className, count))
  {
    var t := CountedText(className, count);
    var digits := IntText(count);
    var k := |className| + 1;
    assert forall i :: 0 <= i < |digits| ==> digits[i] != '(';
    CountedShape(className, digits);
    LastIndexOfIs(t, '(', k);
    IntTextRoundTrip(count);
  }

  /** Where the parts of `name (digits)` sit. */
  lemma CountedShape(name: string, digits: string)
    requires '(' !in digits
    ensures var t := name + " (" + digits + ")"; var k := |name| + 1;
      && |t| == |name| + |digits| + 3
      && t[k] == '(' && t[k - 1] == ' ' && t[|t| - 1] == ')'
      && t[..k - 1] == name && t[k + 1..|t| - 1] == digits
      && forall j :: k < j < |t| ==> t[j] != '('
  {
    var t := name + " (" + digits + ")";
    var k := |name| + 1;
    forall j | k < j < |t| ensures t[j] != '(' {
      if j < |t| - 1 {
        assert t[j] == digits[j - k - 1];
      }
    }
    assert t[k + 1..|t| - 1] == digits;
    assert t[..k - 1] == name;
  }

  /** The text of a reference determines it, as long as the file name
      does not hide a `": "`; the class name may contain anything. */
  lemma ReferenceTextRoundTrip(x: Reference)
    requires Separable(x.fileName, FileSeparator)
    ensures ParseReferenceText(ReferenceText(x)) == Some(x)
  {
    FirstAfterSeparable(x.fileName, FileSeparator, CountedText(x.className, x.count));
    CountedTextRoundTrip(x.className, x.count);
  }

  /** `ResxResource.ToShortString`: `ClassName.Name`. */
  function ShortText(x: ResxResource): string
  {
    x.className + "." + x.name
  }

  /** `ResxResource.ToString`: `FileName: ClassName.Name`. */
  function ResxText(x: ResxResource): string
  {
    x.fileName + FileSeparator + x.className + "." + x.name
  }

  /** The short text is the base resource's text, the full text puts the
      file name in front of it, and both read back. */
  lemma ResxTextForms(x: ResxResource)
    requires '.' !in x.name && Separable(x.fileName, FileSeparator)
    ensures ShortText(x) == ResourceText(BasePart(x))
    ensures ResxText(x) == x.fileName + FileSeparator + ShortText(x)
    ensures ParseResourceText(ShortText(x)) == Some(BasePart(x))
    ensures IndexOf(ResxText(x), FileSeparator) == Some(|x.fileName|)
  {
    ResxTextSplits(x);
    ResourceTextRoundTrip(BasePart(x));
    FirstAfterSeparable(x.fileName, FileSeparator, ShortText(x));
  }

  /** The full text is the file name, the separator, and the short text. */
  lemma ResxTextSplits(x: ResxResource)
    ensures ResxText(x) == x.fileName + FileSeparator + ShortText(x)
  {
    var a := x.fileName + FileSeparator;
    assert a + x.className + "." + x.name == a + (x.className + "." + x.name);
  }
}

=== FILE: decimal.dfy ===
/** The decimal text of an `int` as string interpolation writes it
    (`$"{Count}"`), and the parser that reads it back. */
module Decimal {
  import opened Common

  predicate IsDigit(c: char)
  {
    '0' <= c <= '9'
  }

  /** A non-empty run of decimal digits. */
  predicate IsDigits(s: string)
  {
    |s| > 0 && forall i :: 0 <= i < |s| ==> IsDigit(s[i])
  }

  function DigitChar(d: nat): (c: char)
    requires d < 10
    ensures IsDigit(c)
  {
    (48 + d) as char
  }

  function DigitValue(c: char): (d: nat)
    requires IsDigit(c)
    ensures d < 10 && DigitChar(d) == c
  {
    (c as int - 48) as nat
  }

  /** The digits of `n`, most significant first, without leading zeros. */
  function NatText(n: nat): (s: string)
    ensures IsDigits(s)
    ensures |s| > 1 ==> s[0] != '0'
    decreases n
  {
    if n < 10 then [DigitChar(n)] else NatText(n / 10) + [DigitChar(n % 10)]
  }

  /** The value of a run of digits. */
  function ParseDigits(s: string): nat
    requires forall i :: 0 <= i < |s| ==> IsDigit(s[i])
    decreases |s|
  {
    if |s| == 0 then 0
    else 10 * ParseDigits(s[..|s| - 1]) + DigitValue(s[|s| - 1])
  }

  lemma {:induction false} ParseNatText(n: nat)
    ensures ParseDigits(NatText(n)) == n
    decreases n
  {
    var s := NatText(n);
    if n >= 10 {
      ParseNatText(n / 10);
      assert s[..|s| - 1] == NatText(n / 10);
    }
  }

  /** `n.ToString()` with `-` as the negative sign. */
  function IntText(n: int): (s: string)
    ensures |s| > 0
    ensures forall i :: 0 <= i < |s| ==> IsDigit(s[i]) || s[i] == '-'
  {
    if n < 0 then "-" + NatText(-n) else NatText(n)
  }

  /** `int.Parse` restricted to what `IntText` writes. */
  function ParseInt(s: string): Option<int>
  {
    if |s| > 0 && s[0] == '-' && IsDigits(s[1..]) then Some(0 - ParseDigits(s[1..]) as int)
    else if IsDigits(s) then Some(ParseDigits(s))
    else None
  }

  /** Reading the text of a number gives the number back. */
  lemma IntTextRoundTrip(n: int)
    ensures ParseInt(IntText(n)) == Some(n)
  {
    if n < 0 {
      ParseNatText(-n);
      assert IntText(n)[1..] == NatText(-n);
    } else {
      ParseNatText(n);
    }
  }
}

=== FILE: exceptions.dfy ===
/** The exceptions the analysis can end with, the recursive test
    `IsTypeOf<T>` of the desktop variant, its older twin
    `IsPureCalceledException`, and the status word both view models
    derive from how `Analyze` ended. */
module Exceptions {

  /** The .NET exception classes the tool can observe.  `AggregateException`
      is not listed: it is the `Aggregate` node of `Exception` below. */
  datatype ExceptionType =
    | BaseException          // System.Exception
    | SystemException
    | OperationCanceled      // System.OperationCanceledException
    | TaskCanceled           // derives from OperationCanceledException
    | InvalidOperation
    | ArgumentException
    | ArgumentOutOfRange     // derives from ArgumentException
    | ArgumentNull           // derives from ArgumentException
    | IOException
    | OtherException

  /** The direct base class of each exception class. */
  function BaseOf(t: ExceptionType): ExceptionType
  {
    match t
    case BaseException => BaseException
    case SystemException => BaseException
    case OperationCanceled => SystemException
    case TaskCanceled => OperationCanceled
    case InvalidOperation => SystemException
    case ArgumentException => SystemException
    case ArgumentOutOfRange => ArgumentException
    case ArgumentNull => ArgumentException
    case IOException => SystemException
    case OtherException => BaseException
  }

  /** Distance from `System.Exception` in the class hierarchy. */
  function Depth(t: ExceptionType): nat
  {
    match t
    case BaseException => 0
    case SystemException => 1
    case OtherException => 1
    case OperationCanceled => 2
    case InvalidOperation => 2
    case ArgumentException => 2
    case IOException => 2
    case TaskCanceled => 3
    case ArgumentOutOfRange => 3
    case ArgumentNull => 3
  }

  /** `x is T`: `k` is `t` or derives from it. */
  predicate IsA(k: ExceptionType, t: ExceptionType)
    decreases Depth(k)
  {
    k == t || (k != BaseException && IsA(BaseOf(k), t))
  }

  /** A thrown exception: a leaf of some class, or an `AggregateException`
      wrapping inner exceptions (as `Parallel.ForEach` produces). */
  datatype Exception =
    | Thrown(kind: ExceptionType)
    | Aggregate(inner: seq<Exception>)

  /** `IsTypeOf<T>` of ExceptionExtensions: an aggregate is of type `t` when
      all its inner exceptions are; any other exception when it is a `t`. */
  predicate IsTypeOf(e: Exception, t: ExceptionType)
    decreases e
  {
    match e
    case Aggregate(inner) => forall i :: 0 <= i < |inner| ==> IsTypeOf(inner[i], t)
    case Thrown(k) => IsA(k, t)
  }

  /** `IsPureCalceledException` of the older view model. */
  predicate IsPureCanceled(e: Exception)
    decreases e
  {
    match e
    case Aggregate(inner) => forall i :: 0 <= i < |inner| ==> IsPureCanceled(inner[i])
    case Thrown(k) => IsA(k, OperationCanceled)
  }

  /** `k` occurs as a non-aggregate leaf somewhere in the tree `e`. */
  predicate HasLeaf(e: Exception, k: ExceptionType)
    decreases e
  {
    match e
    case Thrown(k') => k' == k
    case Aggregate(inner) => exists i :: 0 <= i < |inner| && HasLeaf(inner[i], k)
  }

  /** The recursion of `IsTypeOf` reaches every leaf: the tree is of type
      `t` exactly when each of its non-aggregate leaves is a `t`. */
  lemma {:induction false} IsTypeOfLeaves(e: Exception, t: ExceptionType)
    ensures IsTypeOf(e, t) <==> (forall k :: HasLeaf(e, k) ==> IsA(k, t))
    decreases e
  {
    match e
    case Thrown(k) =>
      assert HasLeaf(e, k);
    case Aggregate(inner) =>
      forall i | 0 <= i < |inner|
        ensures IsTypeOf(inner[i], t) <==> (forall k :: HasLeaf(inner[i], k) ==> IsA(k, t))
      {
        IsTypeOfLeaves(inner[i], t);
      }
      if IsTypeOf(e, t) {
        forall k | HasLeaf(e, k) ensures IsA(k, t) {
          var i :| 0 <= i < |inner| && HasLeaf(inner[i], k);
        }
      } else {
        var i :| 0 <= i < |inner| && !IsTypeOf(inner[i], t);
        var k :| HasLeaf(inner[i], k) && !IsA(k, t);
        assert HasLeaf(e, k);
      }
  }

  /** The older hand-written test is `IsTypeOf<OperationCanceledException>`. */
  lemma {:induction false} PureCanceledIsTypeOf(e: Exception)
    ensures IsPureCanceled(e) <==> IsTypeOf(e, OperationCanceled)
    decreases e
  {
    match e
    case Thrown(k) =>
    case Aggregate(inner) =>
      forall i | 0 <= i < |inner|
        ensures IsPureCanceled(inner[i]) <==> IsTypeOf(inner[i], OperationCanceled)
      {
        PureCanceledIsTypeOf(inner[i]);
      }
  }

  /** How `Analyze()` ended inside `AnalyzeAsync`. */
  datatype AnalyzeOutcome =
    | Returned               // normal return, including the early return for a missing directory
    | Raised(error: Exception)

  /** The word the older `AnalyzeAsync` puts in front of the final status
      line.  A bare `OperationCanceledException` only writes the status
      property inside its catch block; the `finally` block then overwrites
      it with the still-empty word. */
  function StatusWordLegacy(o: AnalyzeOutcome): (w: string)
    ensures w == "Error occurred" <==> (o.Raised? && o.error.Thrown? && !IsA(o.error.kind, OperationCanceled))
    ensures w == "Task is cancelled" <==> (o.Raised? && o.error.Aggregate? && IsPureCanceled(o.error))
    ensures w == "Completed" <==> o.Returned?
    ensures w == "" <==> o.Raised? && ((o.error.Thrown? && IsA(o.error.kind, OperationCanceled))
                                       || (o.error.Aggregate? && !IsPureCanceled(o.error)))
  {
    match o
    case Returned => "Completed"
    case Raised(Thrown(k)) =>
      if IsA(k, OperationCanceled) then "" else "Error occurred"
    case Raised(Aggregate(inner)) =>
      if forall i :: 0 <= i < |inner| ==> IsPureCanceled(inner[i]) then "Task is cancelled" else ""
  }

  /** The same word in the desktop `AnalyzeAsync`, which asks `IsTypeOf`. */
  function StatusWordDesktop(o: AnalyzeOutcome): (w: string)
    ensures w == "Error occurred" <==> (o.Raised? && o.error.Thrown? && !IsA(o.error.kind, OperationCanceled))
    ensures w == "Task is cancelled" <==> (o.Raised? && o.error.Aggregate? && IsTypeOf(o.error, OperationCanceled))
    ensures w == "Completed" <==> o.Returned?
    ensures w == "" <==> o.Raised? && ((o.error.Thrown? && IsA(o.error.kind, OperationCanceled))
                                       || (o.error.Aggregate? && !IsTypeOf(o.error, OperationCanceled)))
  {
    match o
    case Returned => "Completed"
    case Raised(Thrown(k)) =>
      if IsA(k, OperationCanceled) then "" else "Error occurred"
    case Raised(Aggregate(inner)) =>
      if IsTypeOf(Aggregate(inner), OperationCanceled) then "Task is cancelled" else ""
  }

  /** Both view models report the same word for every outcome. */
  lemma StatusWordsAgree(o: AnalyzeOutcome)
    ensures StatusWordDesktop(o) == StatusWordLegacy(o)
  {
    if o.Raised? {
      PureCanceledIsTypeOf(o.error);
    }
  }

  /** "Task is cancelled" is reported exactly for an aggregate whose every
      leaf is a cancellation, however deeply nested parallel loops wrapped it;
      an empty aggregate counts as a cancellation. */
  lemma CancelledWordMeansAllLeavesCancelled(o: AnalyzeOutcome)
    requires o.Raised? && o.error.Aggregate?
    ensures StatusWordDesktop(o) == "Task is cancelled"
        <==> (forall k :: HasLeaf(o.error, k) ==> IsA(k, OperationCanceled))
  {
    IsTypeOfLeaves(o.error, OperationCanceled);
  }

  /** A `TaskCanceledException` is a cancellation; an empty aggregate is pure. */
  lemma CancellationExamples()
    ensures IsPureCanceled(Thrown(TaskCanceled))
    ensures IsPureCanceled(Aggregate([]))
    ensures !IsPureCanceled(Aggregate([Thrown(OperationCanceled), Thrown(IOException)]))
    ensures StatusWordLegacy(Raised(Aggregate([Aggregate([Thrown(OperationCanceled)])]))) == "Task is cancelled"
    ensures StatusWordLegacy(Raised(Thrown(OperationCanceled))) == ""
  {
    var mixed := [Thrown(OperationCanceled), Thrown(IOException)];
    assert !IsPureCanceled(mixed[1]);
    var nested := [Aggregate([Thrown(OperationCanceled)])];
    assert IsPureCanceled(nested[0]) by {
      assert IsPureCanceled(Aggregate([Thrown(OperationCanceled)]).inner[0]);
    }
  }
}

=== FILE: file_helper.dfy ===
/** `FileHelper.GetAllFiles` of the shared library: the directory listing
    for a mask, filtered by a file check.  The listing itself (what
    `Directory.GetFiles` returns for a mask, recursively) is an input. */
module FileHelper {
  import opened Common
  import opened Text
  import opened Sequences

  /** What the filter sees of a listed file: the path `GetFiles` returns,
      and the `FileInfo` fields `Name`, `Directory?.FullName` and
      `IsReadOnly`. */
  datatype FileEntry = FileEntry(fullPath: string, name: string, directory: Option<string>, isReadOnly: bool)

  /** The mask used when none is given. */
  const AllFilesMask := "*.*"

  /** The configured extension that admits every file. */
  const AnyExtension := ".*"

  /** `string.IsNullOrEmpty(mask) ? "*.*" : mask`. */
  function EffectiveMask(mask: Option<string>): (m: string)
    ensures |m| > 0
    ensures mask.Some? && |mask.value| > 0 ==> m == mask.value
    ensures mask.None? || |mask.value| == 0 ==> m == AllFilesMask
  {
    if mask.None? || |mask.value| == 0 then AllFilesMask else mask.value
  }

  /** `ext.StartsWith("*") ? ext : "*" + ext`. */
  function MaskFor(ext: string): (m: string)
    ensures StartsWith(m, "*") && EndsWith(m, ext)
    ensures StartsWith(ext, "*") ==> m == ext
    ensures |m| <= |ext| + 1
  {
    if StartsWith(ext, "*") then ext else "*" + ext
  }

  /** A mask is its own mask. */
  lemma MaskForIdempotent(ext: string)
    ensures MaskFor(MaskFor(ext)) == MaskFor(ext)
  {
  }

  /** `Path.GetExtension(name)` for a file name: from the last dot on, or
      empty when there is no dot or the name ends with it. */
  function GetExtension(name: string): (e: string)
    ensures e == "" || (|e| >= 2 && e[0] == '.' && EndsWith(name, e) && '.' !in e[1..])
    ensures '.' !in name ==> e == ""
  {
    match LastIndexOf(name, '.')
    case None => ""
    case Some(i) =>
      if i == |name| - 1 then ""
      else
        assert forall k :: 0 <= k < |name| - i - 1 ==> name[i..][1..][k] == name[i + 1 + k];
        name[i..]
  }

  /** The extension of `stem.ext` is `.ext` when `ext` is a non-empty run
      without dots. */
  lemma GetExtensionOf(stem: string, ext: string)
    requires |ext| > 0 && '.' !in ext
    ensures GetExtension(stem + "." + ext) == "." + ext
  {
    var name := stem + "." + ext;
    assert name[|stem|] == '.';
    assert '.' in name;
    forall k | |stem| < k < |name| ensures name[k] != '.' {
      assert name[k] == ext[k - |stem| - 1];
    }
    assert LastIndexOf(name, '.') == Some(|stem|);
    assert name[|stem|..] == "." + ext;
  }

  /** A name that ends with a dot has no extension. */
  lemma TrailingDotHasNoExtension(stem: string)
    ensures GetExtension(stem + ".") == ""
  {
  }

  /** `info.Directory?.FullName.Replace(path, @"\") + "\\"`: the folder of
      the file relative to the searched root, between backslashes; a file
      without a directory gives just `\`. */
  function FolderKey(path: string, directory: Option<string>): (key: string)
    requires |path| > 0
    ensures EndsWith(key, "\\")
    ensures directory.Some? && !Contains(directory.value, path) ==> key == directory.value + "\\"
  {
    (if directory.None? then "" else Replace(directory.value, path, "\\")) + "\\"
  }

  /** A folder below the root becomes its relative path between
      backslashes (when the root text does not occur again inside it). */
  lemma FolderKeyUnderRoot(path: string, rel: string)
    requires |path| > 0 && Separable(rel, path)
    ensures FolderKey(path, Some(path + rel)) == "\\" + rel + "\\"
  {
    assert Separable("", path);
    assert Join(path, ["", rel]) == path + rel;
    SplitJoin(["", rel], path);
    assert Join("\\", ["", rel]) == "\\" + rel;
  }

  /** A file whose folder below the root mentions an excluded folder (for
      the default `\obj\`, any folder named `obj` on the way) is rejected. */
  lemma ExcludedFolderRejected(path: string, rel: string, extensions: seq<string>,
                               excludedFolders: seq<string>, e: FileEntry, i: nat)
    requires |path| > 0 && Separable(rel, path) && e.directory == Some(path + rel)
    requires i < |excludedFolders| && Contains("\\" + rel + "\\", excludedFolders[i])
    ensures !Accepts(path, extensions, excludedFolders, e)
  {
    FolderKeyUnderRoot(path, rel);
  }

  /** `extensions.Any(i => i == ".*" || Path.GetExtension(info.Name) == i)`. */
  predicate ExtensionAccepted(extensions: seq<string>, name: string)
  {
    exists i :: 0 <= i < |extensions| && (extensions[i] == AnyExtension || GetExtension(name) == extensions[i])
  }

  /** `excludedFolders.All(i => !folderKey.Contains(i))`. */
  predicate FolderAccepted(path: string, excludedFolders: seq<string>, directory: Option<string>)
    requires |path| > 0
  {
    forall i :: 0 <= i < |excludedFolders| ==> !Contains(FolderKey(path, directory), excludedFolders[i])
  }

  /** The `checkFile` that the extension overload passes. */
  predicate Accepts(path: string, extensions: seq<string>, excludedFolders: seq<string>, e: FileEntry)
    requires |path| > 0
  {
    ExtensionAccepted(extensions, e.name) && !e.isReadOnly && FolderAccepted(path, excludedFolders, e.directory)
  }

  /** The `checkFile` argument of the mask overload: none (null), or the
      check the extension overload builds. */
  datatype FileCheck = NoCheck | Configured(root: string, extensions: seq<string>, excludedFolders: seq<string>)

  predicate ValidCheck(check: FileCheck)
  {
    check.NoCheck? || |check.root| > 0
  }

  predicate Keeps(check: FileCheck, e: FileEntry)
    requires ValidCheck(check)
  {
    match check
    case NoCheck => true
    case Configured(root, extensions, excludedFolders) => Accepts(root, extensions, excludedFolders, e)
  }

  /** The loop of the mask overload over the listed files. */
  function KeepFiles(entries: seq<FileEntry>, check: FileCheck): (r: seq<string>)
    requires ValidCheck(check)
    ensures |r| <= |entries|
    ensures forall p :: p in r <==> exists i :: 0 <= i < |entries| && entries[i].fullPath == p && Keeps(check, entries[i])
  {
    if |entries| == 0 then []
    else
      var rest := KeepFiles(entries[1..], check);
      assert forall i :: 0 < i < |entries| ==> entries[i] == entries[1..][i - 1];
      if Keeps(check, entries[0]) then [entries[0].fullPath] + rest else rest
  }

  /** The paths of the listed files, in listing order. */
  function Paths(entries: seq<FileEntry>): (r: seq<string>)
    ensures |r| == |entries| && forall i :: 0 <= i < |r| ==> r[i] == entries[i].fullPath
  {
    seq(|entries|, i requires 0 <= i < |entries| => entries[i].fullPath)
  }

  /** The test of `KeepFiles` as a value; `KeepFiles` only runs with a
      valid check. */
  function KeptBy(check: FileCheck): FileEntry -> bool
  {
    (e: FileEntry) => ValidCheck(check) && Keeps(check, e)
  }

  function PathOf(e: FileEntry): string
  {
    e.fullPath
  }

  /** Without a check every listed file is kept, in listing order; with
      one, the result has one path per accepted entry, in listing order,
      and is a subsequence of the listing. */
  lemma KeepFilesOrder(entries: seq<FileEntry>, check: FileCheck)
    requires ValidCheck(check)
    ensures check.NoCheck? ==> KeepFiles(entries, check) == Paths(entries)
    ensures SubsequenceOf(KeepFiles(entries, check), Paths(entries))
    ensures Selects(KeepFiles(entries, check), entries, KeptBy(check), PathOf)
  {
    KeepFilesSubsequence(entries, check);
    KeepFilesSelects(entries, check);
  }

  lemma {:induction false} KeepFilesSubsequence(entries: seq<FileEntry>, check: FileCheck)
    requires ValidCheck(check)
    ensures check.NoCheck? ==> KeepFiles(entries, check) == Paths(entries)
    ensures SubsequenceOf(KeepFiles(entries, check), Paths(entries))
  {
    if |entries| > 0 {
      KeepFilesSubsequence(entries[1..], check);
      var rest := KeepFiles(entries[1..], check);
      assert Paths(entries) == [entries[0].fullPath] + Paths(entries[1..]);
      if Keeps(check, entries[0]) {
        SubsequenceCons(entries[0].fullPath, rest, Paths(entries[1..]));
      } else {
        SubsequenceSkip(entries[0].fullPath, rest, Paths(entries[1..]));
      }
    }
  }

  lemma {:induction false} KeepFilesSelects(entries: seq<FileEntry>, check: FileCheck)
    requires ValidCheck(check)
    ensures Selects(KeepFiles(entries, check), entries, KeptBy(check), PathOf)
  {
    if |entries| == 0 {
      SelectsEmpty(KeptBy(check), PathOf);
    } else {
      KeepFilesSelects(entries[1..], check);
      SelectsCons(entries[0], KeepFiles(entries[1..], check), entries[1..], KeptBy(check), PathOf);
      assert [entries[0]] + entries[1..] == entries;
    }
  }

  /** `GetAllFiles(path, mask, checkFile)`; `listing(mask)` stands for
      `Directory.GetFiles(path, mask, SearchOption.AllDirectories)`. */
  function GetFilesMatching(mask: Option<string>, check: FileCheck, listing: string -> seq<FileEntry>): seq<string>
    requires ValidCheck(check)
  {
    KeepFiles(listing(EffectiveMask(mask)), check)
  }

  /** `GetAllFiles(path, extensions, excludedFolders)`: for each extension
      in turn, the files its mask lists that the check accepts. */
  /** The listing for the `k`-th extension's mask holds an accepted entry
      with path `p`. */
  predicate Listed(path: string, extensions: seq<string>, excludedFolders: seq<string>,
                   listing: string -> seq<FileEntry>, k: nat, p: string)
    requires |path| > 0 && k < |extensions|
  {
    exists e :: e in listing(MaskFor(extensions[k])) && e.fullPath == p && Accepts(path, extensions, excludedFolders, e)
  }

  /** The files each extension's mask contributes, in extension order. */
  function MaskResults(path: string, extensions: seq<string>, excludedFolders: seq<string>,
                       listing: string -> seq<FileEntry>): (r: seq<seq<string>>)
    requires |path| > 0
    ensures |r| == |extensions|
    ensures forall k :: 0 <= k < |extensions| ==>
              r[k] == GetFilesMatching(Some(MaskFor(extensions[k])), Configured(path, extensions, excludedFolders), listing)
  {
    seq(|extensions|, k requires 0 <= k < |extensions| =>
      GetFilesMatching(Some(MaskFor(extensions[k])), Configured(path, extensions, excludedFolders), listing))
  }

  function GetAllFiles(path: string, extensions: seq<string>, excludedFolders: seq<string>,
                       listing: string -> seq<FileEntry>): (r: seq<string>)
    requires |path| > 0
    ensures forall p :: p in r <==> exists k :: 0 <= k < |extensions| && Listed(path, extensions, excludedFolders, listing, k, p)
  {
    AllFilesMembers(path, extensions, excludedFolders, listing);
    Flatten(MaskResults(path, extensions, excludedFolders, listing))
  }

  /** The files one extension's mask contributes. */
  lemma MaskMember(path: string, extensions: seq<string>, excludedFolders: seq<string>,
                   listing: string -> seq<FileEntry>, k: nat, p: string)
    requires |path| > 0 && k < |extensions|
    ensures p in GetFilesMatching(Some(MaskFor(extensions[k])), Configured(path, extensions, excludedFolders), listing)
        <==> Listed(path, extensions, excludedFolders, listing, k, p)
  {
    var entries := listing(MaskFor(extensions[k]));
    if Listed(path, extensions, excludedFolders, listing, k, p) {
      var e :| e in entries && e.fullPath == p && Accepts(path, extensions, excludedFolders, e);
      var i :| 0 <= i < |entries| && entries[i] == e;
    }
  }

  /** A path is returned exactly when one of the masks lists an accepted
      entry with that path. */
  lemma AllFilesMembers(path: string, extensions: seq<string>, excludedFolders: seq<string>,
                        listing: string -> seq<FileEntry>)
    requires |path| > 0
    ensures forall p :: p in Flatten(MaskResults(path, extensions, excludedFolders, listing))
                    <==> exists k :: 0 <= k < |extensions| && Listed(path, extensions, excludedFolders, listing, k, p)
  {
    var chunks := MaskResults(path, extensions, excludedFolders, listing);
    forall p
      ensures p in Flatten(chunks) <==> exists k :: 0 <= k < |extensions| && Listed(path, extensions, excludedFolders, listing, k, p)
    {
      FlattenMember(chunks, p);
      forall k | 0 <= k < |extensions|
        ensures p in chunks[k] <==> Listed(path, extensions, excludedFolders, listing, k, p)
      {
        MaskMember(path, extensions, excludedFolders, listing, k, p);
      }
    }
  }

  /** Everything returned is writable, has a configured extension (unless
      every extension is admitted) and lies outside the excluded folders. */
  lemma ReturnedFilesAccepted(path: string, extensions: seq<string>, excludedFolders: seq<string>,
                              listing: string -> seq<FileEntry>, p: string)
    requires |path| > 0 && p in GetAllFiles(path, extensions, excludedFolders, listing)
    ensures exists e: FileEntry ::
      (&& e.fullPath == p && !e.isReadOnly
       && (AnyExtension in extensions || GetExtension(e.name) in extensions)
       && forall i :: 0 <= i < |excludedFolders| ==> !Contains(FolderKey(path, e.directory), excludedFolders[i]))
  {
    var k :| 0 <= k < |extensions| && Listed(path, extensions, excludedFolders, listing, k, p);
    var e :| e in listing(MaskFor(extensions[k])) && e.fullPath == p && Accepts(path, extensions, excludedFolders, e);
    AcceptedEntry(path, extensions, excludedFolders, e);
  }

  /** What `Accepts` says about one entry, spelled out. */
  lemma AcceptedEntry(path: string, extensions: seq<string>, excludedFolders: seq<string>, e: FileEntry)
    requires |path| > 0 && Accepts(path, extensions, excludedFolders, e)
    ensures !e.isReadOnly && (AnyExtension in extensions || GetExtension(e.name) in extensions)
    ensures forall i :: 0 <= i < |excludedFolders| ==> !Contains(FolderKey(path, e.directory), excludedFolders[i])
  {
    var i :| 0 <= i < |extensions| && (extensions[i] == AnyExtension || GetExtension(e.name) == extensions[i]);
    assert extensions[i] in extensions;
  }

  /** The result for several extensions is the results per extension, one
      after the other, each filtered by the check built from all of them:
      the files found for the first `n + 1` masks are those of the first
      `n` followed by what the next mask lists and the check keeps. */
  lemma CollectAppends(path: string, extensions: seq<string>, excludedFolders: seq<string>,
                       listing: string -> seq<FileEntry>, n: nat)
    requires |path| > 0 && n < |extensions|
    ensures var chunks := MaskResults(path, extensions, excludedFolders, listing);
      Flatten(chunks[..n + 1])
        == Flatten(chunks[..n]) + KeepFiles(listing(MaskFor(extensions[n])), Configured(path, extensions, excludedFolders))
  {
    var chunks := MaskResults(path, extensions, excludedFolders, listing);
    assert chunks[..n + 1][..n] == chunks[..n];
  }

  /** The sample entry `C:\src\a.cs` is kept for the extensions `.cs`
      and `*.cs`. */
  lemma SampleEntryKept(entry: FileEntry)
    requires entry == FileEntry("C:\\src\\a.cs", "a.cs", Some("C:\\src"), false)
    ensures KeepFiles([entry], Configured("C:\\src\\", [".cs", "*.cs"], [])) == [entry.fullPath]
  {
    GetExtensionOf("a", "cs");
    assert "a" + "." + "cs" == "a.cs";
    assert GetExtension("a.cs") == [".cs", "*.cs"][0];
    assert Accepts("C:\\src\\", [".cs", "*.cs"], [], entry);
    assert [entry][1..] == [];
  }

  /** A file listed under two configured masks is returned twice. */
  lemma DuplicateWhenTwoMasksMatch()
    ensures var entry := FileEntry("C:\\src\\a.cs", "a.cs", Some("C:\\src"), false);
      GetAllFiles("C:\\src\\", [".cs", "*.cs"], [], m => [entry]) == ["C:\\src\\a.cs", "C:\\src\\a.cs"]
  {
    var entry := FileEntry("C:\\src\\a.cs", "a.cs", Some("C:\\src"), false);
    var listing: string -> seq<FileEntry> := m => [entry];
    SampleEntryKept(entry);
    var check := Configured("C:\\src\\", [".cs", "*.cs"], []);
    var chunks := MaskResults("C:\\src\\", [".cs", "*.cs"], [], listing);
    assert chunks[0] == KeepFiles(listing(EffectiveMask(Some(MaskFor(".cs")))), check) == [entry.fullPath];
    assert chunks[1] == KeepFiles(listing(EffectiveMask(Some(MaskFor("*.cs")))), check) == [entry.fullPath];
    assert chunks == [[entry.fullPath], [entry.fullPath]];
    assert chunks[..1][..0] == [];
    assert Flatten(chunks[..1]) == [entry.fullPath];
    assert chunks[..|chunks| - 1] == chunks[..1];
    assert Flatten(chunks) == Flatten(chunks[..1]) + chunks[1];
    assert GetAllFiles("C:\\src\\", [".cs", "*.cs"], [], listing) == Flatten(chunks);
  }
}

=== FILE: line_scan.dfy ===
/** Reference counting: how often the keys of the catalog occur in the
    lines of the scanned files.  The older view model visits every line and,
    for each line, every resource (`CheckLine`); the desktop one drops the
    white-space-only lines and visits, for each resource, every remaining
    line (`CheckLines`).  A resource's count is the number of lines that
    contain its key, however often the key occurs in one line. */
module LineScan {
  import opened Text
  import opened Patterns
  import opened ResourceItem
  import opened Sequences

  /** `line.Contains(name)`, as a test on lines. */
  function Mentions(name: string): string -> bool
  {
    line => Contains(line, name)
  }

  /** The same test on the lines that are not blank. */
  function MentionsVisibly(name: string): string -> bool
  {
    line => !IsBlank(line) && Contains(line, name)
  }

  /** The indices of the lines that contain `name`. */
  ghost function LinesContaining(lines: seq<string>, name: string): set<nat>
  {
    Positions(lines, Mentions(name))
  }

  /** The indices of the lines that contain `name` and are not blank. */
  ghost function NonBlankLinesContaining(lines: seq<string>, name: string): set<nat>
  {
    Positions(lines, MentionsVisibly(name))
  }

  /** The last line adds its index to the set when it contains `name`. */
  lemma LinesContainingSnoc(lines: seq<string>, name: string)
    requires |lines| > 0
    ensures |LinesContaining(lines, name)|
         == |LinesContaining(lines[..|lines| - 1], name)| + if Contains(lines[|lines| - 1], name) then 1 else 0
  {
    PositionsSnoc(lines, Mentions(name));
  }

  /** The number of increments `foreach (var line in lines) if
      (line.Contains(name)) r.Count++` performs. */
  function CountContaining(lines: seq<string>, name: string): (n: nat)
    ensures n == |LinesContaining(lines, name)|
    ensures n <= |lines|
  {
    if |lines| == 0 then
      assert LinesContaining(lines, name) == {};
      0
    else
      var init := lines[..|lines| - 1];
      var last := lines[|lines| - 1];
      LinesContainingSnoc(lines, name);
      CountContaining(init, name) + (if Contains(last, name) then 1 else 0)
  }

  /** The desktop loop over the lines of one file for one resource name. */
  method CountLines(lines: seq<string>, name: string) returns (n: nat)
    ensures n == |LinesContaining(lines, name)|
    ensures n == CountContaining(lines, name)
  {
    n := 0;
    var i := 0;
    while i < |lines|
      invariant 0 <= i <= |lines|
      invariant n == |LinesContaining(lines[..i], name)|
    {
      assert lines[..i + 1][..i] == lines[..i];
      LinesContainingSnoc(lines[..i + 1], name);
      if Contains(lines[i], name) {
        n := n + 1;
      }
      i := i + 1;
    }
    assert lines[..|lines|] == lines;
  }

  /** Filtering out a line at the end of the list. */
  lemma WhereNotBlankSnoc(xs: seq<string>, x: string)
    ensures WhereNotBlank(xs + [x]) == WhereNotBlank(xs) + (if IsBlank(x) then [] else [x])
  {
    FilterSnoc(xs, x, NotBlank);
  }

  /** Counting in the filtered lines counts the non-blank matching lines of
      the file. */
  lemma {:induction false} FilteredCount(lines: seq<string>, name: string)
    ensures CountContaining(WhereNotBlank(lines), name) == |NonBlankLinesContaining(lines, name)|
    decreases |lines|
  {
    if |lines| == 0 {
      assert NonBlankLinesContaining(lines, name) == {};
    } else {
      var init := lines[..|lines| - 1];
      var last := lines[|lines| - 1];
      assert lines == init + [last];
      WhereNotBlankSnoc(init, last);
      FilteredCount(init, name);
      NonBlankSnoc(lines, name);
      var kept := WhereNotBlank(init);
      if !IsBlank(last) {
        CountContainingSnoc(kept, last, name);
      } else {
        assert WhereNotBlank(lines) == kept;
      }
    }
  }

  /** The last line adds its index to the set when it is counted. */
  lemma NonBlankSnoc(lines: seq<string>, name: string)
    requires |lines| > 0
    ensures var last := lines[|lines| - 1];
      |NonBlankLinesContaining(lines, name)|
        == |NonBlankLinesContaining(lines[..|lines| - 1], name)|
         + (if !IsBlank(last) && Contains(last, name) then 1 else 0)
  {
    PositionsSnoc(lines, MentionsVisibly(name));
  }

  /** Counting over one more line. */
  lemma CountContainingSnoc(lines: seq<string>, line: string, name: string)
    ensures CountContaining(lines + [line], name)
         == CountContaining(lines, name) + (if Contains(line, name) then 1 else 0)
  {
    assert (lines + [line])[..|lines|] == lines;
  }

  /** A name with a visible character occurs in no blank line, so the
      desktop filter does not change its count. */
  lemma VisibleNameIgnoresBlankLines(lines: seq<string>, name: string)
    requires !IsBlank(name)
    ensures NonBlankLinesContaining(lines, name) == LinesContaining(lines, name)
  {
    var m :| 0 <= m < |name| && !IsWhiteSpace(name[m]);
    forall i | 0 <= i < |lines| && IsBlank(lines[i]) ensures !Contains(lines[i], name) {
      BlankContainsNoVisibleText(lines[i], name, m);
    }
  }

  /** A resource with `n` more references. */
  function Bump(r: Resource, n: nat): (b: Resource)
    ensures b.name == r.name && b.count == r.count + n
  {
    Resource(r.name, r.count + n)
  }

  /** Desktop `CheckLines(file)`: the blank lines dropped, then each
      resource counts the remaining lines that contain its key. */
  function CheckLines(results: seq<Resource>, fileLines: seq<string>): (r: seq<Resource>)
    ensures |r| == |results|
    ensures forall i :: 0 <= i < |r| ==>
      r[i] == Bump(results[i], |NonBlankLinesContaining(fileLines, results[i].name)|)
  {
    var lines := WhereNotBlank(fileLines);
    assert forall name :: CountContaining(lines, name) == |NonBlankLinesContaining(fileLines, name)| by {
      forall name ensures CountContaining(lines, name) == |NonBlankLinesContaining(fileLines, name)| {
        FilteredCount(fileLines, name);
      }
    }
    seq(|results|, i requires 0 <= i < |results| => Bump(results[i], CountContaining(lines, results[i].name)))
  }

  /** Older `CheckLine(line)`: every resource whose key the line contains
      gains one reference. */
  function CheckLine(results: seq<Resource>, line: string): (r: seq<Resource>)
    ensures |r| == |results|
    ensures forall i :: 0 <= i < |r| ==> r[i].name == results[i].name
  {
    seq(|results|, i requires 0 <= i < |results| =>
      if Contains(line, results[i].name) then Bump(results[i], 1) else results[i])
  }

  /** The older loop over the lines of one file, `CheckLine` per line. */
  function CheckLinesLegacy(results: seq<Resource>, lines: seq<string>): (r: seq<Resource>)
    ensures |r| == |results|
  {
    if |lines| == 0 then results
    else CheckLine(CheckLinesLegacy(results, lines[..|lines| - 1]), lines[|lines| - 1])
  }

  /** Line by line, every resource ends up with one reference per line that
      contains its key: the older loop nesting counts what the desktop one
      counts, except that it keeps the blank lines. */
  lemma {:induction false} CheckLinesLegacyCounts(results: seq<Resource>, lines: seq<string>)
    ensures forall i :: 0 <= i < |results| ==>
      CheckLinesLegacy(results, lines)[i] == Bump(results[i], |LinesContaining(lines, results[i].name)|)
    decreases |lines|
  {
    if |lines| > 0 {
      var init := lines[..|lines| - 1];
      var last := lines[|lines| - 1];
      CheckLinesLegacyCounts(results, init);
      forall i | 0 <= i < |results|
        ensures CheckLinesLegacy(results, lines)[i] == Bump(results[i], |LinesContaining(lines, results[i].name)|)
      {
        LinesContainingSnoc(lines, results[i].name);
      }
    } else {
      forall i | 0 <= i < |results|
        ensures CheckLinesLegacy(results, lines)[i] == Bump(results[i], |LinesContaining(lines, results[i].name)|)
      {
        assert LinesContaining(lines, results[i].name) == {};
      }
    }
  }

  /** For keys with a visible character (every key of the catalog has one),
      both view models count the same references in a file. */
  lemma VariantsCountAlike(results: seq<Resource>, lines: seq<string>)
    requires forall i :: 0 <= i < |results| ==> !IsBlank(results[i].name)
    ensures CheckLines(results, lines) == CheckLinesLegacy(results, lines)
  {
    CheckLinesLegacyCounts(results, lines);
    forall i | 0 <= i < |results|
      ensures CheckLines(results, lines)[i] == CheckLinesLegacy(results, lines)[i]
    {
      VisibleNameIgnoresBlankLines(lines, results[i].name);
    }
  }

  /** A blank key would tell the variants apart: on a blank line the older
      loop counts it and the desktop loop does not. */
  lemma BlankNameSeesBlankLine()
    ensures CheckLinesLegacy([Resource(" ", 0)], [" "]) == [Resource(" ", 1)]
    ensures CheckLines([Resource(" ", 0)], [" "]) == [Resource(" ", 0)]
  {
    assert MatchAt(" ", " ", 0);
    assert CheckLinesLegacy([Resource(" ", 0)], [" "][..0]) == [Resource(" ", 0)];
    assert NonBlankLinesContaining([" "], " ") == {};
  }

  // ---------------------------------------------------------------------
  // All files

  /** The lines of a file that a resource named `name` counts. */
  ghost function FileHits(lines: seq<string>, name: string, skipBlank: bool): nat
  {
    if skipBlank then |NonBlankLinesContaining(lines, name)| else |LinesContaining(lines, name)|
  }

  /** The references of `name` over all files, `readLines` standing for
      `File.ReadAllLines`. */
  ghost function TotalHits(files: seq<string>, readLines: string -> seq<string>, name: string, skipBlank: bool): nat
  {
    if |files| == 0 then 0
    else FileHits(readLines(files[0]), name, skipBlank) + TotalHits(files[1..], readLines, name, skipBlank)
  }

  /** One file checked by the chosen view model. */
  function CheckFile(results: seq<Resource>, lines: seq<string>, skipBlank: bool): (r: seq<Resource>)
    ensures |r| == |results|
    ensures forall i :: 0 <= i < |r| ==> r[i] == Bump(results[i], FileHits(lines, results[i].name, skipBlank))
  {
    if skipBlank then CheckLines(results, lines)
    else
      CheckLinesLegacyCounts(results, lines);
      CheckLinesLegacy(results, lines)
  }

  /** `CheckFiles`: the files checked one after the other. */
  function CheckFiles(results: seq<Resource>, files: seq<string>, readLines: string -> seq<string>, skipBlank: bool): (r: seq<Resource>)
    ensures |r| == |results|
    ensures forall i :: 0 <= i < |r| ==>
      r[i] == Bump(results[i], TotalHits(files, readLines, results[i].name, skipBlank))
    decreases |files|
  {
    if |files| == 0 then results
    else CheckFiles(CheckFile(results, readLines(files[0]), skipBlank), files[1..], readLines, skipBlank)
  }

  /** The total does not depend on the order the files are visited in. */
  lemma {:induction false} TotalHitsPermutation(files: seq<string>, others: seq<string>,
                                                readLines: string -> seq<string>, name: string, skipBlank: bool)
    requires multiset(files) == multiset(others)
    ensures TotalHits(files, readLines, name, skipBlank) == TotalHits(others, readLines, name, skipBlank)
    decreases |files|
  {
    if |files| > 0 {
      var f := files[0];
      assert f in multiset(others);
      var j :| 0 <= j < |others| && others[j] == f;
      var rest := others[..j] + others[j + 1..];
      MultisetRemove(others, j);
      MultisetTail(files);
      TotalHitsPermutation(files[1..], rest, readLines, name, skipBlank);
      TotalHitsRemove(others, j, readLines, name, skipBlank);
    } else {
      assert |others| == |multiset(others)| == 0;
    }
  }

  /** Taking one file out of the sum. */
  lemma {:induction false} TotalHitsRemove(files: seq<string>, j: nat, readLines: string -> seq<string>,
                                           name: string, skipBlank: bool)
    requires j < |files|
    ensures TotalHits(files, readLines, name, skipBlank)
         == FileHits(readLines(files[j]), name, skipBlank)
          + TotalHits(files[..j] + files[j + 1..], readLines, name, skipBlank)
    decreases j
  {
    if j > 0 {
      var rest := files[..j] + files[j + 1..];
      assert rest[1..] == files[1..][..j - 1] + files[1..][j..];
      assert rest[0] == files[0];
      TotalHitsRemove(files[1..], j - 1, readLines, name, skipBlank);
    } else {
      assert files[..0] + files[1..] == files[1..];
    }
  }

  /** `Parallel.ForEach` may visit the files in any order; each order gives
      the same counts. */
  lemma CheckFilesOrderIrrelevant(results: seq<Resource>, files: seq<string>, others: seq<string>,
                                  readLines: string -> seq<string>, skipBlank: bool)
    requires multiset(files) == multiset(others)
    ensures CheckFiles(results, files, readLines, skipBlank) == CheckFiles(results, others, readLines, skipBlank)
  {
    forall i | 0 <= i < |results|
      ensures CheckFiles(results, files, readLines, skipBlank)[i] == CheckFiles(results, others, readLines, skipBlank)[i]
    {
      TotalHitsPermutation(files, others, readLines, results[i].name, skipBlank);
    }
  }
}

=== FILE: patterns.dfy ===
/** The fixed regular expressions of the view models, written out by hand:
    comment removal `<!--(.*?)-->` (single-line mode), the entry name
    `<data name="(\w+)"`, and `Regex.Split` on `";\s+"` and `[^\*\.\w]+`. */
module Patterns {
  import opened Common
  import opened Text
  import opened Sequences

  /** The class `\w`, restricted to ASCII: letters, digits and `_`. */
  predicate IsWordChar(c: char)
  {
    ('a' <= c <= 'z') || ('A' <= c <= 'Z') || ('0' <= c <= '9') || c == '_'
  }

  /** The class `[^\*\.\w]`: separators of the extension list. */
  predicate IsExtensionSeparator(c: char)
  {
    c != '*' && c != '.' && !IsWordChar(c)
  }

  datatype CharClass = Word | White | ExtensionSeparator

  predicate InClass(cls: CharClass, c: char)
  {
    match cls
    case Word => IsWordChar(c)
    case White => IsWhiteSpace(c)
    case ExtensionSeparator => IsExtensionSeparator(c)
  }

  predicate AllIn(cls: CharClass, s: string)
  {
    forall i :: 0 <= i < |s| ==> InClass(cls, s[i])
  }

  /** The longest prefix of `s` made of characters of `cls`: what a greedy
      `cls+` (or `cls*`) consumes. */
  function Run(cls: CharClass, s: string): (r: string)
    ensures StartsWith(s, r)
    ensures AllIn(cls, r)
    ensures |r| == |s| || !InClass(cls, s[|r|])
    decreases |s|
  {
    if |s| > 0 && InClass(cls, s[0]) then [s[0]] + Run(cls, s[1..]) else ""
  }

  /** A run followed by a character outside the class is consumed exactly. */
  lemma {:induction false} RunStopsAt(cls: CharClass, w: string, tail: string)
    requires AllIn(cls, w)
    requires |tail| == 0 || !InClass(cls, tail[0])
    ensures Run(cls, w + tail) == w
    decreases |w|
  {
    if |w| > 0 {
      assert (w + tail)[1..] == w[1..] + tail;
      RunStopsAt(cls, w[1..], tail);
      assert w == [w[0]] + w[1..];
    } else {
      assert w + tail == tail;
    }
  }

  // ---------------------------------------------------------------------
  // `<!--(.*?)-->` replaced by "" (RegexOptions.Singleline)

  const CommentOpen := "<!--"
  const CommentClose := "-->"

  /** Every comment block removed, scanning left to right: the block runs
      from an opener to the first closer after it; an opener without a
      closer after it ends the scan (no later opener can have one either). */
  function StripComments(s: string): (r: string)
    ensures |r| <= |s|
    ensures !Contains(s, CommentOpen) ==> r == s
    decreases |s|
  {
    match IndexOf(s, CommentOpen)
    case None => s
    case Some(i) =>
      match IndexOf(s[i + |CommentOpen|..], CommentClose)
      case None => s
      case Some(j) => s[..i] + StripComments(s[i + |CommentOpen| + j + |CommentClose|..])
  }

  /** A comment block, taken from the first opener to the first closer that
      follows it, disappears together with everything inside it. */
  lemma CommentBlockRemoved(pre: string, body: string, post: string)
    requires Separable(pre, CommentOpen)
    requires Separable(body, CommentClose)
    ensures StripComments(pre + CommentOpen + body + CommentClose + post)
         == pre + StripComments(post)
  {
    var tail := body + CommentClose + post;
    Regroup(pre, CommentOpen, body, CommentClose, post);
    FirstAfterSeparable(pre, CommentOpen, tail);
    FirstAfterSeparable(body, CommentClose, post);
    ThreeParts(pre + CommentOpen + body, CommentClose, post);
  }

  // ---------------------------------------------------------------------
  // `<data name="(\w+)"`, first match (Regex.Match)

  const DataPrefix := "<data name=\""

  /** The capture of `<data name="(\w+)"` when the pattern matches at `j`:
      the greedy `\w+` takes the whole word run, which must be followed by
      a quote (giving back word characters cannot produce one). */
  function NameAt(s: string, j: nat): Option<string>
  {
    if !MatchAt(s, DataPrefix, j) then None
    else
      var rest := s[j + |DataPrefix|..];
      var w := Run(Word, rest);
      if 0 < |w| < |rest| && rest[|w|] == '"' then Some(w) else None
  }

  /** The pattern matches at `j` with capture `w` exactly when the text
      there reads `<data name="` + `w` + `"` with `w` a non-empty word. */
  lemma NameAtMeans(s: string, j: nat, w: string)
    ensures NameAt(s, j) == Some(w)
        <==> (|w| > 0 && AllIn(Word, w) && MatchAt(s, DataPrefix + w + "\"", j))
  {
    if NameAt(s, j) == Some(w) {
      NameAtSound(s, j, w);
    }
    if |w| > 0 && AllIn(Word, w) && MatchAt(s, DataPrefix + w + "\"", j) {
      NameAtComplete(s, j, w);
    }
  }

  lemma NameAtSound(s: string, j: nat, w: string)
    requires NameAt(s, j) == Some(w)
    ensures |w| > 0 && AllIn(Word, w) && MatchAt(s, DataPrefix + w + "\"", j)
  {
    var n := |DataPrefix|;
    var m := n + |w| + 1;
    var rest := s[j + n..];
    assert w == rest[..|w|];
    assert s[j..j + n] == DataPrefix;
    assert s[j + n..j + n + |w|] == w;
    assert s[j + n + |w|..j + m] == "\"" by {
      assert s[j + n + |w|] == rest[|w|];
    }
    assert s[j..j + m] == s[j..j + n] + s[j + n..j + n + |w|] + s[j + n + |w|..j + m];
  }

  lemma NameAtComplete(s: string, j: nat, w: string)
    requires |w| > 0 && AllIn(Word, w) && MatchAt(s, DataPrefix + w + "\"", j)
    ensures NameAt(s, j) == Some(w)
  {
    var n := |DataPrefix|;
    var m := n + |w| + 1;
    var text := DataPrefix + w + "\"";
    assert s[j..j + m] == text;
    assert s[j..j + n] == text[..n];
    assert MatchAt(s, DataPrefix, j);
    var rest := s[j + n..];
    var tail := "\"" + s[j + m..];
    assert rest == w + tail by {
      forall i | 0 <= i < |w| ensures rest[i] == w[i] {
        assert rest[i] == s[j..j + m][n + i];
        assert text[n + i] == w[i];
      }
      assert rest[..|w|] == w;
      assert rest[|w|] == s[j..j + m][n + |w|];
      assert rest == rest[..|w|] + [rest[|w|]] + s[j + m..];
    }
    RunStopsAt(Word, w, tail);
  }

  /** `Regex.Match(s)` for the entry pattern: the capture of the leftmost
      position at or after `from` where the pattern matches. */
  function FirstNameFrom(s: string, from: nat): (r: Option<string>)
    ensures r.None? <==> forall k :: from <= k <= |s| ==> NameAt(s, k).None?
    ensures r.Some? ==> exists k :: (from <= k <= |s| && NameAt(s, k) == r
      && forall m :: from <= m < k ==> NameAt(s, m).None?)
    decreases |s| - from
  {
    if from > |s| then None
    else if NameAt(s, from).Some? then NameAt(s, from)
    else FirstNameFrom(s, from + 1)
  }

  /** A match with none before it is the one `Regex.Match` reports. */
  lemma FirstNameIs(s: string, from: nat, m: nat)
    requires from <= m <= |s| && NameAt(s, m).Some?
    requires forall k :: from <= k < m ==> NameAt(s, k).None?
    ensures FirstNameFrom(s, from) == NameAt(s, m)
  {
    var r := FirstNameFrom(s, from);
    if r.Some? {
      var k :| from <= k <= |s| && NameAt(s, k) == r && forall j :: from <= j < k ==> NameAt(s, j).None?;
      assert k == m;
    }
  }

  /** The capture group of `namePattern.Match(fragment)`, if it succeeds. */
  function FirstName(s: string): Option<string>
  {
    FirstNameFrom(s, 0)
  }

  // ---------------------------------------------------------------------
  // `Regex.Split` on `";\s+"` and on `[^\*\.\w]+`

  datatype SplitPattern = QuoteSeparator | ExtensionSeparators

  /** Length of the match of the pattern at `j`, or 0 when it does not
      match there (neither pattern matches the empty string). */
  function MatchLength(p: SplitPattern, s: string, j: nat): (n: nat)
    ensures n > 0 ==> j + n <= |s|
  {
    match p
    case QuoteSeparator =>
      if j + 1 < |s| && s[j] == '"' && s[j + 1] == ';' then
        var ws := Run(White, s[j + 2..]);
        if |ws| > 0 && j + 2 + |ws| < |s| && s[j + 2 + |ws|] == '"' then |ws| + 3 else 0
      else 0
    case ExtensionSeparators =>
      if j < |s| && IsExtensionSeparator(s[j]) then |Run(ExtensionSeparator, s[j..])| else 0
  }

  /** The leftmost position at or after `from` where the pattern matches. */
  function LeftmostMatch(p: SplitPattern, s: string, from: nat): (r: Option<nat>)
    ensures r.Some? ==> from <= r.value < |s| && MatchLength(p, s, r.value) > 0
    decreases |s| - from
  {
    if from >= |s| then None
    else if MatchLength(p, s, from) > 0 then Some(from)
    else LeftmostMatch(p, s, from + 1)
  }

  /** No match starts between `from` and the one found, and none at all
      when nothing is found. */
  lemma LeftmostMatchFirst(p: SplitPattern, s: string, from: nat)
    ensures var r := LeftmostMatch(p, s, from);
      && (r.Some? ==> forall k :: from <= k < r.value ==> MatchLength(p, s, k) == 0)
      && (r.None? ==> forall k :: from <= k ==> MatchLength(p, s, k) == 0)
  {
    forall k | from <= k && (LeftmostMatch(p, s, from).None? || k < LeftmostMatch(p, s, from).value)
      ensures MatchLength(p, s, k) == 0
    {
      NoMatchBefore(p, s, from, k);
    }
  }

  /** A position before the leftmost match (or anywhere, when there is
      none) is not a match. */
  lemma {:induction false} NoMatchBefore(p: SplitPattern, s: string, from: nat, k: nat)
    requires from <= k
    requires LeftmostMatch(p, s, from).None? || k < LeftmostMatch(p, s, from).value
    ensures MatchLength(p, s, k) == 0
    decreases k - from
  {
    if from >= |s| {
      NoMatchPastEnd(p, s, k);
    } else if from < k {
      NoMatchBefore(p, s, from + 1, k);
    }
  }

  /** No match starts at or past the end of the text. */
  lemma NoMatchPastEnd(p: SplitPattern, s: string, k: nat)
    requires |s| <= k
    ensures MatchLength(p, s, k) == 0
  {
  }

  /** `Regex.Split(s)`: the text between successive leftmost matches, empty
      pieces kept. */
  function RegexSplit(p: SplitPattern, s: string): (r: seq<string>)
    ensures |r| >= 1
    decreases |s|
  {
    match LeftmostMatch(p, s, 0)
    case None => [s]
    case Some(i) => [s[..i]] + RegexSplit(p, s[i + MatchLength(p, s, i)..])
  }

  /** `!string.IsNullOrWhiteSpace(i)`, as a test on items. */
  predicate NotBlank(x: string)
  {
    !IsBlank(x)
  }

  /** `.Where(i => !string.IsNullOrWhiteSpace(i))`: exactly the non-blank
      items, every copy, in their order. */
  function WhereNotBlank(xs: seq<string>): (r: seq<string>)
    ensures forall i :: 0 <= i < |r| ==> NotBlank(r[i])
    ensures forall x :: x in r <==> x in xs && NotBlank(x)
    ensures forall x :: multiset(r)[x] == if NotBlank(x) then multiset(xs)[x] else 0
    ensures SubsequenceOf(r, xs)
    ensures |r| <= |xs|
    ensures (forall i :: 0 <= i < |xs| ==> NotBlank(xs[i])) ==> r == xs
  {
    var r := Filter(xs, NotBlank);
    FilterExact(xs, NotBlank);
    FilterKept(xs, NotBlank);
    FilterAll(xs, NotBlank);
    r
  }
}

=== FILE: resource_converter.dfy ===
/** `ResourceConverter.GetResourceStrings`: the resource strings a
    `*.Designer.cs` file declares, read from its syntax. */
module ResourceConverter {
  import opened Common
  import opened Exceptions
  import opened Text
  import opened Sequences
  import opened Syntax
  import opened ConsoleValues

  /** An `internal static` property whose type reads `string` in any
      letter case. */
  predicate IsResourceString(p: PropertyDecl)
  {
    InternalStatic(p) && EqualsIgnoreCase(p.typeText, "string")
  }

  /** The positions of the declarations that qualify. */
  ghost function ResourceStringIndices(props: seq<PropertyDecl>): set<nat>
  {
    Positions(props, IsResourceString)
  }

  function Idents(props: seq<PropertyDecl>): (r: seq<string>)
    ensures |r| == |props| && forall i :: 0 <= i < |props| ==> r[i] == props[i].ident
  {
    seq(|props|, i requires 0 <= i < |props| => props[i].ident)
  }

  function Names(xs: seq<ResxResource>): (r: seq<string>)
    ensures |r| == |xs| && forall i :: 0 <= i < |xs| ==> r[i] == xs[i].name
  {
    seq(|xs|, i requires 0 <= i < |xs| => xs[i].name)
  }

  /** The resource the loop makes of a qualifying declaration. */
  function ResourceOf(className: string, fileName: string): PropertyDecl -> ResxResource
  {
    (p: PropertyDecl) => ResxResource(fileName, className, p.ident, [])
  }

  /** The loop over the property declarations. */
  function Collect(props: seq<PropertyDecl>, className: string, fileName: string): (r: seq<ResxResource>)
    ensures |r| <= |props|
    decreases |props|
  {
    if |props| == 0 then []
    else
      var p := props[|props| - 1];
      Collect(props[..|props| - 1], className, fileName)
        + if IsResourceString(p) then [ResxResource(fileName, className, p.ident, [])] else []
  }

  /** One resource per qualifying declaration, in declaration order, the
      others skipped. */
  ghost predicate CollectsExactly(props: seq<PropertyDecl>, className: string, fileName: string, r: seq<ResxResource>)
  {
    && |r| == |ResourceStringIndices(props)|
    && (forall i :: 0 <= i < |props| && IsResourceString(props[i]) ==>
          ResxResource(fileName, className, props[i].ident, []) in r)
    && (forall x :: x in r ==>
          x.className == className && x.fileName == fileName && x.references == []
          && exists i :: 0 <= i < |props| && IsResourceString(props[i]) && props[i].ident == x.name)
    && SubsequenceOf(Names(r), Idents(props))
    && Selects(r, props, IsResourceString, ResourceOf(className, fileName))
  }

  lemma CollectIsExact(props: seq<PropertyDecl>, className: string, fileName: string)
    ensures CollectsExactly(props, className, fileName, Collect(props, className, fileName))
  {
    CollectCount(props, className, fileName);
    CollectMembers(props, className, fileName);
    CollectOrder(props, className, fileName);
  }

  lemma {:induction false} CollectCount(props: seq<PropertyDecl>, className: string, fileName: string)
    ensures |Collect(props, className, fileName)| == |ResourceStringIndices(props)|
    decreases |props|
  {
    if |props| > 0 {
      var init := props[..|props| - 1];
      var p := props[|props| - 1];
      CollectCount(init, className, fileName);
      PositionsSnoc(props, IsResourceString);
    }
  }

  lemma {:induction false} CollectMembers(props: seq<PropertyDecl>, className: string, fileName: string)
    ensures forall i :: 0 <= i < |props| && IsResourceString(props[i]) ==>
              ResxResource(fileName, className, props[i].ident, []) in Collect(props, className, fileName)
    ensures forall x :: x in Collect(props, className, fileName) ==>
              x.className == className && x.fileName == fileName && x.references == []
              && exists i :: 0 <= i < |props| && IsResourceString(props[i]) && props[i].ident == x.name
    decreases |props|
  {
    if |props| > 0 {
      var init := props[..|props| - 1];
      var p := props[|props| - 1];
      var before := Collect(init, className, fileName);
      var tail: seq<ResxResource> := if IsResourceString(p) then [ResxResource(fileName, className, p.ident, [])] else [];
      assert Collect(props, className, fileName) == before + tail;
      CollectMembers(init, className, fileName);
      assert forall i :: 0 <= i < |init| ==> init[i] == props[i];
      forall x: ResxResource | x in before + tail
        ensures exists i :: 0 <= i < |props| && IsResourceString(props[i]) && props[i].ident == x.name
      {
        if x in before {
          var i :| 0 <= i < |init| && IsResourceString(init[i]) && init[i].ident == x.name;
          assert props[i] == init[i];
        } else {
          assert props[|props| - 1] == p;
        }
      }
    }
  }

  lemma {:induction false} CollectOrder(props: seq<PropertyDecl>, className: string, fileName: string)
    ensures SubsequenceOf(Names(Collect(props, className, fileName)), Idents(props))
    ensures Selects(Collect(props, className, fileName), props, IsResourceString, ResourceOf(className, fileName))
    decreases |props|
  {
    if |props| == 0 {
      SelectsEmpty(IsResourceString, ResourceOf(className, fileName));
    } else {
      var init := props[..|props| - 1];
      var p := props[|props| - 1];
      var before := Collect(init, className, fileName);
      CollectOrder(init, className, fileName);
      SelectsSnoc(before, init, p, IsResourceString, ResourceOf(className, fileName));
      assert init + [p] == props;
      assert Idents(props) == Idents(init) + [p.ident];
      if IsResourceString(p) {
        var x := ResxResource(fileName, className, p.ident, []);
        assert Collect(props, className, fileName) == before + [x];
        assert Names(before + [x]) == Names(before) + [p.ident];
        SubsequenceSnoc(Names(before), Idents(init), p.ident);
      } else {
        assert Collect(props, className, fileName) == before + [];
        assert before + [] == before;
        SubsequenceSnocRight(Names(before), Idents(init), p.ident);
      }
    }
  }

  /** `GetResourceStrings(resourceSourceCode, fileName)` over the parsed
      file: the single class's qualifying properties, or the exception the
      class check throws. */
  function GetResourceStrings(tree: Tree, fileName: string): (r: Result<seq<ResxResource>>)
    ensures r.Throws? <==> |tree.classes| != 1
    ensures r.Throws? ==> r.kind == InvalidOperation
    ensures r.Ok? ==> |r.value| <= |tree.properties|
    ensures r.Ok? ==> CollectsExactly(tree.properties, tree.classes[0], fileName, r.value)
  {
    match SoleClass(tree.classes)
    case Throws(k) => Throws(k)
    case Ok(className) =>
      CollectIsExact(tree.properties, className, fileName);
      Ok(Collect(tree.properties, className, fileName))
  }

  /** The file name parameter defaults to the empty string. */
  const DefaultFileName := ""

  /** `GetResourceStrings(resourceSourceCode)` with the default file name. */
  function GetResourceStringsUnnamed(tree: Tree): (r: Result<seq<ResxResource>>)
    ensures r.Throws? <==> |tree.classes| != 1
    ensures r.Ok? ==> forall x :: x in r.value ==> x.fileName == DefaultFileName
  {
    GetResourceStrings(tree, DefaultFileName)
  }

  /** `GetResourceStrings(resourceFilePath)`: reads and parses the file
      (`readTree`, the file system and the parser together) and records the
      path as each resource's file name. */
  function GetResourceStringsFromFile(path: string, readTree: string -> Tree): (r: Result<seq<ResxResource>>)
    ensures r.Throws? <==> |readTree(path).classes| != 1
    ensures r.Ok? ==> forall x :: x in r.value ==> x.fileName == path
    ensures r.Ok? ==> CollectsExactly(readTree(path).properties, readTree(path).classes[0], path, r.value)
  {
    GetResourceStrings(readTree(path), path)
  }

  /** The type check ignores letter case: two declarations that differ only
      in the case of their type text are treated alike, so `String`
      qualifies as `string` does. */
  lemma TypeCaseIgnored(p: PropertyDecl, q: PropertyDecl)
    requires p.modifiers == q.modifiers && EqualsIgnoreCase(p.typeText, q.typeText)
    ensures IsResourceString(p) <==> IsResourceString(q)
    ensures IsResourceString(PropertyDecl([InternalKeyword, StaticKeyword], "String", p.ident, false))
  {
    var s := PropertyDecl([InternalKeyword, StaticKeyword], "String", p.ident, false);
    assert UpperAscii('S') == UpperAscii('s');
    assert EqualsIgnoreCase(s.typeText, "string");
  }
}

=== FILE: resource_item.dfy ===
/** The view models' `Resource`: a key and the number of matching lines
    found so far.  Change notification is not modelled. */
module ResourceItem {

  datatype Resource = Resource(name: string, count: int)

  /** `new Resource(key)`: a resource nobody has referenced yet. */
  function NewResource(key: string): (r: Resource)
    ensures r.name == key && r.count == 0
  {
    Resource(key, 0)
  }
}

=== FILE: resx_keys.dfy ===
/** Pattern-based key extraction from `.resx` text, in the older variant
    (`Analyze` of FindUnusedResources) and the desktop one
    (`GetResourceKeys`, which removes XML comments first), and the key
    dictionary both fill. */
module ResxKeys {
  import opened Common
  import opened Text
  import opened Patterns
  import opened ResourceItem

  /** The end-of-entry marker the text is split on. */
  const EntryEnd := "</data>"

  /** `file.Split("\\").Last()`: the file name without its folders. */
  function LastSegment(path: string): (name: string)
    ensures '\\' !in name
  {
    var segments := Split(path, "\\");
    SplitPiecesFree(path, "\\");
    CharFree(segments[|segments| - 1], '\\');
    segments[|segments| - 1]
  }

  /** `name.Split(".").First()`: the file name up to its first dot. */
  function FirstSegment(name: string): (stem: string)
    ensures '.' !in stem
    ensures '\\' !in name ==> '\\' !in stem
  {
    FirstPiece(name, ".");
    var stem := Split(name, ".")[0];
    CharFree(stem, '.');
    assert StartsWith(name, stem);
    assert forall i :: 0 <= i < |stem| ==> stem[i] == name[i];
    stem
  }

  /** `file.Split("\\").Last()` and then `.Split(".").First()`: the file
      name up to its first dot. */
  function FileStem(path: string): (stem: string)
    ensures '\\' !in stem && '.' !in stem
  {
    FirstSegment(LastSegment(path))
  }

  /** The stem is the file name cut at its first dot: `X.resx` and
      `X.de.resx` in any directory have the stem `X`. */
  lemma FileStemOf(dir: string, stem: string, ext: string)
    requires '\\' !in stem && '.' !in stem && '\\' !in ext
    ensures FileStem(dir + "\\" + stem + "." + ext) == stem
  {
    FirstSegmentOf(stem, ext);
    LastSegmentOf(dir, stem, ext);
  }

  lemma LastSegmentOf(dir: string, stem: string, ext: string)
    requires '\\' !in stem + "." + ext
    ensures LastSegment(dir + "\\" + stem + "." + ext) == stem + "." + ext
  {
    var name := stem + "." + ext;
    assert dir + "\\" + stem + "." + ext == dir + ['\\'] + name;
    LastPieceAfterSeparator(dir, '\\', name);
  }

  lemma FirstSegmentOf(stem: string, ext: string)
    requires '\\' !in stem && '.' !in stem && '\\' !in ext
    ensures '\\' !in stem + "." + ext
    ensures FirstSegment(stem + "." + ext) == stem
  {
    var name := stem + "." + ext;
    NameWithoutBackslash(stem, ext);
    assert name[..|stem|] == stem;
    SplitFirstChar(name, '.', |stem|);
  }

  lemma NameWithoutBackslash(stem: string, ext: string)
    requires '\\' !in stem && '\\' !in ext
    ensures '\\' !in stem + "." + ext
  {
    var name := stem + "." + ext;
    forall i | 0 <= i < |name| ensures name[i] != '\\' {
      if i < |stem| {
        assert name[i] == stem[i];
      } else if i > |stem| {
        assert name[i] == ext[i - |stem| - 1];
      }
    }
  }

  /** The keys of the `</data>`-separated fragments: for each fragment in
      which the entry pattern matches, `stem + "." + capture` of its first
      match; a fragment without a match contributes nothing. */
  function FragmentKeys(stem: string, fragments: seq<string>): (keys: seq<string>)
    ensures |keys| <= |fragments|
    ensures forall f :: f in fragments && FirstName(f).Some? ==> stem + "." + FirstName(f).value in keys
    ensures forall k :: k in keys ==> exists f :: f in fragments && FirstName(f).Some? && k == stem + "." + FirstName(f).value
  {
    if |fragments| == 0 then []
    else
      var rest := FragmentKeys(stem, fragments[1..]);
      assert forall f :: f in fragments[1..] ==> f in fragments;
      assert forall f :: f in fragments ==> f == fragments[0] || f in fragments[1..];
      match FirstName(fragments[0])
      case None => rest
      case Some(w) => [stem + "." + w] + rest
  }

  /** Key extraction of the older view model (no comment removal). */
  function LegacyKeys(path: string, text: string): seq<string>
  {
    FragmentKeys(FileStem(path), Split(text, EntryEnd))
  }

  /** Key extraction of the desktop view model (`GetResourceKeys`). */
  function DesktopKeys(path: string, text: string): seq<string>
  {
    FragmentKeys(FileStem(path), Split(StripComments(text), EntryEnd))
  }

  /** Every key is the stem, a dot, and a non-empty run of word characters
      that the text shows as `<data name="…"`. */
  lemma KeyShape(stem: string, fragments: seq<string>, k: string)
    requires k in FragmentKeys(stem, fragments)
    ensures exists w :: |w| > 0 && AllIn(Word, w) && k == stem + "." + w
                        && exists f :: f in fragments && Contains(f, DataPrefix + w + "\"")
  {
    var f :| f in fragments && FirstName(f).Some? && k == stem + "." + FirstName(f).value;
    var w := FirstName(f).value;
    var j :| 0 <= j <= |f| && NameAt(f, j) == Some(w);
    NameAtSound(f, j, w);
  }

  /** Each fragment yields at most one key, from its leftmost entry match. */
  lemma AtMostOneKeyPerFragment(stem: string, fragment: string)
    ensures |FragmentKeys(stem, [fragment])| <= 1
    ensures FragmentKeys(stem, [fragment]) == []
        <==> forall j :: 0 <= j <= |fragment| ==> NameAt(fragment, j).None?
  {
    assert [fragment][1..] == [];
  }

  /** The keys depend on the file name only through its stem, so the
      neutral and the satellite files of one resource give the same keys. */
  lemma SatelliteFilesShareKeys(dir: string, stem: string, ext1: string, ext2: string, text: string)
    requires '\\' !in stem && '.' !in stem && '\\' !in ext1 && '\\' !in ext2
    ensures DesktopKeys(dir + "\\" + stem + "." + ext1, text) == DesktopKeys(dir + "\\" + stem + "." + ext2, text)
    ensures LegacyKeys(dir + "\\" + stem + "." + ext1, text) == LegacyKeys(dir + "\\" + stem + "." + ext2, text)
  {
    FileStemOf(dir, stem, ext1);
    FileStemOf(dir, stem, ext2);
  }

  /** Without comments in the text both variants extract the same keys. */
  lemma VariantsAgreeWithoutComments(path: string, text: string)
    requires !Contains(text, CommentOpen)
    ensures DesktopKeys(path, text) == LegacyKeys(path, text)
  {
  }

  /** An entry inside a comment contributes no key in the desktop variant:
      the text is read as if the comment block were not there. */
  lemma CommentedEntryIgnored(path: string, pre: string, body: string, post: string)
    requires Separable(pre, CommentOpen) && Separable(body, CommentClose)
    ensures DesktopKeys(path, pre + CommentOpen + body + CommentClose + post)
         == FragmentKeys(FileStem(path), Split(pre + StripComments(post), EntryEnd))
  {
    CommentBlockRemoved(pre, body, post);
  }

  /** The text of one commented-out entry `<!--<data name="w"-->`. */
  function CommentedEntry(w: string): string
  {
    CommentOpen + DataPrefix + w + "\"" + CommentClose
  }

  /** A `.resx` text holding one entry, commented out: the older variant
      still extracts its key, the desktop variant extracts nothing. */
  lemma CommentedEntryVariants(dir: string, stem: string, ext: string, w: string)
    requires '\\' !in stem && '.' !in stem && '\\' !in ext
    requires |w| > 0 && AllIn(Word, w)
    ensures LegacyKeys(dir + "\\" + stem + "." + ext, CommentedEntry(w)) == [stem + "." + w]
    ensures DesktopKeys(dir + "\\" + stem + "." + ext, CommentedEntry(w)) == []
  {
    FileStemOf(dir, stem, ext);
    CommentedEntryStripped(w);
    assert Split("", EntryEnd) == [""];
    assert FirstName("") == None by {
      assert NameAt("", 0) == None;
    }
    CommentedEntryFragment(w);
    assert [CommentedEntry(w)][1..] == [];
  }

  /** The entry body holds no comment closer. */
  lemma EntryBodySeparable(w: string)
    requires AllIn(Word, w)
    ensures Separable(DataPrefix + w + "\"", CommentClose)
  {
    var body := DataPrefix + w + "\"";
    var t := body + CommentClose;
    forall j | 0 <= j < |body| ensures !MatchAt(t, CommentClose, j) {
      if j + 3 <= |t| {
        assert t[j..j + 3][0] == t[j];
        assert t[j..j + 3][2] == t[j + 2];
        if j + 2 < |body| {
          assert t[j + 2] == body[j + 2];
          if j + 2 < |DataPrefix| {
            assert body[j + 2] == DataPrefix[j + 2];
          } else if j + 2 < |DataPrefix| + |w| {
            assert body[j + 2] == w[j + 2 - |DataPrefix|];
          }
        } else {
          assert t[j] == body[j];
          if j < |DataPrefix| {
            assert body[j] == DataPrefix[j];
          } else if j < |DataPrefix| + |w| {
            assert body[j] == w[j - |DataPrefix|];
          }
        }
      }
    }
  }

  /** Comment removal leaves nothing of a commented-out entry. */
  lemma CommentedEntryStripped(w: string)
    requires AllIn(Word, w)
    ensures StripComments(CommentedEntry(w)) == ""
  {
    var body := DataPrefix + w + "\"";
    EntryBodySeparable(w);
    assert "" + CommentOpen + body + CommentClose + "" == CommentedEntry(w);
    CommentBlockRemoved("", body, "");
  }

  /** Read as it stands, a commented-out entry is one fragment whose first
      match is the entry. */
  lemma CommentedEntryFragment(w: string)
    requires |w| > 0 && AllIn(Word, w)
    ensures Split(CommentedEntry(w), EntryEnd) == [CommentedEntry(w)]
    ensures FirstName(CommentedEntry(w)) == Some(w)
  {
    CommentedEntryHasNoSlash(w);
    MissingCharNotContained(CommentedEntry(w), EntryEnd, 1);
    CommentedEntryName(w);
  }

  /** A commented-out entry holds no `/`, so no `</data>` either. */
  lemma CommentedEntryHasNoSlash(w: string)
    requires AllIn(Word, w)
    ensures '/' !in CommentedEntry(w)
  {
    var text := CommentedEntry(w);
    forall i | 0 <= i < |text| ensures text[i] != '/' {
      if 4 <= i < 4 + |DataPrefix| {
        assert text[i] == DataPrefix[i - 4];
      } else if 4 + |DataPrefix| <= i < 4 + |DataPrefix| + |w| {
        assert text[i] == w[i - 4 - |DataPrefix|];
      }
    }
  }

  /** The entry pattern first matches just after the comment opener. */
  lemma CommentedEntryName(w: string)
    requires |w| > 0 && AllIn(Word, w)
    ensures FirstName(CommentedEntry(w)) == Some(w)
  {
    var text := CommentedEntry(w);
    var body := DataPrefix + w + "\"";
    assert text == CommentOpen + body + CommentClose;
    ThreeParts(CommentOpen, body, CommentClose);
    NameAtComplete(text, 4, w);
    NoEntryBefore(text);
    FirstNameIs(text, 0, 4);
  }

  /** No entry pattern starts inside a leading comment opener. */
  lemma NoEntryBefore(text: string)
    requires StartsWith(text, CommentOpen)
    ensures forall k :: 0 <= k < 4 ==> NameAt(text, k) == None
  {
    assert text[..4] == CommentOpen;
    assert text[1] == '!' && text[2] == '-' && text[3] == '-';
    forall k | 0 <= k < 4 ensures !MatchAt(text, DataPrefix, k) {
      if k + |DataPrefix| <= |text| {
        if k == 0 {
          assert text[k..k + |DataPrefix|][1] == text[1];
        } else {
          assert text[k..k + |DataPrefix|][0] == text[k];
        }
      }
    }
  }

  /** `_allResources[key] = new Resource(key)` for each key in turn. */
  function Register(cat: map<string, Resource>, keys: seq<string>): (r: map<string, Resource>)
    ensures r.Keys == cat.Keys + (set k | k in keys)
    ensures forall k :: k in keys ==> r[k] == NewResource(k)
    ensures forall k :: k in cat && k !in keys ==> r[k] == cat[k]
    decreases |keys|
  {
    if |keys| == 0 then cat
    else
      assert (set k | k in keys) == {keys[0]} + (set k | k in keys[1..]) by {
        assert keys == [keys[0]] + keys[1..];
      }
      Register(cat[keys[0] := NewResource(keys[0])], keys[1..])
  }

  /** An entry whose value is the fresh resource for its own key. */
  predicate Fresh(cat: map<string, Resource>)
  {
    forall k :: k in cat ==> cat[k] == NewResource(k)
  }

  /** The dictionary after all resource files are read (`read` stands for
      `File.ReadAllText`); `stripComments` selects the desktop variant. */
  function BuildCatalog(files: seq<string>, read: string -> string, stripComments: bool): (cat: map<string, Resource>)
    ensures Fresh(cat)
    ensures forall k :: k in cat <==> exists f :: f in files && k in FileKeys(f, read, stripComments)
  {
    if |files| == 0 then map[]
    else
      var f := files[|files| - 1];
      var before := BuildCatalog(files[..|files| - 1], read, stripComments);
      assert forall g :: g in files <==> g in files[..|files| - 1] || g == f;
      Register(before, FileKeys(f, read, stripComments))
  }

  function FileKeys(file: string, read: string -> string, stripComments: bool): seq<string>
  {
    if stripComments then DesktopKeys(file, read(file)) else LegacyKeys(file, read(file))
  }
}

=== FILE: semantic_model.dfy ===
/** `SematicModelExtensions.GetAllResxReferences`: every `Class.Member`
    access whose left side is a plain identifier, as a `Resource`. */
module SemanticModel {
  import opened Syntax
  import opened ConsoleValues
  import opened Sequences

  predicate HasIdentReceiver(n: MemberAccess)
  {
    n.receiver.Ident?
  }

  /** The resource a member access names: receiver text and member name. */
  function ReferenceOf(n: MemberAccess): Resource
    requires HasIdentReceiver(n)
  {
    Resource(n.receiver.text, n.name)
  }

  /** The positions of the accesses that count. */
  ghost function IdentAccesses(nodes: seq<MemberAccess>): set<nat>
  {
    Positions(nodes, HasIdentReceiver)
  }

  /** The loop over the descendant nodes, in document order. */
  function GetAllResxReferences(nodes: seq<MemberAccess>): (r: seq<Resource>)
    ensures |r| <= |nodes|
    decreases |nodes|
  {
    if |nodes| == 0 then []
    else
      var n := nodes[|nodes| - 1];
      GetAllResxReferences(nodes[..|nodes| - 1]) + if HasIdentReceiver(n) then [ReferenceOf(n)] else []
  }

  /** One resource per access with an identifier receiver. */
  lemma {:induction false} ReferencesCounted(nodes: seq<MemberAccess>)
    ensures |GetAllResxReferences(nodes)| == |IdentAccesses(nodes)|
    decreases |nodes|
  {
    if |nodes| > 0 {
      var init := nodes[..|nodes| - 1];
      var n := nodes[|nodes| - 1];
      ReferencesCounted(init);
      PositionsSnoc(nodes, HasIdentReceiver);
    }
  }

  /** The resources reported are exactly those named by an access with an
      identifier receiver. */
  lemma {:induction false} ReferencesExact(nodes: seq<MemberAccess>)
    ensures forall i :: 0 <= i < |nodes| && HasIdentReceiver(nodes[i]) ==>
              ReferenceOf(nodes[i]) in GetAllResxReferences(nodes)
    ensures forall x :: x in GetAllResxReferences(nodes) ==>
              exists i :: 0 <= i < |nodes| && HasIdentReceiver(nodes[i]) && ReferenceOf(nodes[i]) == x
    decreases |nodes|
  {
    if |nodes| > 0 {
      var init := nodes[..|nodes| - 1];
      var n := nodes[|nodes| - 1];
      var before := GetAllResxReferences(init);
      var tail: seq<Resource> := if HasIdentReceiver(n) then [ReferenceOf(n)] else [];
      assert GetAllResxReferences(nodes) == before + tail;
      ReferencesExact(init);
      assert forall i :: 0 <= i < |init| ==> init[i] == nodes[i];
      forall x: Resource | x in before + tail
        ensures exists i :: 0 <= i < |nodes| && HasIdentReceiver(nodes[i]) && ReferenceOf(nodes[i]) == x
      {
        if x in before {
          var i :| 0 <= i < |init| && HasIdentReceiver(init[i]) && ReferenceOf(init[i]) == x;
          assert nodes[i] == init[i];
        } else {
          assert nodes[|nodes| - 1] == n;
        }
      }
    }
  }

  /** Scanning two stretches of a file one after the other gives the
      matches of the first followed by those of the second. */
  lemma {:induction false} ReferencesAppend(a: seq<MemberAccess>, b: seq<MemberAccess>)
    ensures GetAllResxReferences(a + b) == GetAllResxReferences(a) + GetAllResxReferences(b)
    decreases |b|
  {
    if |b| == 0 {
      assert a + b == a;
    } else {
      var init := b[..|b| - 1];
      assert (a + b)[..|a + b| - 1] == a + init;
      assert (a + b)[|a + b| - 1] == b[|b| - 1];
      ReferencesAppend(a, init);
    }
  }

  /** In `A.B.C` the outer access has `A.B` as its receiver and yields
      nothing; only `(A, B)` is reported. */
  lemma ChainedAccessYieldsInnermost(a: string, b: string, c: string)
    ensures GetAllResxReferences([MemberAccess(OtherExpression, c), MemberAccess(Ident(a), b)])
         == [Resource(a, b)]
  {
    var nodes := [MemberAccess(OtherExpression, c), MemberAccess(Ident(a), b)];
    assert nodes[..1] == [MemberAccess(OtherExpression, c)];
    assert nodes[..1][..0] == [];
  }

  /** Repeated accesses are all kept. */
  lemma DuplicatesKept(n: MemberAccess)
    requires HasIdentReceiver(n)
    ensures GetAllResxReferences([n, n]) == [ReferenceOf(n), ReferenceOf(n)]
  {
    assert [n, n][..1] == [n];
    assert [n][..0] == [];
  }
}

=== FILE: sequences.dfy ===
/** Facts about lists that several filters share: keeping elements in
    their order, and having no element twice. */
module Sequences {

  /** `a` is `b` with some elements left out, the rest in their order. */
  predicate SubsequenceOf<T(==)>(a: seq<T>, b: seq<T>)
    decreases |b|
  {
    if |a| == 0 then true
    else if |b| == 0 then false
    else if a[0] == b[0] then SubsequenceOf(a[1..], b[1..])
    else SubsequenceOf(a, b[1..])
  }

  /** Every element of a subsequence is an element of the whole. */
  lemma {:induction false} SubsequenceMembers<T>(a: seq<T>, b: seq<T>)
    requires SubsequenceOf(a, b)
    ensures forall x :: x in a ==> x in b
    decreases |b|
  {
    if |a| > 0 {
      assert |b| > 0;
      if a[0] == b[0] {
        SubsequenceMembers(a[1..], b[1..]);
        assert forall x :: x in a ==> x == a[0] || x in a[1..];
      } else {
        SubsequenceMembers(a, b[1..]);
      }
      assert forall x :: x in b[1..] ==> x in b;
    }
  }

  /** Keeping the head on both sides. */
  lemma SubsequenceCons<T>(x: T, a: seq<T>, b: seq<T>)
    requires SubsequenceOf(a, b)
    ensures SubsequenceOf([x] + a, [x] + b)
  {
    assert ([x] + a)[1..] == a;
    assert ([x] + b)[1..] == b;
  }

  /** Dropping the head of the whole. */
  lemma SubsequenceSkip<T>(x: T, a: seq<T>, b: seq<T>)
    requires SubsequenceOf(a, b)
    ensures SubsequenceOf(a, [x] + b)
    decreases |b|, 1
  {
    assert ([x] + b)[1..] == b;
    if |a| > 0 && a[0] == x {
      SubsequenceHead(a, b);
    }
  }

  /** A subsequence without its head is still a subsequence. */
  lemma {:induction false} SubsequenceHead<T>(a: seq<T>, b: seq<T>)
    requires |a| > 0 && SubsequenceOf(a, b)
    ensures SubsequenceOf(a[1..], b)
    decreases |b|, 0
  {
    assert |b| > 0;
    if a[0] == b[0] {
      SubsequenceSkip(b[0], a[1..], b[1..]);
      assert b == [b[0]] + b[1..];
    } else {
      SubsequenceHead(a, b[1..]);
      SubsequenceSkip(b[0], a[1..], b[1..]);
      assert b == [b[0]] + b[1..];
    }
  }

  /** No element occurs twice. */
  predicate Distinct<T(==)>(xs: seq<T>)
  {
    forall i, j :: 0 <= i < j < |xs| ==> xs[i] != xs[j]
  }

  /** The index of the first occurrence of `x`. */
  function FirstIndex<T(==)>(xs: seq<T>, x: T): (k: nat)
    requires x in xs
    ensures k < |xs| && xs[k] == x
    ensures forall j :: 0 <= j < k ==> xs[j] != x
  {
    if xs[0] == x then 0 else 1 + FirstIndex(xs[1..], x)
  }

  /** Adding an element at the end of the whole keeps a subsequence. */
  lemma {:induction false} SubsequenceSnocRight<T>(a: seq<T>, b: seq<T>, x: T)
    requires SubsequenceOf(a, b)
    ensures SubsequenceOf(a, b + [x])
    decreases |b|
  {
    if |a| > 0 {
      assert |b| > 0;
      assert (b + [x])[1..] == b[1..] + [x];
      if a[0] == b[0] {
        SubsequenceSnocRight(a[1..], b[1..], x);
      } else {
        SubsequenceSnocRight(a, b[1..], x);
      }
    }
  }

  /** Adding the same element at the end of both keeps a subsequence. */
  lemma {:induction false} SubsequenceSnoc<T>(a: seq<T>, b: seq<T>, x: T)
    requires SubsequenceOf(a, b)
    ensures SubsequenceOf(a + [x], b + [x])
    decreases |b|
  {
    if |b| == 0 {
      assert a == [];
      assert ([x] + [])[1..] == [];
      assert a + [x] == [x] && b + [x] == [x];
    } else {
      assert (b + [x])[1..] == b[1..] + [x];
      if |a| == 0 {
        if b[0] != x {
          SubsequenceSnoc(a, b[1..], x);
        }
        assert (a + [x])[1..] == [];
      } else {
        assert (a + [x])[1..] == a[1..] + [x];
        if a[0] == b[0] {
          SubsequenceSnoc(a[1..], b[1..], x);
        } else {
          SubsequenceSnoc(a, b[1..], x);
        }
      }
    }
  }

  /** In a list without repeats every element occurs once. */
  lemma {:induction false} DistinctMultiplicity<T>(xs: seq<T>, x: T)
    requires Distinct(xs)
    ensures multiset(xs)[x] == if x in xs then 1 else 0
    decreases |xs|
  {
    if |xs| > 0 {
      var init := xs[..|xs| - 1];
      assert xs == init + [xs[|xs| - 1]];
      assert Distinct(init);
      DistinctMultiplicity(init, x);
      assert xs[|xs| - 1] !in init;
      assert x in xs <==> x in init || x == xs[|xs| - 1];
    }
  }

  /** The lists one after the other. */
  function Flatten<T>(xss: seq<seq<T>>): (r: seq<T>)
    ensures |xss| == 0 ==> r == []
    decreases |xss|
  {
    if |xss| == 0 then [] else Flatten(xss[..|xss| - 1]) + xss[|xss| - 1]
  }

  /** An element of the flattened list is an element of one of the lists,
      and every element of every list is in the flattened one. */
  lemma {:induction false} FlattenMember<T>(xss: seq<seq<T>>, x: T)
    ensures x in Flatten(xss) <==> exists k :: 0 <= k < |xss| && x in xss[k]
    decreases |xss|
  {
    if |xss| > 0 {
      var init := xss[..|xss| - 1];
      FlattenMember(init, x);
      assert forall k :: 0 <= k < |init| ==> init[k] == xss[k];
      if x in xss[|xss| - 1] {
        assert x in Flatten(xss);
      } else if exists k :: 0 <= k < |xss| && x in xss[k] {
        var k :| 0 <= k < |xss| && x in xss[k];
        assert x in init[k];
      }
    }
  }

  /** The positions of the elements that satisfy `p`. */
  ghost function Positions<T>(xs: seq<T>, p: T -> bool): set<nat>
  {
    set i: nat | i < |xs| && p(xs[i])
  }

  /** The last element adds its own position when it satisfies `p`. */
  lemma PositionsSnoc<T>(xs: seq<T>, p: T -> bool)
    requires |xs| > 0
    ensures |Positions(xs, p)| == |Positions(xs[..|xs| - 1], p)| + if p(xs[|xs| - 1]) then 1 else 0
  {
    var n := |xs|;
    var init := xs[..n - 1];
    var extra: set<nat> := if p(xs[n - 1]) then {n - 1} else {};
    forall i: nat ensures i in Positions(xs, p) <==> i in Positions(init, p) + extra {
      if i < n - 1 {
        assert init[i] == xs[i];
      }
    }
    assert Positions(xs, p) == Positions(init, p) + extra;
  }

  /** `r` is `f` of the elements of `xs` that satisfy `keep`, in their
      order: one entry per such element, and the entry for the element at
      `i` sits at the number of such elements before `i`. */
  ghost predicate Selects<T, U>(r: seq<U>, xs: seq<T>, keep: T -> bool, f: T -> U)
  {
    && |r| == |Positions(xs, keep)|
    && forall i :: 0 <= i < |xs| && keep(xs[i]) ==>
         |Positions(xs[..i], keep)| < |r| && r[|Positions(xs[..i], keep)|] == f(xs[i])
  }

  /** Appending an element appends its entry when it is kept. */
  lemma SelectsSnoc<T, U>(r: seq<U>, xs: seq<T>, x: T, keep: T -> bool, f: T -> U)
    requires Selects(r, xs, keep, f)
    ensures Selects(r + if keep(x) then [f(x)] else [], xs + [x], keep, f)
  {
    var ys := xs + [x];
    var r' := r + if keep(x) then [f(x)] else [];
    assert ys[..|xs|] == xs;
    PositionsSnoc(ys, keep);
    forall i | 0 <= i < |ys| && keep(ys[i])
      ensures |Positions(ys[..i], keep)| < |r'| && r'[|Positions(ys[..i], keep)|] == f(ys[i])
    {
      if i < |xs| {
        assert ys[..i] == xs[..i];
        assert ys[i] == xs[i];
      }
    }
  }

  /** A first element adds one position when it satisfies `p`; the others
      move one place along. */
  lemma {:induction false} PositionsCons<T>(x: T, xs: seq<T>, p: T -> bool)
    ensures |Positions([x] + xs, p)| == |Positions(xs, p)| + if p(x) then 1 else 0
    decreases |xs|
  {
    var ys := [x] + xs;
    if |xs| == 0 {
      assert Positions(xs, p) == {};
      assert Positions(ys, p) == if p(x) then {0} else {};
    } else {
      var init := xs[..|xs| - 1];
      PositionsCons(x, init, p);
      assert ys[..|ys| - 1] == [x] + init;
      PositionsSnoc(ys, p);
      PositionsSnoc(xs, p);
    }
  }

  /** Putting an element in front puts its entry in front when it is kept. */
  lemma SelectsCons<T, U>(x: T, r: seq<U>, xs: seq<T>, keep: T -> bool, f: T -> U)
    requires Selects(r, xs, keep, f)
    ensures Selects((if keep(x) then [f(x)] else []) + r, [x] + xs, keep, f)
  {
    var ys := [x] + xs;
    var r' := (if keep(x) then [f(x)] else []) + r;
    PositionsCons(x, xs, keep);
    forall i | 0 <= i < |ys| && keep(ys[i])
      ensures |Positions(ys[..i], keep)| < |r'| && r'[|Positions(ys[..i], keep)|] == f(ys[i])
    {
      if i == 0 {
        assert Positions(ys[..0], keep) == {};
      } else {
        assert ys[..i] == [x] + xs[..i - 1];
        assert ys[i] == xs[i - 1];
        PositionsCons(x, xs[..i - 1], keep);
      }
    }
  }

  /** An element that satisfies `p` has fewer such elements before it than
      the whole list has. */
  lemma PositionsPrefixLess<T>(xs: seq<T>, i: nat, p: T -> bool)
    requires i < |xs| && p(xs[i])
    ensures |Positions(xs[..i], p)| < |Positions(xs, p)|
  {
    var before := Positions(xs[..i], p);
    var all := Positions(xs, p);
    forall j | j in before ensures j in all {
      assert xs[..i][j] == xs[j];
    }
    assert before + {i} <= all;
    assert all == (before + {i}) + (all - (before + {i}));
  }

  /** `Selects` fixes the list: two lists that both select from `xs` are
      the same list. */
  lemma {:induction false} SelectsUnique<T, U>(r1: seq<U>, r2: seq<U>, xs: seq<T>, keep: T -> bool, f: T -> U)
    requires Selects(r1, xs, keep, f) && Selects(r2, xs, keep, f)
    ensures r1 == r2
    decreases |xs|
  {
    if |xs| == 0 {
      assert Positions(xs, keep) == {};
    } else {
      var n := |xs|;
      var init := xs[..n - 1];
      PositionsSnoc(xs, keep);
      assert xs[..n - 1] == init;
      var m := if keep(xs[n - 1]) then |r1| - 1 else |r1|;
      var s1 := r1[..m];
      var s2 := r2[..m];
      forall i | 0 <= i < |init| && keep(init[i])
        ensures |Positions(init[..i], keep)| < m
        ensures s1[|Positions(init[..i], keep)|] == f(init[i]) && s2[|Positions(init[..i], keep)|] == f(init[i])
      {
        assert xs[..i] == init[..i];
        assert xs[i] == init[i];
        PositionsPrefixLess(init, i, keep);
      }
      SelectsUnique(s1, s2, init, keep, f);
      if keep(xs[n - 1]) {
        assert r1 == s1 + [r1[m]] && r2 == s2 + [r2[m]];
      } else {
        assert r1 == s1 && r2 == s2;
      }
    }
  }

  /** A filter that keeps every copy of each kept value still does so when
      a first element is kept or dropped with the rest. */
  lemma MultisetFilterCons<T>(x: T, r: seq<T>, xs: seq<T>, keep: T -> bool)
    requires forall y :: multiset(r)[y] == if keep(y) then multiset(xs)[y] else 0
    ensures forall y :: multiset((if keep(x) then [x] else []) + r)[y] == if keep(y) then multiset([x] + xs)[y] else 0
  {
  }

  /** Such a filter holds exactly the kept elements. */
  lemma MultisetFilterMembers<T>(r: seq<T>, xs: seq<T>, keep: T -> bool)
    requires forall y :: multiset(r)[y] == if keep(y) then multiset(xs)[y] else 0
    ensures forall y :: y in r <==> y in xs && keep(y)
  {
  }

  /** The elements of `xs` that satisfy `keep`, in their order: LINQ's
      `Where`.  `FilterExact` states what it keeps. */
  function Filter<T>(xs: seq<T>, keep: T -> bool): (r: seq<T>)
    ensures |r| <= |xs|
  {
    if |xs| == 0 then []
    else (if keep(xs[0]) then [xs[0]] else []) + Filter(xs[1..], keep)
  }

  /** `Filter` keeps exactly the elements that satisfy `keep`, every copy
      of them, in their order. */
  lemma {:induction false} FilterExact<T>(xs: seq<T>, keep: T -> bool)
    ensures forall y :: y in Filter(xs, keep) <==> y in xs && keep(y)
    ensures forall y :: multiset(Filter(xs, keep))[y] == if keep(y) then multiset(xs)[y] else 0
    ensures SubsequenceOf(Filter(xs, keep), xs)
    decreases |xs|
  {
    if |xs| > 0 {
      var rest := Filter(xs[1..], keep);
      var r := Filter(xs, keep);
      FilterExact(xs[1..], keep);
      assert xs == [xs[0]] + xs[1..];
      MultisetFilterCons(xs[0], rest, xs[1..], keep);
      MultisetFilterMembers(r, xs, keep);
      if keep(xs[0]) {
        SubsequenceCons(xs[0], rest, xs[1..]);
      } else {
        SubsequenceSkip(xs[0], rest, xs[1..]);
        assert r == rest;
      }
    }
  }

  /** A list whose every element passes is kept whole. */
  lemma {:induction false} FilterAll<T>(xs: seq<T>, keep: T -> bool)
    ensures (forall i :: 0 <= i < |xs| ==> keep(xs[i])) ==> Filter(xs, keep) == xs
    decreases |xs|
  {
    if |xs| > 0 && forall i :: 0 <= i < |xs| ==> keep(xs[i]) {
      assert keep(xs[0]);
      assert forall i :: 0 <= i < |xs[1..]| ==> keep(xs[1..][i]);
      FilterAll(xs[1..], keep);
      assert xs == [xs[0]] + xs[1..];
    }
  }

  /** Every element `Filter` returns satisfies `keep`. */
  lemma {:induction false} FilterKept<T>(xs: seq<T>, keep: T -> bool)
    ensures forall i :: 0 <= i < |Filter(xs, keep)| ==> keep(Filter(xs, keep)[i])
    decreases |xs|
  {
    if |xs| > 0 {
      var head: seq<T> := if keep(xs[0]) then [xs[0]] else [];
      var rest := Filter(xs[1..], keep);
      FilterKept(xs[1..], keep);
      assert Filter(xs, keep) == head + rest;
      forall i | 0 <= i < |head + rest|
        ensures keep((head + rest)[i])
      {
        if i >= |head| {
          assert (head + rest)[i] == rest[i - |head|];
        }
      }
    }
  }

  /** Filtering a list with one more element at the end. */
  lemma {:induction false} FilterSnoc<T>(xs: seq<T>, x: T, keep: T -> bool)
    ensures Filter(xs + [x], keep) == Filter(xs, keep) + if keep(x) then [x] else []
    decreases |xs|
  {
    var ys := xs + [x];
    if |xs| > 0 {
      assert ys[1..] == xs[1..] + [x];
      FilterSnoc(xs[1..], x, keep);
    } else {
      assert ys == [x];
      assert ys[1..] == [];
    }
  }

  /** Nothing is selected from the empty list. */
  lemma SelectsEmpty<T, U>(keep: T -> bool, f: T -> U)
    ensures Selects([], [], keep, f)
  {
    assert Positions([], keep) == {};
  }

  /** Taking out the element at `j` takes one copy of it out of the
      multiset. */
  lemma MultisetRemove<T>(xs: seq<T>, j: nat)
    requires j < |xs|
    ensures multiset(xs[..j] + xs[j + 1..]) == multiset(xs) - multiset{xs[j]}
  {
    assert xs == xs[..j] + [xs[j]] + xs[j + 1..];
  }

  /** Dropping the head takes one copy of it out of the multiset. */
  lemma MultisetTail<T>(xs: seq<T>)
    requires |xs| > 0
    ensures multiset(xs[1..]) == multiset(xs) - multiset{xs[0]}
  {
    assert xs == [xs[0]] + xs[1..];
  }
}

=== FILE: settings_text.dfy ===
/** The text forms in which the view models show list settings and parse
    them back: exclusion lists as `"a"; "b"` (split on `";\s+"` after the
    outer quotes are cut off) and extension lists as `a; b` (split on runs
    of characters other than `*`, `.` and word characters). */
module SettingsText {
  import opened Exceptions
  import opened Common
  import opened Text
  import opened Patterns

  /** What goes between the items of a quoted list. */
  const QuotedSeparator := "\"; \""

  /** What goes between the items of an extension list. */
  const ExtensionListSeparator := "; "

  /** The defaults of `Settings.Init`. */
  const DefaultExtensions: seq<string> := [".*"]
  const DefaultExcludeFolders: seq<string> := ["\\obj\\", "\\bin\\"]

  // ---------------------------------------------------------------------
  // Quoted lists

  /** `"\"" + string.Join("\"; \"", items) + "\""`. */
  function QuotedList(items: seq<string>): (text: string)
    ensures |text| >= 2 && text[0] == '"' && text[|text| - 1] == '"'
  {
    "\"" + Join(QuotedSeparator, items) + "\""
  }

  /** Desktop `ConvertArrayToString`: empty text for a missing or empty
      array, the quoted list otherwise. */
  function ConvertArrayToString(values: Option<seq<string>>): (text: string)
    ensures |text| == 0 <==> values.None? || |values.value| == 0
    ensures |text| > 0 ==> text == QuotedList(values.value)
  {
    if values.None? || |values.value| == 0 then "" else QuotedList(values.value)
  }

  /** `text.Substring(1, text.Length - 2)` split on `";\s+"`, blank items
      dropped; a text shorter than two characters makes `Substring` throw. */
  function Unquote(text: string): (r: Result<seq<string>>)
    ensures r.Throws? <==> |text| < 2
    ensures r.Throws? ==> r.kind == ArgumentOutOfRange
    ensures r.Ok? ==> forall i :: 0 <= i < |r.value| ==> !IsBlank(r.value[i])
  {
    if |text| < 2 then Throws(ArgumentOutOfRange)
    else Ok(WhereNotBlank(RegexSplit(QuoteSeparator, text[1..|text| - 1])))
  }

  /** A text of one character that is not white space: it passes the
      blank test, and `Substring(1, -1)` then throws. */
  predicate LoneVisible(text: string)
  {
    |text| == 1 && !IsBlank(text)
  }

  /** Desktop `ConvertToArray`: a blank text is the empty list. */
  function ConvertToArray(text: string): (r: Result<seq<string>>)
    ensures IsBlank(text) ==> r == Ok([])
    ensures r.Throws? <==> LoneVisible(text)
    ensures r.Throws? ==> r.kind == ArgumentOutOfRange
    ensures r.Ok? ==> forall i :: 0 <= i < |r.value| ==> !IsBlank(r.value[i])
  {
    if IsBlank(text) then Ok([]) else Unquote(text)
  }

  /** Older `SaveSettings` for the excluded folders: a blank text keeps the
      stored list. */
  function ParseExcludeFolders(stored: seq<string>, text: string): (r: Result<seq<string>>)
    ensures IsBlank(text) ==> r == Ok(stored)
    ensures r.Throws? <==> LoneVisible(text)
    ensures r.Throws? ==> r.kind == ArgumentOutOfRange
    ensures r.Ok? && !IsBlank(text) ==> forall i :: 0 <= i < |r.value| ==> !IsBlank(r.value[i])
  {
    if IsBlank(text) then Ok(stored) else Unquote(text)
  }

  /** An item that survives the quoted form. */
  predicate QuotableItem(item: string)
  {
    !IsBlank(item) && '"' !in item
  }

  /** A match with none before it is the leftmost one. */
  lemma LeftmostMatchIs(p: SplitPattern, s: string, from: nat, m: nat)
    requires from <= m && MatchLength(p, s, m) > 0
    requires forall k :: from <= k < m ==> MatchLength(p, s, k) == 0
    ensures LeftmostMatch(p, s, from) == Some(m)
  {
    LeftmostMatchFirst(p, s, from);
  }

  /** Without a quote nothing matches `";\s+"`. */
  lemma NoQuoteNoSplit(s: string)
    requires '"' !in s
    ensures RegexSplit(QuoteSeparator, s) == [s]
  {
    forall k | 0 <= k ensures MatchLength(QuoteSeparator, s, k) == 0 {
      if k < |s| {
        assert s[k] in s;
      }
    }
  }

  /** Splitting the joined items on `";\s+"` gives the items back. */
  lemma {:induction false} SplitQuotedJoin(items: seq<string>)
    requires |items| >= 1
    requires forall i :: 0 <= i < |items| ==> '"' !in items[i]
    ensures RegexSplit(QuoteSeparator, Join(QuotedSeparator, items)) == items
    decreases |items|
  {
    var x := items[0];
    if |items| == 1 {
      NoQuoteNoSplit(x);
    } else {
      var rest := Join(QuotedSeparator, items[1..]);
      var s := x + QuotedSeparator + rest;
      JoinCons(QuotedSeparator, x, items[1..]);
      QuoteSeparatorAt(x, rest);
      ThreeParts(x, QuotedSeparator, rest);
      SplitQuotedJoin(items[1..]);
      assert items == [x] + items[1..];
    }
  }

  /** In an item without quotes followed by the quoted separator, the first
      match of `";\s+"` is the separator itself. */
  lemma QuoteSeparatorAt(x: string, rest: string)
    requires '"' !in x
    ensures LeftmostMatch(QuoteSeparator, x + QuotedSeparator + rest, 0) == Some(|x|)
    ensures MatchLength(QuoteSeparator, x + QuotedSeparator + rest, |x|) == |QuotedSeparator|
  {
    var s := x + QuotedSeparator + rest;
    forall k | 0 <= k < |x| ensures MatchLength(QuoteSeparator, s, k) == 0 {
      assert s[k] == x[k];
      assert x[k] in x;
    }
    assert s[|x|] == '"' && s[|x| + 1] == ';';
    assert s[|x| + 2..] == " " + ("\"" + rest);
    RunStopsAt(White, " ", "\"" + rest);
    LeftmostMatchIs(QuoteSeparator, s, 0, |x|);
  }

  /** Quoting then unquoting gives the items back, the empty list too
      (it is shown as `""`). */
  lemma QuotedListRoundTrip(items: seq<string>)
    requires forall i :: 0 <= i < |items| ==> QuotableItem(items[i])
    ensures Unquote(QuotedList(items)) == Ok(items)
  {
    var text := QuotedList(items);
    assert text[1..|text| - 1] == Join(QuotedSeparator, items);
    if |items| == 0 {
      assert RegexSplit(QuoteSeparator, "") == [""];
      assert WhereNotBlank([""][1..]) == [];
    } else {
      SplitQuotedJoin(items);
    }
  }

  /** `ConvertToArray(ConvertArrayToString(a))` gives `a` back, a missing
      array coming back as the empty one. */
  lemma ConvertRoundTrip(values: Option<seq<string>>)
    requires values.Some? ==> forall i :: 0 <= i < |values.value| ==> QuotableItem(values.value[i])
    ensures ConvertToArray(ConvertArrayToString(values)) == Ok(if values.None? then [] else values.value)
  {
    if values.Some? && |values.value| > 0 {
      QuotedListRoundTrip(values.value);
      var text := QuotedList(values.value);
      assert !IsWhiteSpace(text[0]);
    }
  }

  /** The older view model shows the folders quoted even when there are
      none, and parses what it showed back into the same list. */
  lemma ExcludeFoldersRoundTrip(stored: seq<string>, items: seq<string>)
    requires forall i :: 0 <= i < |items| ==> QuotableItem(items[i])
    ensures ParseExcludeFolders(stored, QuotedList(items)) == Ok(items)
  {
    QuotedListRoundTrip(items);
    assert !IsWhiteSpace(QuotedList(items)[0]);
  }

  /** A lone character that is not white space cannot be unquoted. */
  lemma OneCharacterThrows(c: char)
    requires !IsWhiteSpace(c)
    ensures ConvertToArray([c]) == Throws(ArgumentOutOfRange)
    ensures ParseExcludeFolders([], [c]) == Throws(ArgumentOutOfRange)
  {
    assert !IsBlank([c]) by { assert [c][0] == c; }
  }

  // ---------------------------------------------------------------------
  // Extension lists

  /** An extension the list text can carry: non-empty, and made of `*`,
      `.` and word characters only. */
  predicate ExtensionText(e: string)
  {
    |e| > 0 && SeparatorFree(e)
  }

  /** No character of `e` is a separator of the extension list. */
  predicate SeparatorFree(e: string)
  {
    forall i :: 0 <= i < |e| ==> !IsExtensionSeparator(e[i])
  }

  /** `string.Join("; ", extensions)` of `LoadSettings`. */
  function ShowExtensions(exts: seq<string>): string
  {
    Join(ExtensionListSeparator, exts)
  }

  /** `SaveSettings` for the extensions: a blank text keeps the stored
      list, otherwise the list is the text split on `[^\*\.\w]+` with the
      blank pieces dropped. */
  function ParseExtensions(stored: seq<string>, text: string): (r: seq<string>)
    ensures IsBlank(text) ==> r == stored
    ensures !IsBlank(text) ==> forall i :: 0 <= i < |r| ==> ExtensionText(r[i])
  {
    if IsBlank(text) then stored
    else
      var pieces := RegexSplit(ExtensionSeparators, text);
      ExtensionPiecesClean(text);
      WhereNotBlank(pieces)
  }

  /** No piece of a split on `[^\*\.\w]+` holds a separator character. */
  lemma {:induction false} ExtensionPiecesClean(s: string)
    ensures forall p :: p in RegexSplit(ExtensionSeparators, s) ==> SeparatorFree(p)
    decreases |s|
  {
    LeftmostMatchFirst(ExtensionSeparators, s, 0);
    match LeftmostMatch(ExtensionSeparators, s, 0)
    case None =>
      NoMatchBeforeFree(s, |s|);
      assert s[..|s|] == s;
    case Some(i) =>
      var tail := s[i + MatchLength(ExtensionSeparators, s, i)..];
      ExtensionPiecesClean(tail);
      NoMatchBeforeFree(s, i);
  }

  /** Text in which no separator run starts holds no separator. */
  lemma NoMatchBeforeFree(s: string, i: nat)
    requires i <= |s|
    requires forall k :: 0 <= k < i ==> MatchLength(ExtensionSeparators, s, k) == 0
    ensures SeparatorFree(s[..i])
  {
    forall k | 0 <= k < i ensures !IsExtensionSeparator(s[..i][k]) {
      assert MatchLength(ExtensionSeparators, s, k) == 0;
    }
  }

  /** The joined list starts with its first item. */
  lemma JoinStartsWith(sep: string, items: seq<string>)
    requires |items| >= 1
    ensures StartsWith(Join(sep, items), items[0])
  {
  }

  /** Splitting the `"; "`-joined extensions gives them back. */
  lemma {:induction false} SplitExtensionJoin(exts: seq<string>)
    requires |exts| >= 1
    requires forall i :: 0 <= i < |exts| ==> ExtensionText(exts[i])
    ensures RegexSplit(ExtensionSeparators, Join(ExtensionListSeparator, exts)) == exts
    decreases |exts|
  {
    var x := exts[0];
    if |exts| == 1 {
      forall k | 0 <= k ensures MatchLength(ExtensionSeparators, x, k) == 0 {
      }
    } else {
      var rest := Join(ExtensionListSeparator, exts[1..]);
      var s := x + ExtensionListSeparator + rest;
      JoinCons(ExtensionListSeparator, x, exts[1..]);
      JoinStartsWith(ExtensionListSeparator, exts[1..]);
      assert rest[0] == exts[1][0];
      ExtensionSeparatorAt(x, rest);
      ThreeParts(x, ExtensionListSeparator, rest);
      SplitExtensionJoin(exts[1..]);
      assert exts == [x] + exts[1..];
    }
  }

  /** In a separator-free extension followed by `"; "` and an extension,
      the first run of separator characters is exactly `"; "`. */
  lemma ExtensionSeparatorAt(x: string, rest: string)
    requires SeparatorFree(x) && |rest| > 0 && !IsExtensionSeparator(rest[0])
    ensures LeftmostMatch(ExtensionSeparators, x + ExtensionListSeparator + rest, 0) == Some(|x|)
    ensures MatchLength(ExtensionSeparators, x + ExtensionListSeparator + rest, |x|) == |ExtensionListSeparator|
  {
    var s := x + ExtensionListSeparator + rest;
    ThreeParts(x, ExtensionListSeparator, rest);
    ListSeparatorRun(rest);
    forall k | 0 <= k < |x| ensures MatchLength(ExtensionSeparators, s, k) == 0 {
      assert s[k] == x[k];
    }
    assert IsExtensionSeparator(s[|x|]);
    LeftmostMatchIs(ExtensionSeparators, s, 0, |x|);
  }

  /** The separator run of `"; "` stops before an extension. */
  lemma ListSeparatorRun(rest: string)
    requires |rest| > 0 && !IsExtensionSeparator(rest[0])
    ensures Run(ExtensionSeparator, ExtensionListSeparator + rest) == ExtensionListSeparator
  {
    assert AllIn(ExtensionSeparator, ExtensionListSeparator) by {
      assert IsExtensionSeparator(';') && IsExtensionSeparator(' ');
    }
    RunStopsAt(ExtensionSeparator, ExtensionListSeparator, rest);
  }

  /** Showing the extensions and parsing the text back gives the same list;
      the empty list is shown as blank text and so is kept as stored. */
  lemma ExtensionsRoundTrip(exts: seq<string>)
    requires forall i :: 0 <= i < |exts| ==> ExtensionText(exts[i])
    ensures ParseExtensions(exts, ShowExtensions(exts)) == exts
  {
    if |exts| > 0 {
      SplitExtensionJoin(exts);
      JoinStartsWith(ExtensionListSeparator, exts);
      assert !IsWhiteSpace(ShowExtensions(exts)[0]) by {
        assert ShowExtensions(exts)[0] == exts[0][0];
      }
      forall i | 0 <= i < |exts| ensures !IsBlank(exts[i]) {
        assert !IsWhiteSpace(exts[i][0]);
      }
    }
  }

  /** The defaults survive both round trips. */
  lemma DefaultsRoundTrip()
    ensures ParseExtensions(DefaultExtensions, ShowExtensions(DefaultExtensions)) == DefaultExtensions
    ensures ParseExcludeFolders([], QuotedList(DefaultExcludeFolders)) == Ok(DefaultExcludeFolders)
  {
    assert ExtensionText(DefaultExtensions[0]);
    assert QuotableItem(DefaultExcludeFolders[0]) by {
      assert !IsWhiteSpace(DefaultExcludeFolders[0][0]);
    }
    assert QuotableItem(DefaultExcludeFolders[1]) by {
      assert !IsWhiteSpace(DefaultExcludeFolders[1][0]);
    }
    ExtensionsRoundTrip(DefaultExtensions);
    ExcludeFoldersRoundTrip([], DefaultExcludeFolders);
  }
}

=== FILE: syntax.dfy ===
/** The part of a Roslyn syntax tree the console tool reads, taken as
    input instead of being parsed: the class declarations, the property
    declarations and the member-access expressions of one source file,
    each list in document order. */
module Syntax {
  import opened Common
  import opened Exceptions

  /** The modifier keywords a property declaration can carry. */
  datatype Modifier =
    | InternalKeyword
    | StaticKeyword
    | PublicKeyword
    | PrivateKeyword
    | ProtectedKeyword
    | OtherModifier

  /** A `PropertyDeclarationSyntax`: its modifiers, the text of its type,
      its identifier, and whether the semantic model resolves it to a
      property symbol. */
  datatype PropertyDecl = PropertyDecl(
    modifiers: seq<Modifier>,
    typeText: string,
    ident: string,
    symbolIsProperty: bool)

  /** The expression left of the dot: a plain identifier, or anything else
      (another member access, a call, `this`, ...). */
  datatype Receiver = Ident(text: string) | OtherExpression

  /** A `MemberAccessExpressionSyntax` `receiver.name`. */
  datatype MemberAccess = MemberAccess(receiver: Receiver, name: string)

  /** The descendant nodes of one parsed file, grouped by kind.  Nested
      classes are listed with the outer ones. */
  datatype Tree = Tree(
    classes: seq<string>,
    properties: seq<PropertyDecl>,
    memberAccesses: seq<MemberAccess>)

  /** The designer file is assumed to hold one class: more than one throws
      `InvalidOperationException`, and none makes `Single()` throw the
      same exception. */
  function SoleClass(classes: seq<string>): (r: Result<string>)
    ensures r.Ok? <==> |classes| == 1
    ensures r.Ok? ==> r.value == classes[0]
    ensures r.Throws? ==> r.kind == InvalidOperation
  {
    if |classes| > 1 then Throws(InvalidOperation)
    else if |classes| == 0 then Throws(InvalidOperation)
    else Ok(classes[0])
  }

  /** Both `internal` and `static` are among the modifiers. */
  predicate InternalStatic(p: PropertyDecl)
  {
    InternalKeyword in p.modifiers && StaticKeyword in p.modifiers
  }
}

=== FILE: text.dfy ===
/** The ordinal string operations the tool relies on: substring search,
    `StringExtensions.Split` (which is `String.Split(string[], None)`),
    `String.Join`, `String.Replace` and `String.IsNullOrWhiteSpace`. */
module Text {
  import opened Common

  /** `sep` occurs in `s` starting at index `j`. */
  predicate MatchAt(s: string, sep: string, j: int)
  {
    0 <= j && j + |sep| <= |s| && s[j..j + |sep|] == sep
  }

  /** `s.Contains(sub)`, ordinal. */
  predicate Contains(s: string, sub: string)
  {
    exists j :: 0 <= j <= |s| && MatchAt(s, sub, j)
  }

  /** `s.StartsWith(p)`, ordinal. */
  predicate StartsWith(s: string, p: string)
  {
    |p| <= |s| && s[..|p|] == p
  }

  /** `s.EndsWith(p)`, ordinal. */
  predicate EndsWith(s: string, p: string)
  {
    |p| <= |s| && s[|s| - |p|..] == p
  }

  /** `s.IndexOf(sep, StringComparison.Ordinal)`: the first occurrence. */
  function IndexOf(s: string, sep: string): (r: Option<nat>)
    ensures r.Some? ==> MatchAt(s, sep, r.value)
    ensures r.Some? ==> forall j :: 0 <= j < r.value ==> !MatchAt(s, sep, j)
    ensures r.None? <==> !Contains(s, sep)
    decreases |s|
  {
    if |s| < |sep| then None
    else if s[..|sep|] == sep then Some(0)
    else
      MatchAtShift(s, sep);
      match IndexOf(s[1..], sep)
      case None => None
      case Some(k) => Some(k + 1)
  }

  lemma MatchAtShift(s: string, sep: string)
    requires |s| > 0
    ensures forall j :: 0 <= j && MatchAt(s[1..], sep, j) ==> MatchAt(s, sep, j + 1)
    ensures forall j :: 1 <= j && MatchAt(s, sep, j) ==> MatchAt(s[1..], sep, j - 1)
  {
    forall j | 0 <= j ensures MatchAt(s[1..], sep, j) <==> MatchAt(s, sep, j + 1) {
      if j + |sep| <= |s| - 1 {
        assert s[1..][j..j + |sep|] == s[j + 1..j + 1 + |sep|];
      }
    }
  }

  /** An occurrence with none before it is the one `IndexOf` finds. */
  lemma IndexOfIs(s: string, sep: string, k: nat)
    requires MatchAt(s, sep, k)
    requires forall j :: 0 <= j < k ==> !MatchAt(s, sep, j)
    ensures IndexOf(s, sep) == Some(k)
  {
  }

  /** An occurrence that ends inside `a` is an occurrence in `a + b`. */
  lemma MatchAtPrefix(a: string, b: string, sep: string, j: int)
    requires 0 <= j && j + |sep| <= |a|
    ensures MatchAt(a + b, sep, j) <==> MatchAt(a, sep, j)
  {
    assert (a + b)[j..j + |sep|] == a[j..j + |sep|];
  }

  /** An occurrence in the suffix `b` is an occurrence in `a + b`. */
  lemma MatchAtSuffix(a: string, b: string, sep: string, j: int)
    requires 0 <= j
    ensures MatchAt(a + b, sep, |a| + j) <==> MatchAt(b, sep, j)
  {
    if 0 <= j && j + |sep| <= |b| {
      assert (a + b)[|a| + j..|a| + j + |sep|] == b[j..j + |sep|];
    }
  }

  /** `String.IsNullOrWhiteSpace` (non-null case): every character is white space. */
  predicate IsBlank(s: string)
  {
    forall i :: 0 <= i < |s| ==> IsWhiteSpace(s[i])
  }

  /** `Char.IsWhiteSpace`, which is also the class `\s` of .NET regular
      expressions: the separators of Unicode categories Zs, Zl and Zp and
      the controls U+0009 to U+000D and U+0085. */
  predicate IsWhiteSpace(c: char)
  {
    || c == ' ' || ('\t' <= c <= '\r') || c == '\U{0085}' || c == '\U{00A0}'
    || c == '\U{1680}' || ('\U{2000}' <= c <= '\U{200A}') || c == '\U{2028}'
    || c == '\U{2029}' || c == '\U{202F}' || c == '\U{205F}' || c == '\U{3000}'
  }

  /** Upper-casing of the ASCII letters; every other character is left
      as it is. */
  function UpperAscii(c: char): char
  {
    if 'a' <= c <= 'z' then (c as int - 32) as char else c
  }

  /** `a.Equals(b, StringComparison.OrdinalIgnoreCase)` on ASCII text. */
  predicate EqualsIgnoreCase(a: string, b: string)
  {
    |a| == |b| && forall i :: 0 <= i < |a| ==> UpperAscii(a[i]) == UpperAscii(b[i])
  }

  /** `s.LastIndexOf(c)`: the last occurrence of a character. */
  function LastIndexOf(s: string, c: char): (r: Option<nat>)
    ensures r.Some? ==> r.value < |s| && s[r.value] == c
    ensures r.Some? ==> forall k :: r.value < k < |s| ==> s[k] != c
    ensures r.None? ==> c !in s
  {
    if |s| == 0 then None
    else if s[|s| - 1] == c then Some(|s| - 1)
    else
      var r := LastIndexOf(s[..|s| - 1], c);
      assert forall k :: 0 <= k < |s| - 1 ==> s[..|s| - 1][k] == s[k];
      r
  }

  /** A separator with a character that `s` lacks does not occur in `s`. */
  lemma MissingCharNotContained(s: string, sep: string, m: nat)
    requires m < |sep| && sep[m] !in s
    ensures !Contains(s, sep)
  {
    forall j | 0 <= j <= |s| ensures !MatchAt(s, sep, j) {
      if j + |sep| <= |s| {
        assert s[j..j + |sep|][m] == s[j + m];
      }
    }
  }

  /** A string with a non-white-space character is contained in no blank line. */
  lemma BlankContainsNoVisibleText(line: string, key: string, m: nat)
    requires IsBlank(line)
    requires m < |key| && !IsWhiteSpace(key[m])
    ensures !Contains(line, key)
  {
    forall j | 0 <= j <= |line| ensures !MatchAt(line, key, j) {
      if j + |key| <= |line| {
        assert line[j..j + |key|][m] == line[j + m];
      }
    }
  }

  /** `StringExtensions.Split(value, separator)`: the pieces between the
      non-overlapping left-to-right occurrences of `sep`, empty pieces kept. */
  function Split(s: string, sep: string): (r: seq<string>)
    requires |sep| > 0
    ensures |r| >= 1
    ensures |r| == 1 <==> !Contains(s, sep)
    ensures !Contains(s, sep) ==> r == [s]
    decreases |s|
  {
    match IndexOf(s, sep)
    case None => [s]
    case Some(k) => [s[..k]] + Split(s[k + |sep|..], sep)
  }

  /** `String.Join(sep, pieces)`. */
  function Join(sep: string, pieces: seq<string>): string
  {
    if |pieces| == 0 then ""
    else if |pieces| == 1 then pieces[0]
    else pieces[0] + sep + Join(sep, pieces[1..])
  }

  /** `s.Replace(old, new)`: every non-overlapping left-to-right occurrence
      of `oldValue` replaced. */
  function Replace(s: string, oldValue: string, newValue: string): (r: string)
    requires |oldValue| > 0
    ensures !Contains(s, oldValue) ==> r == s
  {
    Join(newValue, Split(s, oldValue))
  }

  lemma JoinCons(sep: string, p: string, rest: seq<string>)
    requires |rest| >= 1
    ensures Join(sep, [p] + rest) == p + sep + Join(sep, rest)
  {
    assert ([p] + rest)[1..] == rest;
  }

  /** Joining the pieces with the separator gives back the original string. */
  lemma {:induction false} JoinSplit(s: string, sep: string)
    requires |sep| > 0
    ensures Join(sep, Split(s, sep)) == s
    decreases |s|
  {
    match IndexOf(s, sep)
    case None =>
    case Some(k) =>
      var tail := s[k + |sep|..];
      var rest := Split(tail, sep);
      JoinSplit(tail, sep);
      JoinCons(sep, s[..k], rest);
      Reassemble(s, sep, k);
  }

  /** A string is the text before an occurrence, the occurrence, and the
      text after it. */
  lemma Reassemble(s: string, sep: string, k: nat)
    requires MatchAt(s, sep, k)
    ensures s == s[..k] + sep + s[k + |sep|..]
  {
    assert s == s[..k] + s[k..k + |sep|] + s[k + |sep|..];
  }

  /** Cutting a three-part text after its first part leaves the other two,
      and cutting it before its last part leaves the first two. */
  lemma ThreeParts(a: string, b: string, c: string)
    ensures (a + b + c)[..|a|] == a
    ensures (a + b + c)[|a|..] == b + c
    ensures (a + b + c)[|a| + |b|..] == c
    ensures (a + b + c)[|a|..|a| + |b|] == b
  {
  }

  /** Concatenation regrouped to the right of the second part. */
  lemma Regroup(a: string, b: string, c: string, d: string, e: string)
    ensures a + b + c + d + e == a + b + (c + d + e)
  {
  }

  /** After a separable prefix the first occurrence of `sep` is the one
      that follows it, and cutting there gives the prefix and the rest. */
  lemma FirstAfterSeparable(p: string, sep: string, rest: string)
    requires Separable(p, sep)
    ensures IndexOf(p + sep + rest, sep) == Some(|p|)
    ensures (p + sep + rest)[..|p|] == p
    ensures (p + sep + rest)[|p| + |sep|..] == rest
  {
    var s := p + sep + rest;
    ThreeParts(p, sep, rest);
    forall j | 0 <= j < |p| ensures !MatchAt(s, sep, j) {
      MatchAtPrefix(p + sep, rest, sep, j);
    }
    IndexOfIs(s, sep, |p|);
  }

  /** No occurrence of `sep` lies inside a piece. */
  lemma {:induction false} SplitPiecesFree(s: string, sep: string)
    requires |sep| > 0
    ensures forall i :: 0 <= i < |Split(s, sep)| ==> !Contains(Split(s, sep)[i], sep)
    decreases |s|
  {
    match IndexOf(s, sep)
    case None =>
    case Some(k) =>
      SplitPiecesFree(s[k + |sep|..], sep);
      PrefixBeforeFirstIsFree(s, sep, k);
  }

  lemma PrefixBeforeFirstIsFree(s: string, sep: string, k: nat)
    requires |sep| > 0 && k <= |s|
    requires forall j :: 0 <= j < k ==> !MatchAt(s, sep, j)
    ensures !Contains(s[..k], sep)
  {
    forall j | 0 <= j <= k ensures !MatchAt(s[..k], sep, j) {
      if j + |sep| <= k {
        assert s[..k][j..j + |sep|] == s[j..j + |sep|];
        assert MatchAt(s[..k], sep, j) ==> MatchAt(s, sep, j);
        assert j < k;
      }
    }
  }

  /** The first piece is the prefix of `s` up to the first occurrence of
      `sep`, or all of `s` when there is none. */
  lemma FirstPiece(s: string, sep: string)
    requires |sep| > 0
    ensures var p := Split(s, sep)[0];
      && StartsWith(s, p)
      && !Contains(p, sep)
      && (p == s || MatchAt(s, sep, |p|))
      && forall j :: 0 <= j < |p| ==> !MatchAt(s, sep, j)
  {
    SplitPiecesFree(s, sep);
    match IndexOf(s, sep)
    case None =>
    case Some(k) =>
      assert Split(s, sep)[0] == s[..k];
  }

  /** With a one-character separator the number of pieces is one more than
      the number of times that character occurs. */
  lemma {:induction false} SplitCharCount(s: string, c: char)
    ensures |Split(s, [c])| == 1 + multiset(s)[c]
    decreases |s|
  {
    match IndexOf(s, [c])
    case None =>
      CharFree(s, c);
    case Some(k) =>
      var rest := s[k + 1..];
      SplitCharCount(rest, c);
      PrefixBeforeFirstIsFree(s, [c], k);
      CharFree(s[..k], c);
      Reassemble(s, [c], k);
      assert multiset(s)[c] == multiset(s[..k])[c] + 1 + multiset(rest)[c];
  }

  /** A one-character separator occurs exactly where that character does. */
  lemma CharFree(s: string, c: char)
    ensures !Contains(s, [c]) <==> multiset(s)[c] == 0
  {
    if c in s {
      var j :| 0 <= j < |s| && s[j] == c;
      assert s[j..j + 1] == [c];
      assert MatchAt(s, [c], j);
    }
    forall j | 0 <= j <= |s| && MatchAt(s, [c], j) ensures c in s {
      assert s[j] == s[j..j + 1][0];
    }
  }

  /** `p` can stand before a separator without the separator being found
      earlier: no occurrence of `sep` in `p + sep` starts inside `p`. */
  predicate Separable(p: string, sep: string)
  {
    forall j :: 0 <= j < |p| ==> !MatchAt(p + sep, sep, j)
  }

  lemma SeparableIsFree(p: string, sep: string)
    requires |sep| > 0 && Separable(p, sep)
    ensures !Contains(p, sep)
  {
    if Contains(p, sep) {
      var j :| 0 <= j <= |p| && MatchAt(p, sep, j);
      MatchAtPrefix(p, sep, sep, j);
    }
  }

  /** A piece without the separator character is separable by it. */
  lemma SeparableChar(p: string, c: char)
    requires c !in p
    ensures Separable(p, [c])
  {
    forall j | 0 <= j < |p| ensures !MatchAt(p + [c], [c], j) {
      assert (p + [c])[j..j + 1][0] == p[j];
    }
  }

  /** Splitting the joined pieces gives them back, when each piece is
      separable from the separator that follows it. */
  lemma {:induction false} SplitJoin(pieces: seq<string>, sep: string)
    requires |sep| > 0 && |pieces| >= 1
    requires forall i :: 0 <= i < |pieces| ==> Separable(pieces[i], sep)
    ensures Split(Join(sep, pieces), sep) == pieces
    decreases |pieces|
  {
    var p := pieces[0];
    if |pieces| == 1 {
      SeparableIsFree(p, sep);
    } else {
      var rest := Join(sep, pieces[1..]);
      var s := p + sep + rest;
      assert Join(sep, pieces) == s;
      assert MatchAt(s, sep, |p|) by {
        assert s[|p|..|p| + |sep|] == sep;
      }
      forall j | 0 <= j < |p| ensures !MatchAt(s, sep, j) {
        MatchAtPrefix(p + sep, rest, sep, j);
      }
      IndexOfIs(s, sep, |p|);
      assert s[..|p|] == p;
      assert s[|p| + |sep|..] == rest;
      SplitJoin(pieces[1..], sep);
      assert pieces == [p] + pieces[1..];
    }
  }

  /** With a one-character separator first found at `k`, the first piece
      is the text before `k`. */
  lemma SplitFirstChar(s: string, c: char, k: nat)
    requires k < |s| && s[k] == c && c !in s[..k]
    ensures Split(s, [c])[0] == s[..k]
  {
    assert MatchAt(s, [c], k) by {
      assert s[k..k + 1] == [c];
    }
    forall j | 0 <= j < k ensures !MatchAt(s, [c], j) {
      assert s[j..j + 1][0] == s[..k][j];
    }
    IndexOfIs(s, [c], k);
  }

  /** The last piece of `a + [c] + b` is `b` when `b` has no `c`. */
  lemma {:induction false} LastPieceAfterSeparator(a: string, c: char, b: string)
    requires c !in b
    ensures var ps := Split(a + [c] + b, [c]); ps[|ps| - 1] == b
    decreases |a|
  {
    var s := a + [c] + b;
    assert MatchAt(s, [c], |a|) by {
      assert s[|a|..|a| + 1] == [c];
    }
    var k := IndexOf(s, [c]).value;
    assert k <= |a|;
    if k == |a| {
      assert s[k + 1..] == b;
      CharFree(b, c);
    } else {
      assert s[k + 1..] == a[k + 1..] + [c] + b;
      LastPieceAfterSeparator(a[k + 1..], c, b);
    }
  }
}
